=== FILE: README.md ===
# Verified model of the textbook chat backend

This project models, in Dafny, the core logic of the Python backend that answers students' questions about the Physical AI and Humanoid Robotics textbook with retrieval-augmented generation (RAG).

It covers two parts of that backend.

The indexing script, `backend/main.py`:
- sliding-window chunking of extracted text;
- batched embedding with a rate-limit retry;
- the points written to the vector store;
- the check for missing environment variables;
- the title and whitespace clean-up of MDX pages.

The chat service under `backend/app`:
- the RAG prompt and the list of sources returned with an answer;
- the embedding service's validation, truncation, filtering and batching, with its three-attempt retry;
- the Qdrant wrapper's collection check, search filter and point mappings;
- the API error responses;
- the settings helpers;
- the request schemas' field constraints;
- the rewrite of the database URL to the asyncpg scheme.

Calls into SDKs and services cannot be seen from here, so they are parameters of the model:
- the embedding provider;
- the Qdrant client;
- the chat model;
- `int()` on an environment variable;
- `uuid4`;
- the clock.

A retrying call becomes a function from the attempt number to that attempt's outcome.

The modules follow the program's structure:

| module | file | models |
|---|---|---|
| `Wrappers` | wrappers.dfy | `Option`, `Result`, `Outcome` |
| `Text` | text.dfy | the Python string operations the code uses: `strip`, `split()`, `split(sep)`, `join`, `lower`, `str(int)` |
| `Retrying` | retrying.dfy | tenacity's `stop_after_attempt(3)` with `reraise` off |
| `Batching` | batching.dfy | consecutive fixed-size slices and their concatenation |
| `Chunker` | chunker.dfy | `chunk_text` |
| `Indexing` | indexing.dfy | `load_config`, `embed`, `save_chunk_to_qdrant`, and the title and clean-up of the two extractors |
| `Embedding` | embedding.dfy | `EmbeddingService` |
| `VectorStore` | vector_store.dfy | the Qdrant helper functions |
| `Rag` | rag.dfy | `RAGService` |
| `ErrorHandler` | errors.dfy | the error middleware |
| `Config` | config.dfy | `Settings` |
| `ChatSchemas` | schemas.dfy | the chat request and response schemas |
| `Database` | database.dfy | the URL rewrite |

The source's loops are written as Dafny methods with loop invariants, each proved equal to a specification function:
- `chunk_text`;
- the two loops of `embed`;
- `embed_texts`' batch loop;
- `_build_user_prompt`;
- the source list of `answer_question`.

`ensure_collection_exists` changes the set of collections. It is a method of a class that holds the collections and their vector sizes.

## Model

| member | source | states |
|---|---|---|
| Text.Strip | backend/main.py:251 | `strip()` gives a contiguous slice of its argument. The slice is empty exactly when the argument is all whitespace. Otherwise it starts and ends with a non-whitespace character, and everything it cuts off on either side is whitespace. |
| Text.IsWhitespace | backend/main.py:251 | Python's `str.isspace()` set, which `strip()` and `split()` use. `Text.Strip`, `Text.Words` and `Text.NormalizeWhitespace` state their results in its terms. |
| Text.Words | backend/main.py:544 | `split()` with no argument. Its own ensures: no words exactly when the text is all whitespace. `Text.WordsOfJoin` and `Text.NormalizeWhitespace` state that the words are the maximal non-whitespace runs, in order. |
| Text.NormalizeWhitespace | backend/main.py:543-544 | `' '.join(content.split())` has no leading, trailing or doubled space. It is empty exactly when the input is all whitespace, and it has the same words, in the same order, as the input. |
| Text.WordsOfJoin | backend/main.py:544 | Joining words with single spaces and splitting the result again gives back exactly those words. |
| Text.Join | backend/app/services/rag_service.py:104 | `sep.join(parts)`. `Text.WordsOfJoin` and `Text.SplitOfJoin` prove it inverse to `Words` and `Split`. |
| Text.Split | backend/app/config.py:101 | `s.split(sep)` for a one-character separator. Its own ensures: at least one piece, and no piece holds the separator. `Text.SplitLength` and `Text.SplitOfJoin` state the rest. |
| Text.SplitLength | backend/app/config.py:101 | `s.split(",")` has one more piece than `s` has commas. |
| Text.SplitOfJoin | backend/app/middleware/error_handler.py:142 | Splitting a separator-joined list at the separator gives back the list, when no part contains the separator. |
| Text.Lower | backend/app/config.py:106 | Lower-casing keeps the length and maps every character on its own. |
| Text.NatToDecimal | backend/app/services/rag_service.py:98 | `str(i)` of a natural number is a non-empty string of digits with no leading zero. |
| Text.DecimalRoundTrip | backend/app/services/rag_service.py:98 | Reading back the digits of `str(n)` gives `n`. |
| Retrying.FirstSuccessWins | backend/app/services/embedding_service.py:38-41 | The retried call returns the value of the first attempt that succeeds. |
| Retrying.Retried | backend/app/services/embedding_service.py:38-41 | `@retry(stop=stop_after_attempt(3))` with `reraise` off: attempts 0, 1, 2 in turn. `Retrying.FirstSuccessWins`, `Retrying.FailureMeansAllAttemptsFailed` and `Retrying.SuccessComesFromAnAttempt` state its behaviour. |
| Retrying.RetryFrom | backend/app/services/rag_service.py:118-121 | The attempts from a given one on. The three `Retrying` lemmas are stated over it. |
| Retrying.FailureMeansAllAttemptsFailed | backend/app/services/embedding_service.py:38-41 | A retried call fails only when every attempt failed. It then raises a `RetryError` that wraps the last attempt's error. |
| Retrying.SuccessComesFromAnAttempt | backend/app/services/rag_service.py:118-121 | A successful retried call returns the value of an attempt before which every attempt failed. |
| Batching.Batches | backend/main.py:303-304 | Every batch holds between 1 and `size` items. Every batch but the last is full. There are no batches exactly when there are no items. |
| Batching.FlattenBatches | backend/main.py:303-317 | Concatenating the batches in order gives back the input. |
| Batching.FlattenPointwise | backend/app/services/embedding_service.py:103-111 | When the batch function maps items one by one, the concatenated batch results are that map applied to the input. |
| Batching.FlattenLengthPreserving | backend/app/services/embedding_service.py:103-111 | When the batch function keeps each batch's length, the concatenated output is as long as the input. |
| Chunker.WindowEnd | backend/main.py:242-249 | The window `[start, end)` is non-empty and at most `chunk_size` long. |
| Chunker.RFind | backend/main.py:247 | `text.rfind(' ', start, end)`: -1 or an index in the range that holds the character, with no later occurrence in the range; -1 exactly when the range has none. |
| Chunker.WindowText | backend/main.py:251 | `text[start:end].strip()`, with `end` clipped to the text as Python's slice clips it. `Chunker.ChunkWindowsWellFormed` states that every emitted chunk is well formed in its terms. |
| Chunker.ChunksFrom | backend/main.py:241-267 | The chunk list from a start on, with the corrected guard `Chunker.NextStart`. A window that strips to nothing emits nothing and uses no index. `Chunker.ChunkIndicesConsecutive`, `Chunker.ChunkStartsIncrease`, `Chunker.ChunkOverlapExact` and `Chunker.ChunksCoverNormalizedText` state its properties. |
| Chunker.WindowEndPullsBack | backend/main.py:244-249 | A window is shortened only when it ends inside the text, and then only to the last space after `start` within it. It is shortened whenever such a space exists. |
| Chunker.EndAtSpace | backend/main.py:242-249 | The window end the loop computes with `rfind` is the specified `WindowEnd`. |
| Chunker.NextStart | backend/main.py:262-267 | The next start lies past the current start. It is the end of the text after the last window. Otherwise it is `end - overlap` when that lies past the current start, and `end` when it does not. With a non-negative overlap it lies between them. |
| Chunker.Chunks | backend/main.py:234-235 | Empty text gives no chunks. |
| Chunker.ChunkText | backend/main.py:217-270 | On whitespace-normalised text with `chunk_size >= 2`, the loop as written, guard included, terminates. It returns exactly the specified chunk list. It also returns the chunks of `Chunker.AsWrittenRun` after a number of turns at which the start has left the text. One turn on any text is `Chunker.AsWrittenIteration` (see `Chunker.AsWrittenTurn`). |
| Chunker.AsWrittenTurn | backend/main.py:242-267 | One turn of the `while` loop, with the guard as written, equals `Chunker.AsWrittenIteration`. On normalised text with `chunk_size >= 2`, it appends exactly the chunk of the window `[start, WindowEnd)`, numbers it with the next index, and moves to `NextStart`. |
| Chunker.WindowEmits | backend/main.py:251-253 | In normalised text with windows of at least two characters, every window's stripped text is non-empty. |
| Chunker.ChunkIndicesConsecutive | backend/main.py:253-260 | The chunk indices run 0, 1, 2, … with no gap. |
| Chunker.ChunkWindowsWellFormed | backend/main.py:241-259 | Every chunk's text is non-empty and equals `text[char_start:char_end].strip()`. Its window starts inside the text and spans 1 to `chunk_size` characters. `char_end` is not clamped to the text. |
| Chunker.ChunkStartsIncrease | backend/main.py:262-267 | The chunks' `char_start` values strictly increase. |
| Chunker.ChunkOverlapBounded | backend/main.py:262-263 | With a non-negative overlap, a chunk overlaps the previous one by at most `overlap` characters. |
| Chunker.ChunkOverlapExact | backend/main.py:241-267 | On normalised text every chunk but the last ends inside the text. The next chunk starts exactly `overlap` characters before that end, or at the end when that would not move past the chunk's start. |
| Chunker.ChunksCoverNormalizedText | backend/main.py:241-267 | On normalised text the chunks leave no gap. The first starts at the first window, each starts no later than the previous one ends, and the last reaches the end of the text. |
| Chunker.ShortTextIsOneChunk | backend/main.py:242-259 | Trimmed text no longer than the window is one chunk, with index 0, the whole text, start 0 and end `chunk_size`. |
| Chunker.OneSentenceDocumentIsOneChunk | backend/main.py:50-51 | With the default size 500 and overlap 100, a one-sentence document is a single chunk ending at 500. |
| Chunker.AsWrittenIteration | backend/main.py:241-267 | One loop iteration exactly as written. It only appends to the chunk list. |
| Chunker.AsWrittenRun | backend/main.py:241-267 | The loop state after `n` turns of the loop as written, stopping once `start` leaves the text. `Chunker.AsWrittenRunStep` states that one more turn is one more `AsWrittenIteration`. |
| Chunker.AsWrittenRunStep | backend/main.py:241-267 | While the start is inside the text, the state after `n + 1` turns is `AsWrittenIteration` applied to the state after `n` turns. |
| Chunker.Iterate | backend/main.py:241 | `n` turns of a step while a condition holds. `Chunker.IterateOnce` states that one more turn applies the step once more. |
| Chunker.IterateOnce | backend/main.py:241 | While the condition holds after `n` turns, turn `n + 1` applies the step to the state after `n` turns. |
| Chunker.StallFirstWindow | backend/main.py:245-251 | On `"a"` + ten spaces + `"bbbbbb"` with size 5, the first window is pulled back to `[0, 4)` and strips to `"a"`. |
| Chunker.StallSecondWindow | backend/main.py:245-251 | The second window, `[4, 8)`, strips to nothing. |
| Chunker.WhitespaceWindowStalls | backend/main.py:262-267 | With size 5 and overlap 4, the as-written loop reaches a state at start 4, inside the text, that its next iteration leaves unchanged, so it never ends. |
| Chunker.StallNeverEnds | backend/main.py:241-267 | On the Findings input, after any `n >= 1` turns the loop as written is at start 4 with one chunk, `"a"`, and its start is still inside the text: the loop never ends. |
| Indexing.MissingAmongMembers | backend/main.py:80-88 | A name is reported missing exactly when it is required and unset or empty. The report is no longer than the required list. |
| Indexing.MissingAmong | backend/main.py:80-88 | The unset names among the required ones, in order. `Indexing.MissingAmongMembers` states that a name is listed exactly when it is required and not set. |
| Indexing.IntSetting | backend/main.py:73-74 | `int(os.getenv(name, default))`: the default when the variable is unset, else the parsed value, or no value when `int()` raises. `Indexing.LoadConfig` states its result in these terms. |
| Indexing.MissingVariables | backend/main.py:80-88 | The three checks report the required variables that are unset or empty, in the order `COHERE_API_KEY`, `QDRANT_URL`, `QDRANT_API_KEY`. The report is empty exactly when all three are set. |
| Indexing.GetEnv | backend/main.py:75-77 | `os.getenv(name, default)` is the variable's value when it is set, else the default. |
| Indexing.LoadConfig | backend/main.py:57-97 | Loading succeeds exactly when both integer settings parse and all three required variables are set. When the integers parse, failure carries the message listing the missing names. Success carries the variables' values and the stated defaults. |
| Indexing.EmbedBatch | backend/main.py:306-328 | The attempt loop for one batch gives the specified per-batch outcome: the vectors of the first attempt that succeeds, or the error that ends the loop. |
| Indexing.IsRateLimit | backend/main.py:322 | `"rate" in str(e).lower()`. `Indexing.RateLimitedBatchRecovers` and `Indexing.BatchFailureCause` state the retry decision in its terms. |
| Indexing.BatchAttempts | backend/main.py:306-328 | The inner attempt loop for one batch: a call that returns is kept; a rate-limit error with attempts left moves on; any other error, or one on the last attempt, is raised; with no attempts the batch gives nothing. `Indexing.EmbedBatch` is proved equal to it. `Indexing.RateLimitedBatchRecovers` and `Indexing.BatchFailureCause` state its cases. |
| Indexing.EmbedBatches | backend/main.py:303-328 | The batches in order; the first batch that raises ends the run with its error. `Indexing.EmbedBatchesWithoutErrors`, `Indexing.EmbedFailureCause` and `Indexing.NoAttemptsNoVectors` state its outcome. |
| Indexing.EmbedResult | backend/main.py:288-330 | What `embed(texts)` returns or raises: the batches of 96. `Indexing.Embed` is proved equal to it. `Indexing.EmbedIsPointwise` and `Indexing.EmbedLength` state one vector per text, in order, when nothing raises. `Indexing.EmbedSuccessIsPointwise` and `Indexing.EmbedSuccessLength` state the same for every successful run. |
| Indexing.Embed | backend/main.py:273-330 | The nested loops return the specified result, and `[]` for no texts. |
| Indexing.EmbedBatchesWithoutErrors | backend/main.py:303-319 | When nothing raises, the result is the in-order concatenation of the provider's answers for consecutive batches. |
| Indexing.EmbedIsPointwise | backend/main.py:303-317 | When no call raises, at least one attempt is allowed and the provider embeds texts one by one, `embed` succeeds with the embedding of every text, in input order. |
| Indexing.EmbedLength | backend/main.py:303-317 | When no call raises, at least one attempt is allowed and the provider keeps batch lengths, `embed` succeeds with one vector per input text. |
| Indexing.BatchAttemptsSuccess | backend/main.py:306-328 | A batch's retry loop that returns gives the provider's vectors for that batch, however many rate-limited attempts came first. |
| Indexing.EmbedBatchesSuccess | backend/main.py:303-328 | Whatever was raised and retried, a run of batches that returns gives the concatenated provider vectors of its batches. |
| Indexing.EmbedSuccessIsPointwise | backend/main.py:303-330 | With at least one attempt allowed, a successful `embed` returns every text's embedding once, in input order, rate-limit retries included, when the provider embeds texts one by one. |
| Indexing.EmbedSuccessLength | backend/main.py:303-330 | With at least one attempt allowed, a successful `embed` returns one vector per input text, rate-limit retries included, when the provider keeps batch lengths. |
| Indexing.BatchFailureCause | backend/main.py:321-328 | A batch fails only with an error some attempt raised. That error is either not a rate limit or was raised on the last attempt. |
| Indexing.RateLimitedBatchRecovers | backend/main.py:321-325 | A batch whose earlier attempts were all rate-limited succeeds with the provider's vectors once an attempt goes through. |
| Indexing.EmbedFailureCause | backend/main.py:303-328 | `embed` fails only with an error raised on one of its batches, on some allowed attempt. The error is either not a rate limit or came from the last attempt. |
| Indexing.NoAttemptsNoVectors | backend/main.py:306 | With `max_retries = 0` every batch is skipped, and the result is empty without any error. |
| Indexing.ChunkPoints | backend/main.py:392-412 | Mismatched counts fail with the count message. Otherwise there is one point per chunk and embedding pair, in order, with that pair's vector, a fresh id and the shared `source_url` and `indexed_at`, and the chunk's fields in the payload. |
| Indexing.SaveChunkToQdrant | backend/main.py:369-421 | Mismatched counts raise before the store is called. A success returns the number of chunks. The call succeeds exactly when the upsert does. |
| Indexing.PayloadsRecoverChunks | backend/main.py:398-412 | The stored payloads give back the chunk list. |
| Indexing.MdxTitle | backend/main.py:508-525 | A non-empty frontmatter title wins. Otherwise the first heading is used, otherwise `""`. |
| Indexing.ExtractMdxText | backend/main.py:543-547 | The MDX text fails exactly when the cleaned content is all whitespace, with the message naming the path. Otherwise it is normalised, non-empty and has the same words. |
| Indexing.ExtractHtmlText | backend/main.py:201-205 | The HTML text fails only for empty content, with the message naming the URL. Otherwise it is normalised, and empty exactly when the content is all whitespace. |
| Indexing.ExtractedTextChunks | backend/main.py:205 | On text from either extractor, the chunks are empty exactly when the text is. Otherwise they start at 0 and reach the end of the text. |
| Embedding.ProviderOf | backend/app/services/embedding_service.py:24-34 | The provider is Cohere exactly when the lower-cased setting is `"cohere"`. |
| Embedding.ProviderSettings | backend/app/services/embedding_service.py:24-34 | Cohere gives dimension 1024 and batches of 96. Any other setting gives OpenAI, with dimension 1536 and batches of 100. |
| Embedding.Truncate | backend/app/services/embedding_service.py:55-59 | Text keeps its first `min(len, 8191*4)` characters. |
| Embedding.EmbedTextAttempt | backend/app/services/embedding_service.py:52-74 | Blank text is refused. Otherwise the truncated text is sent, and the client's answer or error is passed on. |
| Embedding.EmbedText | backend/app/services/embedding_service.py:38-74 | `embed_text` under its retry decorator. `Embedding.BlankTextIsRefused` states that blank text is refused on every attempt without a client call. `Embedding.EmbedTextSendsTruncatedText` states that a success is the client's answer, on some attempt, for the text truncated to `MaxChars` characters. |
| Embedding.BlankTextIsRefused | backend/app/services/embedding_service.py:38-53 | After three attempts, blank text raises a `RetryError` wrapping the empty-text error. |
| Embedding.EmbedTextSendsTruncatedText | backend/app/services/embedding_service.py:52-74 | A returned vector is the client's answer for the truncated text, on one of the three attempts. |
| Embedding.ValidTexts | backend/app/services/embedding_service.py:94 | The valid texts are at most as many as the inputs, and each is non-empty and has no whitespace at either end. |
| Embedding.ValidTextsOfNonBlank | backend/app/services/embedding_service.py:94 | Without blank inputs, the valid texts are the stripped inputs, one for one. |
| Embedding.ValidTextsEmpty | backend/app/services/embedding_service.py:94-96 | No valid text remains exactly when every input is blank. |
| Embedding.ValidTextsAppend | backend/app/services/embedding_service.py:94 | The filter works text by text: the valid texts of a concatenation are those of each part, in order. |
| Embedding.ValidTextsOfOne | backend/app/services/embedding_service.py:94 | A single text is kept, stripped, exactly when it is not blank. |
| Embedding.ValidTextsCount | backend/app/services/embedding_service.py:94 | There are exactly as many valid texts as non-blank inputs. |
| Embedding.NonBlankPositionsSnoc | backend/app/services/embedding_service.py:94 | Appending a text adds one non-blank position exactly when the text is not blank. |
| Embedding.ValidTextsDropsBlanks | backend/app/services/embedding_service.py:94 | A blank text, added at either end, changes nothing. |
| Embedding.SendBatches | backend/app/services/embedding_service.py:98-130 | The batches sent in turn; the first client error ends the attempt. `Embedding.SendInBatches` is proved equal to it, and `Embedding.SendBatchesPointwise` states one vector per text, in order. |
| Embedding.EmbedTextsResult | backend/app/services/embedding_service.py:90-130 | One attempt of `embed_texts`: no texts give no vectors; all-blank texts raise `ValueError`; otherwise the non-blank texts, stripped and truncated, are sent in batches of the provider's size. `Embedding.EmbedTextsAttempt` is proved equal to it. `Embedding.AllBlankIsRefused` states that the retried call then raises `NoValidTexts`. |
| Embedding.EmbedTextsOnAttempt | backend/app/services/embedding_service.py:76-130 | Attempt `a` of `embed_texts`, with the client as that attempt finds it. |
| Embedding.EmbedTexts | backend/app/services/embedding_service.py:76-130 | `embed_texts` under its retry decorator. `Embedding.EmbedTextsPointwise`, `Embedding.EmbedTextsLength`, `Embedding.EmbedTextsFailure` and `Embedding.RetryRestartsFromFirstBatch` state its result, its length, its failure and that each attempt starts again from the first batch. `Embedding.EmbedTextsSuccessPointwise` and `Embedding.EmbedTextsSuccessLength` state the result and the length of every successful call. |
| Embedding.EmbedTextsAttempt | backend/app/services/embedding_service.py:90-130 | One attempt returns the specified result: `[]` for an empty list, the no-valid-texts error when every text is blank, and otherwise the outcome of the batch loop. |
| Embedding.SendInBatches | backend/app/services/embedding_service.py:98-130 | The batch loop sends the consecutive batches of the valid texts in turn and returns their vectors concatenated in order, or the first client error. |
| Embedding.SendFromBatches | backend/app/services/embedding_service.py:98-130 | Walking the offsets `0, size, 2 * size, ...` of the valid texts and sending each slice `valid[i:i + size]` sends exactly the consecutive batches, with the same result or error. |
| Embedding.SendBatchesPointwise | backend/app/services/embedding_service.py:103-127 | When the client embeds texts one by one, sending the batches yields the embedding of every text, in order. |
| Embedding.EmbedTextsPointwise | backend/app/services/embedding_service.py:76-130 | With such a client, `embed_texts` returns the embeddings of the stripped non-blank inputs, in order. |
| Embedding.EmbedTextsLength | backend/app/services/embedding_service.py:90-130 | With such a client, the call succeeds with one vector per valid text. That is exactly the number of non-blank inputs, and no more than the inputs. |
| Embedding.SendBatchesSuccessLength | backend/app/services/embedding_service.py:103-127 | When every answer of the client has one vector per text, an attempt whose batches all return gives one vector per text sent. |
| Embedding.SendBatchesSuccessPointwise | backend/app/services/embedding_service.py:103-127 | When every answer of the client embeds texts one by one, an attempt whose batches all return gives the embedding of every text sent, in order. |
| Embedding.EmbedTextsSuccessPointwise | backend/app/services/embedding_service.py:76-130 | When every answer of the client embeds texts one by one, a successful `embed_texts`, after failed attempts or not, returns the embeddings of the stripped non-blank inputs, in order. |
| Embedding.EmbedTextsSuccessLength | backend/app/services/embedding_service.py:76-130 | When every answer of the client has one vector per text, a successful `embed_texts`, after failed attempts or not, returns one vector per valid text, which is one per non-blank input. |
| Embedding.AllBlankIsRefused | backend/app/services/embedding_service.py:93-96 | A non-empty list of blank texts ends in a `RetryError` wrapping "no valid texts". |
| Embedding.EmbedTextsFailure | backend/app/services/embedding_service.py:76-79 | A failure means all three attempts failed, and it wraps the third attempt's error. |
| Embedding.RetryRestartsFromFirstBatch | backend/app/services/embedding_service.py:76-79 | After a failed first attempt, a successful second attempt's full result is returned. The retry re-runs every batch from the first. |
| VectorStore.VectorSize | backend/app/services/qdrant_client.py:51 | The vector size is 1024 exactly when the lower-cased provider is `"cohere"`, else 1536. |
| VectorStore.VectorSizeMatchesEmbeddingDimension | backend/app/services/qdrant_client.py:51 | The size agrees with the embedding service's dimension for the same setting. |
| VectorStore.Ensured | backend/app/services/qdrant_client.py:54-68 | The collections after a successful `ensure_collection_exists`: unchanged when the name exists, else with the name added at the configured size. `VectorStore.EnsuredHasCollection`, `VectorStore.EnsuredIdempotent` and `VectorStore.ExistingSizeNotChecked` state its properties. |
| VectorStore.EnsuredHasCollection | backend/app/services/qdrant_client.py:54-68 | Afterwards the collection exists, with the configured size if it was created. No other collection is added, removed or resized. |
| VectorStore.EnsuredIdempotent | backend/app/services/qdrant_client.py:54-68 | Ensuring twice is the same as ensuring once. |
| VectorStore.ExistingSizeNotChecked | backend/app/services/qdrant_client.py:57-68 | An existing collection of another size is left as it is. |
| VectorStore.QdrantStore.EnsureCollectionExists | backend/app/services/qdrant_client.py:42-72 | Without a listing error, a present name, or an absent one whose creation succeeds, returns success. A listing or creation error is re-raised. On success a present name leaves the store unchanged and an absent name is created with the provider's size. On failure the store is unchanged. |
| VectorStore.SearchFilter | backend/app/services/qdrant_client.py:95-105 | There is no filter for `None` or `{}`. Otherwise there is one exact-match `must` condition per item, in order. |
| VectorStore.SearchFilterRoundTrip | backend/app/services/qdrant_client.py:95-105 | The filter's conditions give back the items it was built from. |
| VectorStore.IdString | backend/app/services/qdrant_client.py:117 | A numeric id is rendered as its decimal digits. |
| VectorStore.NumericIdStringsDistinct | backend/app/services/qdrant_client.py:117 | Distinct numeric ids give distinct strings. |
| VectorStore.SearchHits | backend/app/services/qdrant_client.py:115-122 | There is one hit per result, in store order, with `str(id)`, the score and the payload. |
| VectorStore.SearchHitsKeepOrder | backend/app/services/qdrant_client.py:115-122 | The hits' payloads and scores are the results', in order. |
| VectorStore.SearchSimilar | backend/app/services/qdrant_client.py:75-122 | The store's error is raised. Otherwise the results are mapped to hits, and the query gets the built filter. |
| VectorStore.UpsertPoints | backend/app/services/qdrant_client.py:134-141 | There is one point per chunk, with id, vector and payload copied unchanged. |
| VectorStore.UpsertPointsRoundTrip | backend/app/services/qdrant_client.py:134-141 | The points give back the chunks. |
| VectorStore.DeleteFilter | backend/app/services/qdrant_client.py:160-172 | Deletion uses one full-text condition on `"url"`. |
| VectorStore.DeleteFilterIsNotExactMatch | backend/app/services/qdrant_client.py:160-172 | The delete filter is not the exact-match filter that search would build for the same path. |
| Rag.CurrentPayloadFields | backend/app/services/rag_service.py:90-95 | A payload with the current field names is read from them, whatever legacy fields it also has. |
| Rag.NormalizePayload | backend/app/services/rag_service.py:90-94 | The field fallbacks read by both the prompt and the sources (also lines 187-192): `chapter_title`, else `source_url`, else `"Unknown"`; `section_title`, else `""`; `url`, else `source_url`, else `""`; `content`, else `text`, else `""`. `Rag.CurrentPayloadFields`, `Rag.IndexedPayloadFields` and `Rag.EmptyPayloadFields` state each payload shape's result. |
| Rag.IndexedPayloadFields | backend/app/services/rag_service.py:90-95 | A payload written by the indexing script reads as chapter = `source_url`, section `""`, url = `source_url` and content = `text`. |
| Rag.EmptyPayloadFields | backend/app/services/rag_service.py:90-95 | An empty payload reads as `"Unknown"`, `""`, `""`, `""`. |
| Rag.Snippet | backend/app/services/rag_service.py:200 | Content of at most 200 characters is kept. Longer content becomes its first 200 characters plus `"..."`. A snippet is at most 203 characters and starts with the first `min(200, len)` characters. |
| Rag.SourceOf | backend/app/services/rag_service.py:185-202 | The source listed for one search result: its normalised fields, its score and the snippet of its content. `Rag.SourcesDescribeResults` states it field by field. |
| Rag.BuildSources | backend/app/services/rag_service.py:184-202 | The loop builds one source per search result, in order. |
| Rag.SourcesDescribeResults | backend/app/services/rag_service.py:185-202 | Each source has its result's score and normalised fields, and the snippet rule above. |
| Rag.ContextParts | backend/app/services/rag_service.py:89-103 | There is one context block per result. |
| Rag.ContextText | backend/app/services/rag_service.py:104 | The context blocks joined with `"\n---\n"`, or `"No relevant context found."` when there are no results. `Rag.NoResultsNoContext` states the prompt for no results, and `Rag.SourceBlocksDistinct` that blocks of different numbers differ. |
| Rag.UserPrompt | backend/app/services/rag_service.py:80-116 | What `_build_user_prompt` returns. `Rag.BuildUserPrompt` is proved equal to it. `Rag.PromptShape` and `Rag.ChapterContextInsertsReadingLine` state its layout. |
| Rag.BuildUserPrompt | backend/app/services/rag_service.py:80-116 | The loop and the `+=` steps build the specified prompt. |
| Rag.SourceHeaderNumber | backend/app/services/rag_service.py:97-98 | Block `i` starts with `"[Source "`, then the decimal digits of `i`, then `"]"`. |
| Rag.SourceBlocksDistinct | backend/app/services/rag_service.py:89-98 | Blocks with different numbers differ. |
| Rag.NoResultsNoContext | backend/app/services/rag_service.py:105-114 | With no results the context is `"No relevant context found."`. |
| Rag.ChapterContextInsertsReadingLine | backend/app/services/rag_service.py:111-114 | The reading line appears only for a non-empty chapter, between the context and the question line. `None` and `""` give the same prompt. |
| Rag.PromptShape | backend/app/services/rag_service.py:107-114 | The prompt starts with the context intro and ends with the question line and the fixed instruction. |
| Rag.TokensUsed | backend/app/services/rag_service.py:168-182 | For Cohere the count is the words of the prompt plus the words of the answer. For OpenAI it is the reported total, or 0 when none is reported. |
| Rag.CohereTokensPositive | backend/app/services/rag_service.py:170 | The Cohere count is at least 1, since the prompt always has words. |
| Rag.AnswerAttempt | backend/app/services/rag_service.py:139-211 | An answer requires that the question's embedding, the search (threshold 0.5, limit `max_sources`) and the chat call (temperature 0.7, 1500 tokens) all succeed. It carries the chat text, one source per hit and the token count. Conversely, each step's outcome fixes the result: an embedding failure, a search failure or a chat failure fails the attempt with that error, and when all three succeed the attempt returns exactly that answer. |
| Rag.Retrieved | backend/app/services/rag_service.py:145-149 | The search of an attempt: `search_similar` with `limit = max_sources`, threshold 0.5 and no filter. `Rag.AnswerAttempt` states its outcomes in its terms. |
| Rag.AnswerQuestion | backend/app/services/rag_service.py:118-211 | `answer_question` under its retry decorator. `Rag.FirstSuccessfulAttemptAnswers` states that the first successful attempt answers. `Rag.AnswerSourcesFromOneAttempt` states that an answer comes from one attempt. `Rag.ChatFailureIsRaised` states that a chat model that keeps failing reaches the caller as a `RetryError`. |
| Rag.ChatFailureIsRaised | backend/app/services/rag_service.py:118-182 | When every attempt fails and the last attempt fails in its chat call, the retried call raises with that chat error, not an apology. |
| Rag.FirstSuccessfulAttemptAnswers | backend/app/services/rag_service.py:118-211 | The first of the three attempts that succeeds gives the caller its answer, whatever later attempts would do. |
| Rag.AnswerSourcesFromOneAttempt | backend/app/services/rag_service.py:118-211 | A returned answer is one attempt's full response, and its snippets are at most 203 characters long. |
| Rag.SourcesMeetSchema | backend/app/schemas/chat.py:29-32 | A built source meets the schema exactly when its score lies in [0, 1]. The snippet always fits 500 characters. |
| Rag.ValidQuestionNotTruncated | backend/app/schemas/chat.py:104-108 | A schema-valid question (at most 2000 characters) is embedded untruncated. |
| Rag.BlankQuestionFails | backend/app/schemas/chat.py:104-108 | The question `" "` passes the schema, but answering it raises a `RetryError` whose last error is the refused empty text. |
| Rag.PrefixSlice | backend/app/services/rag_service.py:232 | Python's `xs[:k]` for any integer `k`, including negative ones, is a prefix of the stated length. |
| Rag.SuggestedQuestions | backend/app/services/rag_service.py:213-232 | The first `min(limit, 3)` fixed questions (negative limits slice from the end), whatever the chapter. |
| Rag.DefaultSuggestions | backend/app/services/rag_service.py:213-232 | The default limit returns all three questions. |
| ErrorHandler.Construct | backend/app/middleware/error_handler.py:18-102 | Each class fixes its status, code and default message. The base class defaults to 500 and `INTERNAL_ERROR`. The not-found message names the resource and the identifier, and the unavailable-service message names the service. The base, bad-request and conflict errors keep the message they are given. |
| ErrorHandler.NotFoundMessage | backend/app/middleware/error_handler.py:38-41 | `NotFoundError`'s message, naming the identifier only when it is truthy. `ErrorHandler.NotFoundMessageShape` states both forms. |
| ErrorHandler.BaseDefaultsToInternalError | backend/app/middleware/error_handler.py:21-31 | A bare `APIError(message)` is 500 `INTERNAL_ERROR` with its details. |
| ErrorHandler.SubclassStatusDeterminesCode | backend/app/middleware/error_handler.py:35-102 | Among subclasses the status determines the code. Every status is 4xx except the unavailable service. |
| ErrorHandler.OnlyBadRequestCarriesDetails | backend/app/middleware/error_handler.py:35-102 | Only the base class and `BadRequestError` carry details, and those are passed through. |
| ErrorHandler.NotFoundMessageShape | backend/app/middleware/error_handler.py:38-41 | The message starts with the resource and ends with `" not found"`. It names the id exactly when the id is non-empty. |
| ErrorHandler.CreateErrorResponse | backend/app/middleware/error_handler.py:105-119 | `success` is false, and the code, message, details and timestamp are echoed. |
| ErrorHandler.ApiErrorHandler | backend/app/middleware/error_handler.py:122-131 | The error's status and a body with its code, message and details. `ErrorHandler.ApiErrorResponseRoundTrip` states that the error can be rebuilt from the response. |
| ErrorHandler.ApiErrorResponseRoundTrip | backend/app/middleware/error_handler.py:122-131 | The error can be rebuilt from its response. |
| ErrorHandler.ValidationErrorHandler | backend/app/middleware/error_handler.py:134-175 | The response is 422 `VALIDATION_ERROR`, with the handler's message and one field error per issue, in order, with its dotted field path, message and type. |
| ErrorHandler.FieldPath | backend/app/middleware/error_handler.py:142 | `".".join(str(loc) for loc in err["loc"])`. `ErrorHandler.FieldPathRoundTrip` states that splitting the path at `.` gives back each location part, when no key contains a dot. |
| ErrorHandler.FieldPathRoundTrip | backend/app/middleware/error_handler.py:142 | A field path splits at `"."` back into its location parts, when no field name holds a dot. |
| ErrorHandler.ValidationHandlersAgree | backend/app/middleware/error_handler.py:134-175 | Both validation handlers give the same details and different messages. |
| ErrorHandler.GenericErrorHandler | backend/app/middleware/error_handler.py:178-187 | The response is 500 `INTERNAL_ERROR` with the fixed message and no details. |
| ErrorHandler.GenericErrorHidesException | backend/app/middleware/error_handler.py:178-187 | Two exceptions give the same response. |
| Config.CorsOriginsPieces | backend/app/config.py:98-101 | The list has one more entry than there are commas. Each entry is trimmed and comma-free, and a blank piece becomes `""`. |
| Config.CorsOriginsList | backend/app/config.py:98-101 | The comma-separated origins, each stripped. `Config.CorsOriginsPieces`, `Config.TwoOrigins` and `Config.DefaultCorsOriginsList` state its properties. |
| Config.TwoOrigins | backend/app/config.py:98-101 | Two comma-joined origins give their two stripped forms. |
| Config.DefaultCorsOriginsList | backend/app/config.py:67-70 | The default gives exactly `["http://localhost:3000", "http://127.0.0.1:3000"]`. |
| Config.ModesExclusive | backend/app/config.py:103-111 | Development and production are never both true, and each depends only on the lower-cased environment. |
| Config.IsDevelopment | backend/app/config.py:103-106 | The lower-cased environment is `"development"`. `Config.ModesExclusive` and `Config.DefaultsAreDevelopment` state its properties. |
| Config.IsProduction | backend/app/config.py:108-111 | The lower-cased environment is `"production"`. `Config.ModesExclusive` states that it excludes development. |
| Config.DefaultsAreDevelopment | backend/app/config.py:18-90 | The defaults are development, not production, and the `"cohere"` provider. |
| ChatSchemas.ParseRole | backend/app/schemas/chat.py:15-20 | Exactly `"user"`, `"assistant"` and `"system"` are roles. |
| ChatSchemas.ValidSource | backend/app/schemas/chat.py:29-32 | `relevance_score` in `[0, 1]` and a snippet of at most 500 characters. `Rag.SourcesMeetSchema` states that the service's sources meet it. |
| ChatSchemas.ValidSendMessage | backend/app/schemas/chat.py:93-98 | A message of 1 to 2000 characters. |
| ChatSchemas.ValidQuickQuestion | backend/app/schemas/chat.py:104-108 | A question of 1 to 2000 characters. `ChatSchemas.ContextChapterOptional` states that the chapter context never decides validity. |
| ChatSchemas.RoleRoundTrip | backend/app/schemas/chat.py:15-20 | Each role's value parses back to it, and distinct roles have distinct values. |
| ChatSchemas.ContextChapterOptional | backend/app/schemas/chat.py:90-113 | The chapter context does not affect validity. A quick question is valid exactly when a message of the same text is, which means 1 to 2000 characters. |
| Database.AsyncUrl | backend/app/db/database.py:17-21 | `postgresql://` and then `postgres://` prefixes become `postgresql+asyncpg://`. Other URLs are unchanged. |
| Database.AsyncUrlMatchesNoPrefix | backend/app/db/database.py:17-21 | A rewritten URL matches neither prefix. |
| Database.AsyncUrlIdempotent | backend/app/db/database.py:17-21 | Rewriting twice is rewriting once. |
| Database.AsyncUrlKeepsAddress | backend/app/db/database.py:18-21 | Only the scheme changes. |
| Database.DefaultDatabaseUrl | backend/app/db/database.py:17-19 | The default setting becomes `postgresql+asyncpg://localhost/humanoid_robotics`. |

Where the repository's written design and its code disagree, the model follows the code:
- `answer_question` has no `try`/`except` around the chat call. A failing chat call propagates through the retry as a `RetryError`, and no apology answer is returned.
- The answer search uses the hard-coded threshold 0.5.
- The chat call uses temperature 0.7.
- `ensure_collection_exists` never compares an existing collection's vector size with the configured one.
- tenacity's `reraise` is off, so the caller of a retried method sees a `RetryError` wrapping the last error, not the error itself.

## Left out

- HTML fetching and parsing, the sitemap, file discovery and file reading are left out because they are network and file I/O. The extractors are modelled from the extracted content on.
- The regex chain of `extract_text_from_mdx` (`backend/main.py:528-541`) is left out because it depends on Python's regex semantics. The rewritten content is a parameter. The frontmatter and heading matches are given as their captured titles.
- The SDK and service calls are parameters of the model:
  - Cohere and OpenAI embedding and chat;
  - Qdrant's `get_collections`, `create_collection`, `query_points`, `upsert` and `delete`.
- Backoff waits, `time.sleep`, `perf_counter` and `processing_time_ms` are left out because they are wall-clock behaviour. Only the number of attempts is modelled.
- `compute_similarity` is left out because it is floating-point arithmetic.
- `lru_cache`, the client factories, `main()` and logging are left out because they are plumbing.
- Indexing.LoadConfig: `int()` is the parameter `parseInt`. `load_dotenv` is replaced by the given environment map.
- Indexing.ChunkPoints: `uuid4` is the parameter `newId`, and the `utcnow` timestamp is the parameter `indexedAt`.
- Chunker.ChunkText: requires whitespace-normalised text and `chunk_size >= 2`. Both callers pass `' '.join(content.split())`. Outside that precondition the loop can fail to end (see Findings).
- Rag.SourcesDescribeResults: the `result.get("score", 0.0)` fallback is not modelled, because a search hit always carries a score.
- VectorStore.QdrantStore.EnsureCollectionExists records only each collection's vector size. The cosine distance that `create_collection` also sets (`backend/app/services/qdrant_client.py:60-65`) is not recorded, because no modelled operation reads it.
- Rag.NormalizePayload reads only the string-valued payload fields. The integer fields `chunk_index`, `char_start` and `char_end` are not represented in a payload.
- Database.AsyncUrl: `replace(prefix, new, 1)` is modelled as a prefix replacement. That is exact because the prefix is known to start the string, and its first occurrence is at index 0.
- Text.Lower lower-cases ASCII letters only. The strings it is applied to (provider names, environments, error texts) are compared with ASCII literals.
- `CreateSessionRequest` has no constraint: its only field is optional. `ChatMessage`, `ChatSession` and `ChatResponse` are records without constraints and are not modelled.
- The database engine and sessions, `chat_service.py`, the routers, the ORM models, the app wiring and the frontend are not part of this model.

## Findings

| source | as written | input that shows it | evidently intended | confidence | as-written member | corrected member |
|---|---|---|---|---|---|---|
| backend/main.py:266-267 | The infinite-loop guard compares the next start with the start of the last emitted chunk. A window that strips to nothing is not emitted, so it is not guarded. | `"a"` + ten spaces + `"bbbbbb"`, `chunk_size` 5, `overlap` 4: the window `[4, 8)` is all spaces, and its successor `8 - 4 = 4` is after the last emitted start 0. The loop stays at start 4 forever. | The next start moves past the current window's start. | not executed | Chunker.WhitespaceWindowStalls | Chunker.NextStart |

`Chunker.StallNeverEnds` follows the loop as written on that input: after every number of turns it is still at start 4, inside the text.

The rest of the model uses the corrected guard: `ChunksFrom` is built on `NextStart`. `ChunkText`, the loop with the guard as written, is proved to produce the same chunks on the whitespace-normalised text that both extractors pass it.

=== FILE: batching.dfy ===
/** The batching idiom `for i in range(0, len(xs), size): batch = xs[i:i + size]`
    shared by both embedding paths, and what it means for the concatenated
    per-batch results. */
module Batching {
  import opened Wrappers

  /** The consecutive slices `xs[i:i + size]` for `i = 0, size, 2 * size, ...`. */
  function Batches<T>(xs: seq<T>, size: nat): (bs: seq<seq<T>>)
    requires size >= 1
    ensures forall i :: 0 <= i < |bs| ==> 1 <= |bs[i]| <= size
    ensures forall i :: 0 <= i < |bs| - 1 ==> |bs[i]| == size
    ensures bs == [] <==> xs == []
    decreases |xs|
  {
    if xs == [] then []
    else if |xs| <= size then [xs]
    else [xs[..size]] + Batches(xs[size..], size)
  }

  /** `all.extend(...)` over a sequence of lists. */
  function Flatten<T>(xss: seq<seq<T>>): seq<T>
  {
    if xss == [] then [] else xss[0] + Flatten(xss[1..])
  }

  /** `[f(x) for x in xs]`. */
  function MapSeq<A, B>(f: A -> B, xs: seq<A>): (r: seq<B>)
    ensures |r| == |xs|
    ensures forall i :: 0 <= i < |xs| ==> r[i] == f(xs[i])
  {
    seq(|xs|, i requires 0 <= i < |xs| => f(xs[i]))
  }

  /** Batching loses, duplicates and reorders nothing. */
  lemma {:induction false} FlattenBatches<T>(xs: seq<T>, size: nat)
    requires size >= 1
    ensures Flatten(Batches(xs, size)) == xs
    decreases |xs|
  {
    if |xs| > size {
      FlattenBatches(xs[size..], size);
      assert xs[..size] + xs[size..] == xs;
    } else if xs != [] {
      assert Flatten([xs]) == xs + Flatten([]);
    }
  }

  /** Concatenating per-batch results of a provider that embeds every item
      on its own equals embedding the whole input item by item. */
  lemma {:induction false} FlattenPointwise<A, B>(bs: seq<seq<A>>, batchFn: seq<A> -> seq<B>, f: A -> B)
    requires forall b :: batchFn(b) == MapSeq(f, b)
    ensures Flatten(MapSeq(batchFn, bs)) == MapSeq(f, Flatten(bs))
  {
    if bs != [] {
      FlattenPointwise(bs[1..], batchFn, f);
      assert MapSeq(batchFn, bs)[1..] == MapSeq(batchFn, bs[1..]);
      assert MapSeq(f, bs[0] + Flatten(bs[1..])) == MapSeq(f, bs[0]) + MapSeq(f, Flatten(bs[1..]));
    }
  }

  /** Length-preserving batch results concatenate to one result per item. */
  lemma {:induction false} FlattenLengthPreserving<A, B>(bs: seq<seq<A>>, batchFn: seq<A> -> seq<B>)
    requires forall b :: |batchFn(b)| == |b|
    ensures |Flatten(MapSeq(batchFn, bs))| == |Flatten(bs)|
  {
    if bs != [] {
      FlattenLengthPreserving(bs[1..], batchFn);
      assert MapSeq(batchFn, bs)[1..] == MapSeq(batchFn, bs[1..]);
    }
  }

  /** `all.extend(...)` before the rest of a run that may raise: `xs`
      followed by the items of `r`, or the error of `r`. */
  function Prepend<T, E>(xs: seq<T>, r: Result<seq<T>, E>): Result<seq<T>, E> {
    match r
    case Success(v) => Success(xs + v)
    case Failure(e) => Failure(e)
  }

  lemma PrependNothing<T, E>(r: Result<seq<T>, E>)
    ensures Prepend([], r) == r
  {
    if r.Success? {
      assert [] + r.value == r.value;
    }
  }

  lemma PrependAssoc<T, E>(xs: seq<T>, ys: seq<T>, r: Result<seq<T>, E>)
    ensures Prepend(xs, Prepend(ys, r)) == Prepend(xs + ys, r)
  {
    if r.Success? {
      assert xs + (ys + r.value) == xs + ys + r.value;
    }
  }
}

=== FILE: chunker.dfy ===
/** `chunk_text` of the indexing script (backend/main.py): a window of
    `chunk_size` characters slides over the text, its end pulled back to the
    last space inside it, and the next window starts `overlap` characters
    before the end of the previous one.

    `ChunkText` is the loop as written. `ChunksFrom` is the specification it
    is proved against; it differs from the loop in one place, the guard
    against a window that does not advance (see `AsWrittenIteration` and
    `WhitespaceWindowStalls` for why), and the two agree on the
    whitespace-normalised text both extractors produce. */
module Chunker {
  import opened Text

  /** One element of the list `chunk_text` returns. `charEnd` is the end of
      the window, which for the last chunk may lie past the end of the text. */
  datatype Chunk = Chunk(chunkIndex: nat, text: string, charStart: nat, charEnd: nat)

  const DefaultChunkSize: int := 500
  const DefaultChunkOverlap: int := 100

  function Min(a: int, b: int): int {
    if a <= b then a else b
  }

  /** Python's `s.rfind(c, lo, hi)`: the highest index in `[lo, hi)` holding
      `c`, or -1. */
  function RFind(s: string, c: char, lo: nat, hi: nat): (r: int)
    requires lo <= hi <= |s|
    ensures r == -1 || (lo <= r < hi && s[r] == c)
    ensures r == -1 ==> forall k :: lo <= k < hi ==> s[k] != c
    ensures r != -1 ==> forall k :: r < k < hi ==> s[k] != c
    decreases hi
  {
    if hi == lo then -1
    else if s[hi - 1] == c then hi - 1
    else RFind(s, c, lo, hi - 1)
  }

  /** End of the window that starts at `start`: `start + size`, unless that
      falls inside the text and a space lies strictly after `start` within
      the window, in which case it is the last such space. */
  function WindowEnd(text: string, start: nat, size: int): (end: nat)
    requires start < |text| && size >= 1
    ensures start < end <= start + size
  {
    var end := start + size;
    if end < |text| then
      var lastSpace := RFind(text, ' ', start, end);
      if lastSpace > start then lastSpace else end
    else end
  }

  /** The window is shortened only inside the text, only to a space, and
      only to the last space after `start` within it; it is shortened
      whenever there is such a space. */
  lemma WindowEndPullsBack(text: string, start: nat, size: int)
    requires start < |text| && size >= 1
    ensures var end := WindowEnd(text, start, size);
      end < start + size ==>
        start + size < |text| && text[end] == ' ' && forall k :: end < k < start + size ==> text[k] != ' '
    ensures start + size < |text| && (exists k :: start < k < start + size && text[k] == ' ') ==>
      WindowEnd(text, start, size) < start + size
  {
  }

  /** Where the window after `[start, end)` starts: `end - overlap` while the
      window ends inside the text, else the end of the text; forced to `end`
      when that would not move past `start`. */
  function NextStart(text: string, start: nat, end: nat, overlap: int): (next: nat)
    requires start < |text| && start < end
    ensures next > start
    ensures end >= |text| ==> next == |text|
    ensures end < |text| && end - overlap > start ==> next == end - overlap
    ensures end < |text| && end - overlap <= start ==> next == end
    ensures end < |text| && overlap >= 0 ==> end - overlap <= next <= end
  {
    var next := if end < |text| then end - overlap else |text|;
    if next <= start then end else next
  }

  /** The stripped text of the window `text[start:end]`. */
  function WindowText(text: string, start: nat, end: nat): string
    requires start <= end
    requires start <= |text|
  {
    Strip(text[start..Min(end, |text|)])
  }

  /** The chunks emitted from the window at `start` on, numbered from
      `index`. A window whose stripped text is empty emits nothing and does
      not use up an index. */
  function ChunksFrom(text: string, size: int, overlap: int, start: nat, index: nat): seq<Chunk>
    requires size >= 1
    decreases |text| - start
  {
    if start >= |text| then []
    else
      var end := WindowEnd(text, start, size);
      var piece := WindowText(text, start, end);
      var next := NextStart(text, start, end, overlap);
      if piece != [] then [Chunk(index, piece, start, end)] + ChunksFrom(text, size, overlap, next, index + 1)
      else ChunksFrom(text, size, overlap, next, index)
  }

  /** The chunk list of a whole text. */
  function Chunks(text: string, size: int, overlap: int): (r: seq<Chunk>)
    requires size >= 1
    ensures text == [] ==> r == []
  {
    ChunksFrom(text, size, overlap, 0, 0)
  }

  /** In whitespace-normalised text with windows of at least two characters,
      every window holds a non-whitespace character, so every window emits. */
  lemma WindowEmits(text: string, start: nat, size: int)
    requires Normalized(text) && size >= 2 && start < |text|
    ensures WindowText(text, start, WindowEnd(text, start, size)) != []
  {
    var end := WindowEnd(text, start, size);
    var w := text[start..Min(end, |text|)];
    if IsWhitespace(text[start]) {
      assert text[start] == ' ' && start + 1 < |text| && !IsWhitespace(text[start + 1]);
      assert end != start + 1;
      assert !IsWhitespace(w[1]);
    } else {
      assert !IsWhitespace(w[0]);
    }
  }

  /** One step of `ChunksFrom`: the window at `start` and what follows it. */
  lemma ChunksFromStep(text: string, size: int, overlap: int, start: nat, index: nat)
    requires size >= 1 && start < |text|
    ensures var end := WindowEnd(text, start, size);
      var piece := WindowText(text, start, end);
      var next := NextStart(text, start, end, overlap);
      ChunksFrom(text, size, overlap, start, index)
        == if piece != [] then [Chunk(index, piece, start, end)] + ChunksFrom(text, size, overlap, next, index + 1)
           else ChunksFrom(text, size, overlap, next, index)
  {
  }

  /** The first lines of `chunk_text`'s loop body: the window end, pulled
      back to the last space after `start` when the window ends inside the
      text. */
  method EndAtSpace(text: string, start: nat, chunkSize: int) returns (end: nat)
    requires start < |text| && chunkSize >= 1
    ensures end == WindowEnd(text, start, chunkSize)
  {
    end := start + chunkSize;
    if end < |text| {
      var lastSpace := RFind(text, ' ', start, end);
      if lastSpace > start {
        end := lastSpace;
      }
    }
  }

  /** One turn of `ChunkText`'s loop on normalised text: the window emits,
      and the chunks still to come are that window's chunk followed by those
      from the next start. */
  lemma ChunkTextStep(text: string, size: int, overlap: int, start: nat, index: nat, done: seq<Chunk>)
    requires Normalized(text) && size >= 2 && start < |text|
    ensures var end := WindowEnd(text, start, size);
      var piece := WindowText(text, start, end);
      && piece != []
      && done + ChunksFrom(text, size, overlap, start, index)
         == done + [Chunk(index, piece, start, end)] + ChunksFrom(text, size, overlap, NextStart(text, start, end, overlap), index + 1)
  {
    var end := WindowEnd(text, start, size);
    var c := Chunk(index, WindowText(text, start, end), start, end);
    var rest := ChunksFrom(text, size, overlap, NextStart(text, start, end, overlap), index + 1);
    WindowEmits(text, start, size);
    ChunksFromStep(text, size, overlap, start, index);
    ConcatAssoc(done, [c], rest);
  }

  /** `chunk_text(text, chunk_size, overlap)` as written: each turn of its
      loop is one `AsWrittenIteration`, so the chunks it returns are those of
      a run of that step from the initial state that leaves the text. Its
      callers pass text produced by `' '.join(content.split())`; on such
      text, and with windows of at least two characters, the loop ends and
      yields exactly the specified chunks. */
  method ChunkText(text: string, chunkSize: int, overlap: int) returns (chunks: seq<Chunk>)
    requires Normalized(text) && chunkSize >= 2
    ensures chunks == Chunks(text, chunkSize, overlap)
    ensures text == [] ==> chunks == []
    ensures exists n: nat :: var s := AsWrittenRun(text, chunkSize, overlap, LoopState(0, 0, []), n);
      s.start >= |text| && s.chunks == chunks
  {
    if |text| == 0 {
      assert AsWrittenRun(text, chunkSize, overlap, LoopState(0, 0, []), 0) == LoopState(0, 0, []);
      return [];
    }
    chunks := [];
    var start: nat := 0;
    var chunkIndex: nat := 0;
    ghost var all := Chunks(text, chunkSize, overlap);
    ghost var steps: nat := 0;
    while start < |text|
      invariant chunkIndex == |chunks|
      invariant chunks + ChunksFrom(text, chunkSize, overlap, start, chunkIndex) == all
      invariant LoopState(start, chunkIndex, chunks) == AsWrittenRun(text, chunkSize, overlap, LoopState(0, 0, []), steps)
      decreases |text| - start
    {
      AsWrittenRunStep(text, chunkSize, overlap, LoopState(0, 0, []), steps);
      ChunkTextStep(text, chunkSize, overlap, start, chunkIndex, chunks);
      var next;
      next, chunkIndex, chunks := AsWrittenTurn(text, chunkSize, overlap, start, chunkIndex, chunks);
      start := next;
      steps := steps + 1;
    }
  }

  /** The body of `chunk_text`'s loop as written, on the loop's variables:
      pull the window back to a space, emit its stripped text when that is
      not empty, move the start back by `overlap`, and apply the guard
      against the start of the last emitted chunk. It is one
      `AsWrittenIteration`; on normalised text, with the last chunk emitted
      before `start`, it takes the specified step. */
  method AsWrittenTurn(text: string, chunkSize: int, overlap: int, start: nat, chunkIndex: nat, done: seq<Chunk>)
    returns (next: int, index: nat, chunks: seq<Chunk>)
    requires start < |text| && chunkSize >= 1
    ensures LoopState(next, index, chunks) == AsWrittenIteration(text, chunkSize, overlap, LoopState(start, chunkIndex, done))
    ensures Normalized(text) && chunkSize >= 2 ==>
      var end := WindowEnd(text, start, chunkSize);
      && chunks == done + [Chunk(chunkIndex, WindowText(text, start, end), start, end)]
      && index == chunkIndex + 1
      && next == NextStart(text, start, end, overlap)
  {
    var end := EndAtSpace(text, start, chunkSize);
    chunks := done;
    index := chunkIndex;
    var piece := Strip(text[start..Min(end, |text|)]);
    assert piece == WindowText(text, start, end);
    if piece != [] {
      chunks := chunks + [Chunk(chunkIndex, piece, start, end)];
      index := chunkIndex + 1;
    }

    next := if end < |text| then end - overlap else |text|;
    if chunks != [] && next <= chunks[|chunks| - 1].charStart {
      next := end;
    }
    if Normalized(text) && chunkSize >= 2 {
      WindowEmits(text, start, chunkSize);
      assert chunks[|chunks| - 1].charStart == start;
    }
  }

  // ------------------------------------------------ properties of the chunks

  /** Chunk indices run `index, index + 1, ...` with no gaps: the index is
      used up only by a chunk that is emitted. */
  lemma {:induction false} ChunkIndicesConsecutive(text: string, size: int, overlap: int, start: nat, index: nat)
    requires size >= 1
    ensures var r := ChunksFrom(text, size, overlap, start, index);
      forall i :: 0 <= i < |r| ==> r[i].chunkIndex == index + i
    decreases |text| - start
  {
    if start < |text| {
      var end := WindowEnd(text, start, size);
      var piece := WindowText(text, start, end);
      var next := NextStart(text, start, end, overlap);
      var r := ChunksFrom(text, size, overlap, start, index);
      ChunksFromStep(text, size, overlap, start, index);
      if piece != [] {
        var rest := ChunksFrom(text, size, overlap, next, index + 1);
        ChunkIndicesConsecutive(text, size, overlap, next, index + 1);
        assert r == [Chunk(index, piece, start, end)] + rest;
        forall i | 0 <= i < |r| ensures r[i].chunkIndex == index + i {
          if i > 0 {
            assert r[i] == rest[i - 1];
          }
        }
      } else {
        ChunkIndicesConsecutive(text, size, overlap, next, index);
      }
    }
  }

  /** A chunk's window: it starts inside the text, no earlier than `lo`, and
      spans at least one and at most `size` characters; its text is the
      non-empty `text[char_start:char_end].strip()`. */
  predicate WellFormedChunk(text: string, size: int, lo: nat, c: Chunk)
  {
    && lo <= c.charStart < |text|
    && c.charStart < c.charEnd <= c.charStart + size
    && c.text == Strip(text[c.charStart..Min(c.charEnd, |text|)])
    && c.text != []
  }

  /** Every chunk's text is non-empty and is `text[char_start:char_end].strip()`;
      its window starts inside the text, no earlier than `start`, and spans
      at least one and at most `size` characters. */
  lemma {:induction false} ChunkWindowsWellFormed(text: string, size: int, overlap: int, start: nat, index: nat)
    requires size >= 1
    ensures var r := ChunksFrom(text, size, overlap, start, index);
      forall i :: 0 <= i < |r| ==> WellFormedChunk(text, size, start, r[i])
    decreases |text| - start
  {
    if start < |text| {
      var end := WindowEnd(text, start, size);
      var piece := WindowText(text, start, end);
      var next := NextStart(text, start, end, overlap);
      var r := ChunksFrom(text, size, overlap, start, index);
      ChunksFromStep(text, size, overlap, start, index);
      if piece != [] {
        var rest := ChunksFrom(text, size, overlap, next, index + 1);
        ChunkWindowsWellFormed(text, size, overlap, next, index + 1);
        assert r == [Chunk(index, piece, start, end)] + rest;
        forall i | 0 <= i < |r| ensures WellFormedChunk(text, size, start, r[i]) {
          if i > 0 {
            assert r[i] == rest[i - 1];
            assert WellFormedChunk(text, size, next, rest[i - 1]);
          }
        }
      } else {
        var rest := ChunksFrom(text, size, overlap, next, index);
        ChunkWindowsWellFormed(text, size, overlap, next, index);
        forall i | 0 <= i < |r| ensures WellFormedChunk(text, size, start, r[i]) {
          assert WellFormedChunk(text, size, next, rest[i]);
        }
      }
    }
  }

  /** A chunk placed before increasing chunks that start at `lo` or later,
      itself starting before `lo`, keeps the starts increasing. */
  lemma PrependIncreasing(c: Chunk, rest: seq<Chunk>, lo: int)
    requires c.charStart < lo
    requires forall i :: 0 <= i < |rest| ==> lo <= rest[i].charStart
    requires forall i, j :: 0 <= i < j < |rest| ==> rest[i].charStart < rest[j].charStart
    ensures var r := [c] + rest;
      && (forall i :: 0 <= i < |r| ==> c.charStart <= r[i].charStart)
      && (forall i, j :: 0 <= i < j < |r| ==> r[i].charStart < r[j].charStart)
  {
    var r := [c] + rest;
    forall i, j | 0 <= i < j < |r| ensures r[i].charStart < r[j].charStart {
      assert r[j] == rest[j - 1];
      if i > 0 {
        assert r[i] == rest[i - 1];
      }
    }
    forall i | 0 < i < |r| ensures c.charStart <= r[i].charStart {
      assert r[i] == rest[i - 1];
    }
  }

  /** Emitted `char_start` values strictly increase, from `start` on. */
  lemma {:induction false} ChunkStartsIncrease(text: string, size: int, overlap: int, start: nat, index: nat)
    requires size >= 1
    ensures var r := ChunksFrom(text, size, overlap, start, index);
      && (forall i :: 0 <= i < |r| ==> start <= r[i].charStart)
      && (forall i, j :: 0 <= i < j < |r| ==> r[i].charStart < r[j].charStart)
    decreases |text| - start
  {
    if start < |text| {
      var end := WindowEnd(text, start, size);
      var piece := WindowText(text, start, end);
      var next := NextStart(text, start, end, overlap);
      ChunksFromStep(text, size, overlap, start, index);
      if piece != [] {
        ChunkStartsIncrease(text, size, overlap, next, index + 1);
        PrependIncreasing(Chunk(index, piece, start, end), ChunksFrom(text, size, overlap, next, index + 1), next);
      } else {
        ChunkStartsIncrease(text, size, overlap, next, index);
      }
    }
  }

  /** A chunk placed before chunks that each start no earlier than `overlap`
      before the end of their predecessor, the first of them no earlier than
      `overlap` before the end of the new chunk, keeps that property. */
  lemma PrependOverlapping(c: Chunk, rest: seq<Chunk>, overlap: int)
    requires rest != [] ==> rest[0].charStart >= c.charEnd - overlap
    requires forall i :: 0 <= i < |rest| - 1 ==> rest[i + 1].charStart >= rest[i].charEnd - overlap
    ensures var r := [c] + rest;
      forall i :: 0 <= i < |r| - 1 ==> r[i + 1].charStart >= r[i].charEnd - overlap
  {
    var r := [c] + rest;
    forall i | 0 <= i < |r| - 1 ensures r[i + 1].charStart >= r[i].charEnd - overlap {
      assert r[i + 1] == rest[i];
      if i > 0 {
        assert r[i] == rest[i - 1];
      }
    }
  }

  /** With a non-negative overlap, a chunk starts no earlier than `overlap`
      characters before the end of the chunk emitted before it. */
  lemma {:induction false} ChunkOverlapBounded(text: string, size: int, overlap: int, start: nat, index: nat)
    requires size >= 1 && overlap >= 0
    ensures var r := ChunksFrom(text, size, overlap, start, index);
      forall i :: 0 <= i < |r| - 1 ==> r[i + 1].charStart >= r[i].charEnd - overlap
    decreases |text| - start
  {
    if start < |text| {
      var end := WindowEnd(text, start, size);
      var piece := WindowText(text, start, end);
      var next := NextStart(text, start, end, overlap);
      ChunksFromStep(text, size, overlap, start, index);
      if piece != [] {
        var rest := ChunksFrom(text, size, overlap, next, index + 1);
        ChunkOverlapBounded(text, size, overlap, next, index + 1);
        ChunkStartsIncrease(text, size, overlap, next, index + 1);
        if rest != [] {
          assert next < |text|;
          assert rest[0].charStart >= next >= end - overlap;
        }
        PrependOverlapping(Chunk(index, piece, start, end), rest, overlap);
      } else {
        ChunkOverlapBounded(text, size, overlap, next, index);
      }
    }
  }

  /** On whitespace-normalised text, with windows of at least two characters
      and a non-negative overlap, the chunk windows cover the text from
      `start` to its end without gaps: the first starts at `start`, each
      starts no later than the previous one ends, and the last reaches the
      end of the text. */
  lemma {:induction false} ChunksCoverNormalizedText(text: string, size: int, overlap: int, start: nat, index: nat)
    requires Normalized(text) && size >= 2 && overlap >= 0 && start < |text|
    ensures var r := ChunksFrom(text, size, overlap, start, index);
      && r != []
      && r[0].charStart == start
      && r[|r| - 1].charEnd >= |text|
      && forall i :: 0 <= i < |r| - 1 ==> r[i + 1].charStart <= r[i].charEnd
    decreases |text| - start
  {
    var end := WindowEnd(text, start, size);
    var next := NextStart(text, start, end, overlap);
    WindowEmits(text, start, size);
    if next < |text| {
      ChunksCoverNormalizedText(text, size, overlap, next, index + 1);
    }
  }

  /** On normalised text every window emits a chunk, so each chunk but the
      last ends inside the text and the next one starts exactly `overlap`
      characters before its end, or at its end when that would not move
      past its start. */
  lemma {:induction false} ChunkOverlapExact(text: string, size: int, overlap: int, start: nat, index: nat)
    requires Normalized(text) && size >= 2
    ensures ExactOverlaps(text, overlap, ChunksFrom(text, size, overlap, start, index))
    decreases |text| - start
  {
    if start < |text| {
      var end := WindowEnd(text, start, size);
      var next := NextStart(text, start, end, overlap);
      WindowEmits(text, start, size);
      ChunksFromStep(text, size, overlap, start, index);
      var rest := ChunksFrom(text, size, overlap, next, index + 1);
      ChunkOverlapExact(text, size, overlap, next, index + 1);
      if rest != [] {
        assert next < |text|;
        WindowEmits(text, next, size);
        ChunksFromStep(text, size, overlap, next, index + 1);
      }
      PrependExactOverlap(text, overlap, Chunk(index, WindowText(text, start, end), start, end), rest);
    }
  }

  /** Each chunk but the last ends inside the text, and its successor
      starts `overlap` before that end, or at the end when that would not
      move past the chunk's start. */
  predicate ExactOverlaps(text: string, overlap: int, r: seq<Chunk>) {
    forall i :: 0 <= i < |r| - 1 ==>
      && r[i].charEnd < |text|
      && r[i + 1].charStart == (if r[i].charEnd - overlap > r[i].charStart then r[i].charEnd - overlap else r[i].charEnd)
  }

  /** A chunk whose successor starts where `ExactOverlaps` says, put in
      front of chunks with that property, keeps it. */
  lemma PrependExactOverlap(text: string, overlap: int, c: Chunk, rest: seq<Chunk>)
    requires rest != [] ==> c.charEnd < |text|
    requires rest != [] ==> rest[0].charStart == (if c.charEnd - overlap > c.charStart then c.charEnd - overlap else c.charEnd)
    requires ExactOverlaps(text, overlap, rest)
    ensures ExactOverlaps(text, overlap, [c] + rest)
  {
    var r := [c] + rest;
    forall i | 0 <= i < |r| - 1
      ensures && r[i].charEnd < |text|
              && r[i + 1].charStart == (if r[i].charEnd - overlap > r[i].charStart then r[i].charEnd - overlap else r[i].charEnd)
    {
      assert r[i + 1] == rest[i];
      if i > 0 {
        assert r[i] == rest[i - 1];
      }
    }
  }

  /** A text no longer than one window, with no whitespace at either end, is
      a single chunk: index 0, the whole text, `char_end` the unclamped
      window end `chunk_size`. */
  lemma ShortTextIsOneChunk(text: string, size: int, overlap: int)
    requires 1 <= |text| <= size
    requires !IsWhitespace(text[0]) && !IsWhitespace(text[|text| - 1])
    ensures Chunks(text, size, overlap) == [Chunk(0, text, 0, size)]
  {
    StripOfTrimmed(text);
    assert text[0..Min(size, |text|)] == text;
    assert ChunksFrom(text, size, overlap, |text|, 1) == [];
  }

  /** The one-sentence document of the indexing walkthrough, with the default
      window of 500 and overlap of 100, is exactly one chunk. */
  lemma OneSentenceDocumentIsOneChunk()
    ensures var doc := "ROS 2 nodes communicate over topics.";
      Chunks(doc, DefaultChunkSize, DefaultChunkOverlap) == [Chunk(0, doc, 0, 500)]
  {
    var doc := "ROS 2 nodes communicate over topics.";
    assert !IsWhitespace(doc[0]) && !IsWhitespace(doc[|doc| - 1]);
    ShortTextIsOneChunk(doc, DefaultChunkSize, DefaultChunkOverlap);
  }

  // --------------------------------------------- the loop guard as written

  /** The variables of the `while start < len(text)` loop. */
  datatype LoopState = LoopState(start: int, chunkIndex: nat, chunks: seq<Chunk>)

  /** One iteration of the loop exactly as written: the guard compares the
      next start with the start of the last EMITTED chunk (or does nothing
      while no chunk has been emitted), not with the window just processed. */
  function AsWrittenIteration(text: string, size: int, overlap: int, s: LoopState): (t: LoopState)
    requires 0 <= s.start < |text| && size >= 1
    ensures |t.chunks| >= |s.chunks| && t.chunks[..|s.chunks|] == s.chunks
  {
    var end := WindowEnd(text, s.start, size);
    var piece := WindowText(text, s.start, end);
    var chunks := if piece != [] then s.chunks + [Chunk(s.chunkIndex, piece, s.start, end)] else s.chunks;
    var index := if piece != [] then s.chunkIndex + 1 else s.chunkIndex;
    var next := if end < |text| then end - overlap else |text|;
    var guarded := if chunks != [] && next <= chunks[|chunks| - 1].charStart then end else next;
    LoopState(guarded, index, chunks)
  }

  /** `n` turns of a loop with body `step` and condition `going`, or fewer
      when the condition fails first. */
  function Iterate<S>(step: S -> S, going: S -> bool, s: S, n: nat): S
    decreases n
  {
    if n == 0 || !going(s) then s else Iterate(step, going, step(s), n - 1)
  }

  /** One more turn, from a state where the condition holds, is one more
      step. */
  lemma {:induction false} IterateOnce<S>(step: S -> S, going: S -> bool, s: S, n: nat)
    requires going(Iterate(step, going, s, n))
    ensures Iterate(step, going, s, n + 1) == step(Iterate(step, going, s, n))
    decreases n
  {
    if n > 0 && going(s) {
      IterateOnce(step, going, step(s), n - 1);
    }
  }

  /** The loop condition `start < len(text)`. */
  predicate InText(text: string, s: LoopState) {
    0 <= s.start < |text|
  }

  /** The loop body as written, made total: a state outside the text is
      left as it is. */
  function AsWrittenStep(text: string, size: int, overlap: int, s: LoopState): LoopState
    requires size >= 1
  {
    if InText(text, s) then AsWrittenIteration(text, size, overlap, s) else s
  }

  /** The loop state after `n` iterations as written from `s`, or after
      fewer when `start` leaves the text first. */
  function AsWrittenRun(text: string, size: int, overlap: int, s: LoopState, n: nat): LoopState
    requires size >= 1
  {
    Iterate((t: LoopState) => AsWrittenStep(text, size, overlap, t), (t: LoopState) => InText(text, t), s, n)
  }

  /** One more iteration, from a state still inside the text, is one more
      step of the run. */
  lemma AsWrittenRunStep(text: string, size: int, overlap: int, s: LoopState, n: nat)
    requires size >= 1
    requires InText(text, AsWrittenRun(text, size, overlap, s, n))
    ensures AsWrittenRun(text, size, overlap, s, n + 1)
      == AsWrittenIteration(text, size, overlap, AsWrittenRun(text, size, overlap, s, n))
  {
    IterateOnce((t: LoopState) => AsWrittenStep(text, size, overlap, t), (t: LoopState) => InText(text, t), s, n);
  }

  /** "a", ten spaces, "bbbbbb": text that is not whitespace-normalised. */
  const StallText: string := "a          bbbbbb"

  /** The first window of `StallText` with a window of 5 is `[0, 4)`,
      pulled back to the space at 4, and strips to "a". */
  lemma StallFirstWindow()
    ensures WindowEnd(StallText, 0, 5) == 4
    ensures WindowText(StallText, 0, 4) == "a"
  {
    assert |StallText| == 17 && StallText[4] == ' ';
    assert RFind(StallText, ' ', 0, 5) == 4;
    var w := StallText[0..4];
    assert w == "a   ";
    assert LeadingWhitespace(w) == 0;
    assert TrailingWhitespace(w[0..]) == 3;
  }

  /** The second window `[4, 8)` is all spaces and strips to nothing. */
  lemma StallSecondWindow()
    ensures WindowEnd(StallText, 4, 5) == 8
    ensures WindowText(StallText, 4, 8) == []
  {
    assert |StallText| == 17 && StallText[8] == ' ';
    assert RFind(StallText, ' ', 4, 9) == 8;
    var w := StallText[4..8];
    assert forall i :: 0 <= i < |w| ==> w[i] == ' ';
    assert AllWhitespace(w);
  }

  /** As written, the loop can run forever on text that is not normalised:
      on `StallText`, with a window of 5 and an overlap of 4, the second
      window `[4, 8)` is all spaces and emits nothing, and its successor
      `8 - 4 = 4` lies after the last emitted start 0, so the guard does not
      fire and the loop state after the second iteration is the state before
      it, with `start = 4 < len(text)`. */
  lemma WhitespaceWindowStalls()
    ensures var s1 := AsWrittenIteration(StallText, 5, 4, LoopState(0, 0, []));
      && s1 == LoopState(4, 1, [Chunk(0, "a", 0, 4)])
      && s1.start < |StallText|
      && AsWrittenIteration(StallText, 5, 4, s1) == s1
  {
    StallFirstWindow();
    StallSecondWindow();
  }

  /** Hence the loop as written never ends on `StallText`: after any number
      of turns past the first it is still at start 4, inside the text, so no
      run reaches the exit that `ChunkText` proves for normalised text. */
  lemma {:induction false} StallNeverEnds(n: nat)
    requires n >= 1
    ensures AsWrittenRun(StallText, 5, 4, LoopState(0, 0, []), n) == LoopState(4, 1, [Chunk(0, "a", 0, 4)])
    ensures InText(StallText, AsWrittenRun(StallText, 5, 4, LoopState(0, 0, []), n))
  {
    WhitespaceWindowStalls();
    if n == 1 {
      AsWrittenRunStep(StallText, 5, 4, LoopState(0, 0, []), 0);
    } else {
      StallNeverEnds(n - 1);
      AsWrittenRunStep(StallText, 5, 4, LoopState(0, 0, []), n - 1);
    }
  }
}

=== FILE: config.dfy ===
/** The backend's settings (backend/app/config.py): the defaults of every
    field and the three derived properties. Reading the environment and the
    `.env` file is not modelled; a `Settings` value is what pydantic would
    have loaded. */
module Config {
  import opened Wrappers
  import opened Text
  import opened Batching

  datatype Settings = Settings(
    environment: string,
    databaseUrl: string,
    qdrantUrl: string,
    qdrantApiKey: Option<string>,
    qdrantCollection: string,
    openaiApiKey: Option<string>,
    cohereApiKey: Option<string>,
    anthropicApiKey: Option<string>,
    betterAuthSecret: string,
    betterAuthUrl: string,
    host: string,
    port: int,
    corsOrigins: string,
    embeddingModel: string,
    chatModel: string,
    translationModel: string,
    aiProvider: string)

  const DefaultDatabaseAddress: string := "localhost/humanoid_robotics"
  const DefaultDatabaseUrl: string := "postgresql://" + DefaultDatabaseAddress
  const LocalFrontEnd: string := "http://localhost:3000"
  const LoopbackFrontEnd: string := "http://127.0.0.1:3000"
  const DefaultCorsOrigins: string := LocalFrontEnd + "," + LoopbackFrontEnd

  /** The settings when no variable is set. */
  const Defaults: Settings := Settings(
    "development",
    DefaultDatabaseUrl,
    "http://localhost:6333",
    None,
    "chapter_embeddings",
    None,
    None,
    None,
    "change-this-secret-in-production",
    "http://localhost:3000",
    "0.0.0.0",
    8000,
    DefaultCorsOrigins,
    "embed-english-v3.0",
    "command-r-plus",
    "claude-3-haiku-20240307",
    "cohere")

  /** `cors_origins_list`: the comma-separated pieces, each stripped. */
  function CorsOriginsList(s: Settings): seq<string> {
    MapSeq(Strip, Split(s.corsOrigins, ','))
  }

  /** One origin per comma-separated piece: as many as there are commas plus
      one, none holding a comma or surrounding whitespace, and a blank piece
      gives the empty origin. */
  lemma CorsOriginsPieces(s: Settings)
    ensures |CorsOriginsList(s)| == Count(s.corsOrigins, ',') + 1
    ensures forall i :: 0 <= i < |CorsOriginsList(s)| ==>
      var o := CorsOriginsList(s)[i];
      && ',' !in o
      && (o != [] ==> !IsWhitespace(o[0]) && !IsWhitespace(o[|o| - 1]))
      && (AllWhitespace(Split(s.corsOrigins, ',')[i]) <==> o == "")
  {
    SplitLength(s.corsOrigins, ',');
    var pieces := Split(s.corsOrigins, ',');
    var list := CorsOriginsList(s);
    forall i | 0 <= i < |list|
      ensures list[i] == Strip(pieces[i]) && ',' !in list[i]
    {
      StripKeepsOut(pieces[i], ',');
    }
  }

  /** The default origins are exactly the two local front-end addresses. */
  lemma DefaultCorsOriginsList()
    ensures CorsOriginsList(Defaults) == [LocalFrontEnd, LoopbackFrontEnd]
  {
    DefaultOriginsJoined();
    TwoOrigins(Defaults, LocalFrontEnd, LoopbackFrontEnd);
    FrontEndsTrimmed();
  }

  /** Two origins without commas, joined by one, come back apart. */
  lemma TwoOrigins(s: Settings, a: string, b: string)
    requires s.corsOrigins == Join([','], [a, b])
    requires ',' !in a && ',' !in b
    ensures CorsOriginsList(s) == [Strip(a), Strip(b)]
  {
    SplitOfJoin([a, b], ',');
    var list := CorsOriginsList(s);
    assert list[0] == Strip(a) && list[1] == Strip(b);
  }

  /** The default origins are the two addresses joined by a comma, neither
      of which holds one. */
  lemma DefaultOriginsJoined()
    ensures Join([','], [LocalFrontEnd, LoopbackFrontEnd]) == Defaults.corsOrigins
    ensures ',' !in LocalFrontEnd && ',' !in LoopbackFrontEnd
  {
    assert Join([','], [LoopbackFrontEnd]) == LoopbackFrontEnd;
    assert forall i :: 0 <= i < |LocalFrontEnd| ==> LocalFrontEnd[i] != ',';
    assert forall i :: 0 <= i < |LoopbackFrontEnd| ==> LoopbackFrontEnd[i] != ',';
  }

  lemma FrontEndsTrimmed()
    ensures Strip(LocalFrontEnd) == LocalFrontEnd && Strip(LoopbackFrontEnd) == LoopbackFrontEnd
  {
    assert LocalFrontEnd[0] == 'h' && LocalFrontEnd[|LocalFrontEnd| - 1] == '0';
    assert LoopbackFrontEnd[0] == 'h' && LoopbackFrontEnd[|LoopbackFrontEnd| - 1] == '0';
    StripOfTrimmed(LocalFrontEnd);
    StripOfTrimmed(LoopbackFrontEnd);
  }

  /** `is_development`. */
  predicate IsDevelopment(s: Settings) {
    Lower(s.environment) == "development"
  }

  /** `is_production`. */
  predicate IsProduction(s: Settings) {
    Lower(s.environment) == "production"
  }

  /** The mode ignores case, and no settings are both development and
      production. */
  lemma ModesExclusive(s: Settings, t: Settings)
    ensures !(IsDevelopment(s) && IsProduction(s))
    ensures Lower(s.environment) == Lower(t.environment) ==>
      (IsDevelopment(s) <==> IsDevelopment(t)) && (IsProduction(s) <==> IsProduction(t))
  {
    if IsDevelopment(s) {
      assert Lower(s.environment)[0] == 'd';
    }
  }

  /** Without configuration the backend runs in development mode with the
      Cohere provider. */
  lemma DefaultsAreDevelopment()
    ensures IsDevelopment(Defaults) && !IsProduction(Defaults)
    ensures Lower(Defaults.aiProvider) == "cohere"
  {
    LowerOfLower("development");
    LowerOfLower("cohere");
  }
}

=== FILE: database.dfy ===
/** The driver rewrite of the database URL (backend/app/db/database.py,
    module level): a synchronous PostgreSQL URL is turned into one for the
    asyncpg driver. The engine and the sessions are not modelled. */
module Database {
  import opened Text
  import Config

  const SyncScheme: string := "postgresql://"
  const ShortScheme: string := "postgres://"
  const AsyncScheme: string := "postgresql+asyncpg://"

  /** The URL the engine is created with. `replace(old, new, 1)` replaces the
      first occurrence, which is the prefix just tested. */
  function AsyncUrl(url: string): (r: string)
    ensures StartsWith(url, SyncScheme) ==> r == AsyncScheme + url[|SyncScheme|..]
    ensures !StartsWith(url, SyncScheme) && StartsWith(url, ShortScheme) ==> r == AsyncScheme + url[|ShortScheme|..]
    ensures !StartsWith(url, SyncScheme) && !StartsWith(url, ShortScheme) ==> r == url
  {
    if StartsWith(url, SyncScheme) then AsyncScheme + url[|SyncScheme|..]
    else if StartsWith(url, ShortScheme) then AsyncScheme + url[|ShortScheme|..]
    else url
  }

  /** A rewritten URL matches neither synchronous prefix. */
  lemma AsyncUrlMatchesNoPrefix(rest: string)
    ensures !StartsWith(AsyncScheme + rest, SyncScheme)
    ensures !StartsWith(AsyncScheme + rest, ShortScheme)
  {
    var u := AsyncScheme + rest;
    assert u[10] == '+' && SyncScheme[10] == ':';
    assert u[8] == 'q' && ShortScheme[8] == ':';
  }

  /** Rewriting twice is rewriting once. */
  lemma AsyncUrlIdempotent(url: string)
    ensures AsyncUrl(AsyncUrl(url)) == AsyncUrl(url)
  {
    if StartsWith(url, SyncScheme) {
      AsyncUrlMatchesNoPrefix(url[|SyncScheme|..]);
    } else if StartsWith(url, ShortScheme) {
      AsyncUrlMatchesNoPrefix(url[|ShortScheme|..]);
    }
  }

  /** Only the scheme changes: host, database and options are kept, and the
      two synchronous spellings of the same address give the same URL. */
  lemma AsyncUrlKeepsAddress(address: string)
    ensures AsyncUrl(SyncScheme + address) == AsyncScheme + address
    ensures AsyncUrl(ShortScheme + address) == AsyncScheme + address
  {
    var u := ShortScheme + address;
    assert u[..|ShortScheme|] == ShortScheme;
    assert u[|ShortScheme|..] == address;
    assert u[10] != SyncScheme[10] || |u| < |SyncScheme|;
    var v := SyncScheme + address;
    assert v[..|SyncScheme|] == SyncScheme;
    assert v[|SyncScheme|..] == address;
  }

  /** The default database URL is used through asyncpg. */
  lemma DefaultDatabaseUrl()
    ensures AsyncUrl(Config.Defaults.databaseUrl) == AsyncScheme + Config.DefaultDatabaseAddress
  {
    AsyncUrlKeepsAddress(Config.DefaultDatabaseAddress);
  }
}

=== FILE: embedding.dfy ===
/** `EmbeddingService` (backend/app/services/embedding_service.py): the
    provider and vector dimension chosen from the `ai_provider` setting, the
    validation and truncation of `embed_text`, and the blank filtering and
    batching of `embed_texts`. Both methods are wrapped in
    `@retry(stop=stop_after_attempt(3))`, so each call is a `Retried` run of
    whole attempts: a failed `embed_texts` attempt is started again from its
    first batch, and a validation `ValueError` is retried like any other
    exception.

    The Cohere and OpenAI clients are parameters: `call(a, batch)` is what
    the client returns or raises for `batch` during attempt `a`. */
module Embedding {
  import opened Wrappers
  import opened Text
  import opened Batching
  import opened Retrying

  datatype Provider = Cohere | OpenAI

  /** `settings.ai_provider.lower() == "cohere"` selects Cohere; any other
      value selects OpenAI. */
  function ProviderOf(aiProvider: string): (p: Provider)
    ensures p == Cohere <==> Lower(aiProvider) == "cohere"
  {
    if Lower(aiProvider) == "cohere" then Cohere else OpenAI
  }

  /** `self.dimension`: the length of the vectors the provider's model
      returns. */
  function Dimension(p: Provider): nat {
    match p
    case Cohere => 1024
    case OpenAI => 1536
  }

  /** The per-request batch limit `embed_texts` uses for the provider. */
  function BatchSize(p: Provider): nat {
    match p
    case Cohere => 96
    case OpenAI => 100
  }

  /** The provider, dimension and batch size of every setting, whatever its
      letter case: Cohere, 1024 and 96 for "cohere", else OpenAI, 1536 and
      100. */
  lemma ProviderSettings(aiProvider: string)
    ensures Lower(aiProvider) == "cohere" ==>
      ProviderOf(aiProvider) == Cohere && Dimension(ProviderOf(aiProvider)) == 1024 && BatchSize(ProviderOf(aiProvider)) == 96
    ensures Lower(aiProvider) != "cohere" ==>
      ProviderOf(aiProvider) == OpenAI && Dimension(ProviderOf(aiProvider)) == 1536 && BatchSize(ProviderOf(aiProvider)) == 100
  {
  }

  /** `8191 * 4`, the character budget of one text. */
  const MaxChars: nat := 8191 * 4

  /** The exceptions the service raises itself, and one raised by the client. */
  datatype EmbedError =
    | EmptyText          // ValueError("Text cannot be empty")
    | NoValidTexts       // ValueError("No valid texts to embed")
    | ClientError(message: string)

  /** `text[:max_chars]` when the text is longer than `max_chars`. */
  function Truncate(text: string): (t: string)
    ensures |t| == Min(|text|, MaxChars)
    ensures t == text[..|t|]
  {
    if |text| > MaxChars then text[..MaxChars] else text
  }

  function Min(a: int, b: int): int {
    if a <= b then a else b
  }

  /** One attempt of `embed_text`: blank text is refused, long text is
      truncated, and the (possibly truncated) text is sent on its own. */
  function EmbedTextAttempt<V>(text: string, send: string -> Result<V, string>): (r: Result<V, EmbedError>)
    ensures AllWhitespace(text) ==> r == Failure(EmptyText)
    ensures !AllWhitespace(text) ==> match send(Truncate(text))
      case Success(v) => r == Success(v)
      case Failure(e) => r == Failure(ClientError(e))
  {
    if AllWhitespace(text) then Failure(EmptyText)
    else match send(Truncate(text))
      case Success(v) => Success(v)
      case Failure(e) => Failure(ClientError(e))
  }

  /** `embed_text(text)` under its retry decorator. */
  function EmbedText<V>(text: string, call: (nat, string) -> Result<V, string>): Result<V, RetryError<EmbedError>>
  {
    Retried((a: nat) => EmbedTextAttempt(text, (t: string) => call(a, t)), Attempts)
  }

  /** Blank text is refused on every attempt, so the caller receives the
      `RetryError` wrapping the `ValueError`, and the client is never
      consulted. */
  lemma BlankTextIsRefused<V>(text: string, call: (nat, string) -> Result<V, string>)
    requires AllWhitespace(text)
    ensures EmbedText(text, call) == Failure(RetryError(EmptyText))
  {
    var op := (a: nat) => EmbedTextAttempt(text, (t: string) => call(a, t));
    assert forall a :: op(a) == Failure(EmptyText);
    assert RetryFrom(op, 2, 3) == Failure(RetryError(EmptyText));
  }

  /** A vector `embed_text` returns is what the client returned for the
      truncated text on one of the three attempts. */
  lemma EmbedTextSendsTruncatedText<V>(text: string, call: (nat, string) -> Result<V, string>)
    requires EmbedText(text, call).Success?
    ensures !AllWhitespace(text)
    ensures exists a :: 0 <= a < Attempts && call(a, Truncate(text)) == Success(EmbedText(text, call).value)
  {
    var op := (a: nat) => EmbedTextAttempt(text, (t: string) => call(a, t));
    SuccessComesFromAnAttempt(op, 0, Attempts);
    var a :| 0 <= a < Attempts && op(a) == Success(RetryFrom(op, 0, Attempts).value)
                                 && forall b :: 0 <= b < a ==> op(b).Failure?;
    assert op(a).Success?;
  }

  // ------------------------------------------------------------ embed_texts

  /** `[t.strip() for t in texts if t and t.strip()]`. */
  function ValidTexts(texts: seq<string>): (vs: seq<string>)
    ensures |vs| <= |texts|
    ensures forall i :: 0 <= i < |vs| ==> vs[i] != [] && !IsWhitespace(vs[i][0]) && !IsWhitespace(vs[i][|vs[i]| - 1])
  {
    if texts == [] then []
    else (if AllWhitespace(texts[0]) then [] else [Strip(texts[0])]) + ValidTexts(texts[1..])
  }

  /** Nothing is dropped exactly when no text is blank, and then every
      text is only stripped. */
  lemma {:induction false} ValidTextsOfNonBlank(texts: seq<string>)
    requires forall i :: 0 <= i < |texts| ==> !AllWhitespace(texts[i])
    ensures ValidTexts(texts) == MapSeq(Strip, texts)
  {
    if texts != [] {
      ValidTextsOfNonBlank(texts[1..]);
      assert MapSeq(Strip, texts) == [Strip(texts[0])] + MapSeq(Strip, texts[1..]);
    }
  }

  /** No text survives the filter exactly when every text is blank. */
  lemma {:induction false} ValidTextsEmpty(texts: seq<string>)
    ensures ValidTexts(texts) == [] <==> forall i :: 0 <= i < |texts| ==> AllWhitespace(texts[i])
  {
    if texts != [] {
      ValidTextsEmpty(texts[1..]);
      assert forall i :: 1 <= i < |texts| ==> texts[i] == texts[1..][i - 1];
    }
  }

  /** Each blank text shortens the result by one: `embed_texts` is not one
      to one with its input. */
  lemma {:induction false} ValidTextsDropsBlanks(texts: seq<string>, blank: string)
    requires AllWhitespace(blank)
    ensures ValidTexts(texts + [blank]) == ValidTexts(texts)
    ensures ValidTexts([blank] + texts) == ValidTexts(texts)
  {
    assert ([blank] + texts)[1..] == texts;
    if texts != [] {
      ValidTextsDropsBlanks(texts[1..], blank);
      assert (texts + [blank])[1..] == texts[1..] + [blank];
    } else {
      assert ValidTexts([blank]) == [] + ValidTexts([]);
    }
  }

  /** Filtering works text by text: the valid texts of a concatenation are
      those of each part, in order. */
  lemma {:induction false} ValidTextsAppend(a: seq<string>, b: seq<string>)
    ensures ValidTexts(a + b) == ValidTexts(a) + ValidTexts(b)
    decreases |a|
  {
    if a == [] {
      assert a + b == b;
    } else {
      var kept := if AllWhitespace(a[0]) then [] else [Strip(a[0])];
      assert (a + b)[0] == a[0] && (a + b)[1..] == a[1..] + b;
      ValidTextsAppend(a[1..], b);
      calc {
        ValidTexts(a + b);
        kept + ValidTexts(a[1..] + b);
        kept + (ValidTexts(a[1..]) + ValidTexts(b));
        { ConcatAssoc(kept, ValidTexts(a[1..]), ValidTexts(b)); }
        kept + ValidTexts(a[1..]) + ValidTexts(b);
      }
    }
  }

  /** A single text is kept, stripped, exactly when it is not blank. */
  lemma ValidTextsOfOne(t: string)
    ensures ValidTexts([t]) == if AllWhitespace(t) then [] else [Strip(t)]
  {
    assert [t][1..] == [];
  }

  /** The positions of the texts that are not blank. */
  function NonBlankPositions(texts: seq<string>): set<nat> {
    set i: nat | i < |texts| && !AllWhitespace(texts[i])
  }

  /** One valid text per non-blank input. */
  lemma {:induction false} ValidTextsCount(texts: seq<string>)
    ensures |ValidTexts(texts)| == |NonBlankPositions(texts)|
    decreases |texts|
  {
    if texts != [] {
      var init := texts[..|texts| - 1];
      var last := texts[|texts| - 1];
      assert texts == init + [last];
      ValidTextsAppend(init, [last]);
      ValidTextsOfOne(last);
      ValidTextsCount(init);
      NonBlankPositionsSnoc(init, last);
    }
  }

  /** Appending a text adds its position exactly when it is not blank. */
  lemma NonBlankPositionsSnoc(init: seq<string>, last: string)
    ensures |NonBlankPositions(init + [last])| == |NonBlankPositions(init)| + if AllWhitespace(last) then 0 else 1
  {
    var texts := init + [last];
    var s := NonBlankPositions(init);
    assert forall i: nat :: i < |init| ==> texts[i] == init[i];
    if AllWhitespace(last) {
      assert NonBlankPositions(texts) == s;
    } else {
      assert |init| !in s;
      assert NonBlankPositions(texts) == s + {|init|};
    }
  }

  /** The batches of `valid` from `i` on, each sent in turn; the first
      client error ends the attempt. */
  function SendBatches<V>(bs: seq<seq<string>>, send: seq<string> -> Result<seq<V>, string>): Result<seq<V>, EmbedError>
  {
    if bs == [] then Success([])
    else match send(bs[0])
      case Failure(e) => Failure(ClientError(e))
      case Success(v) => Prepend(v, SendBatches(bs[1..], send))
  }

  /** Sending a batch, then the rest. */
  lemma SendBatchesStep<V>(b: seq<string>, rest: seq<seq<string>>, send: seq<string> -> Result<seq<V>, string>)
    ensures send(b).Failure? ==> SendBatches([b] + rest, send) == Failure(ClientError(send(b).error))
    ensures send(b).Success? ==> SendBatches([b] + rest, send) == Prepend(send(b).value, SendBatches(rest, send))
  {
    assert ([b] + rest)[1..] == rest;
  }

  /** The batches from offset `i` on, sent in turn, as the batch loop walks
      them: the slice `valid[i:i + size]`, then the rest from `i + size`. */
  function SendFrom<V>(valid: seq<string>, i: nat, size: nat, send: seq<string> -> Result<seq<V>, string>): Result<seq<V>, EmbedError>
    requires size >= 1
    decreases |valid| - i
  {
    if i >= |valid| then Success([])
    else match send(valid[i..Min(i + size, |valid|)])
      case Failure(e) => Failure(ClientError(e))
      case Success(v) => Prepend(v, SendFrom(valid, i + size, size, send))
  }

  /** Walking the offsets sends exactly the consecutive batches. */
  lemma {:induction false} SendFromBatches<V>(valid: seq<string>, i: nat, size: nat, send: seq<string> -> Result<seq<V>, string>)
    requires size >= 1
    ensures SendFrom(valid, i, size, send) == SendBatches(BatchesAt(valid, i, size), send)
    decreases |valid| - i
  {
    if i < |valid| {
      var batch := valid[i..Min(i + size, |valid|)];
      var later := BatchesAt(valid, i + size, size);
      BatchesAtStep(valid, i, size);
      SendBatchesStep(batch, later, send);
      assert SendBatches(BatchesAt(valid, i, size), send) == SendBatches([batch] + later, send);
      if send(batch).Success? {
        SendFromBatches(valid, i + size, size, send);
        assert SendFrom(valid, i, size, send) == Prepend(send(batch).value, SendFrom(valid, i + size, size, send));
      } else {
        assert SendFrom(valid, i, size, send) == Failure(ClientError(send(batch).error));
      }
    } else {
      assert BatchesAt(valid, i, size) == [];
    }
  }

  /** What one attempt of `embed_texts` returns or raises. */
  function EmbedTextsResult<V>(texts: seq<string>, p: Provider, send: seq<string> -> Result<seq<V>, string>): Result<seq<V>, EmbedError>
  {
    if texts == [] then Success([])
    else
      var valid := ValidTexts(texts);
      if valid == [] then Failure(NoValidTexts)
      else SendBatches(Batches(valid, BatchSize(p)), send)
  }

  /** The batches of `xs` from offset `i` on. */
  function BatchesAt(xs: seq<string>, i: nat, size: nat): seq<seq<string>>
    requires size >= 1
  {
    if i < |xs| then Batches(xs[i..], size) else []
  }

  lemma BatchesAtStep(xs: seq<string>, i: nat, size: nat)
    requires size >= 1 && i < |xs|
    ensures BatchesAt(xs, i, size) == [xs[i..Min(i + size, |xs|)]] + BatchesAt(xs, i + size, size)
  {
    var ys := xs[i..];
    if |ys| > size {
      assert ys[..size] == xs[i..i + size];
      assert ys[size..] == xs[i + size..];
    } else {
      assert ys == xs[i..|xs|];
    }
  }

  /** One attempt of `embed_texts(texts)`, as written: filter, then send
      consecutive batches of the provider's size and extend the result. */
  method EmbedTextsAttempt<V>(texts: seq<string>, p: Provider, send: seq<string> -> Result<seq<V>, string>)
    returns (r: Result<seq<V>, EmbedError>)
    ensures r == EmbedTextsResult(texts, p, send)
    ensures texts == [] ==> r == Success([])
  {
    if texts == [] {
      return Success([]);
    }
    var valid := ValidTexts(texts);
    if valid == [] {
      return Failure(NoValidTexts);
    }
    r := SendInBatches(valid, BatchSize(p), send);
  }

  /** The batch loop of one attempt: consecutive slices of `batchSize`
      valid texts are sent in turn and their vectors appended; a client
      error ends the loop. */
  method SendInBatches<V>(valid: seq<string>, batchSize: nat, send: seq<string> -> Result<seq<V>, string>)
    returns (r: Result<seq<V>, EmbedError>)
    requires batchSize >= 1
    ensures r == SendBatches(Batches(valid, batchSize), send)
  {
    var all: seq<V> := [];
    var i: nat := 0;
    ghost var goal := SendFrom(valid, 0, batchSize, send);
    SendFromBatches(valid, 0, batchSize, send);
    assert valid[0..] == valid;
    assert BatchesAt(valid, 0, batchSize) == Batches(valid, batchSize);
    PrependNothing(goal);
    while i < |valid|
      invariant Prepend(all, SendFrom(valid, i, batchSize, send)) == goal
      decreases |valid| - i
    {
      var response := send(valid[i..Min(i + batchSize, |valid|)]);
      if response.Failure? {
        return Failure(ClientError(response.error));
      }
      PrependAssoc(all, response.value, SendFrom(valid, i + batchSize, batchSize, send));
      all := all + response.value;
      i := i + batchSize;
    }
    assert all + [] == all;
    r := Success(all);
  }

  /** `embed_texts(texts)` under its retry decorator: each attempt runs the
      whole method again, from the first batch. */
  function EmbedTexts<V>(texts: seq<string>, p: Provider, call: (nat, seq<string>) -> Result<seq<V>, string>)
    : Result<seq<V>, RetryError<EmbedError>>
  {
    Retried((a: nat) => EmbedTextsOnAttempt(texts, p, call, a), Attempts)
  }

  /** Attempt `a` of `embed_texts(texts)`. */
  function EmbedTextsOnAttempt<V>(texts: seq<string>, p: Provider, call: (nat, seq<string>) -> Result<seq<V>, string>, a: nat)
    : Result<seq<V>, EmbedError>
  {
    EmbedTextsResult(texts, p, (b: seq<string>) => call(a, b))
  }

  // --------------------------------------------- properties of embed_texts

  /** A client that never raises and embeds each text on its own makes one
      attempt return one vector per non-blank text, in order. */
  lemma {:induction false} SendBatchesPointwise<V>(bs: seq<seq<string>>, send: seq<string> -> Result<seq<V>, string>, f: string -> V)
    requires forall b :: send(b) == Success(MapSeq(f, b))
    ensures SendBatches(bs, send) == Success(MapSeq(f, Flatten(bs)))
  {
    if bs != [] {
      SendBatchesPointwise(bs[1..], send, f);
      assert MapSeq(f, bs[0] + Flatten(bs[1..])) == MapSeq(f, bs[0]) + MapSeq(f, Flatten(bs[1..]));
    }
  }

  /** With a client that never raises and embeds each text on its own,
      `embed_texts` returns the vectors of the stripped non-blank texts, in
      order and independently of the batch size. */
  lemma EmbedTextsPointwise<V>(texts: seq<string>, p: Provider, call: (nat, seq<string>) -> Result<seq<V>, string>, f: string -> V)
    requires ValidTexts(texts) != []
    requires forall a, b :: call(a, b) == Success(MapSeq(f, b))
    ensures EmbedTexts(texts, p, call) == Success(MapSeq(f, ValidTexts(texts)))
  {
    var valid := ValidTexts(texts);
    var send := (b: seq<string>) => call(0, b);
    SendBatchesPointwise(Batches(valid, BatchSize(p)), send, f);
    FlattenBatches(valid, BatchSize(p));
  }

  /** The result has one vector per non-blank input, so it is shorter than
      the input exactly when some input was blank. */
  lemma EmbedTextsLength<V>(texts: seq<string>, p: Provider, call: (nat, seq<string>) -> Result<seq<V>, string>, f: string -> V)
    requires ValidTexts(texts) != []
    requires forall a, b :: call(a, b) == Success(MapSeq(f, b))
    ensures EmbedTexts(texts, p, call).Success?
    ensures |EmbedTexts(texts, p, call).value| == |ValidTexts(texts)| <= |texts|
    ensures |EmbedTexts(texts, p, call).value| == |NonBlankPositions(texts)|
  {
    EmbedTextsPointwise(texts, p, call, f);
    ValidTextsCount(texts);
  }

  /** An attempt whose batches all return yields the concatenated answers;
      with a client that answers each batch with one vector per text, that
      is one vector per text sent. */
  lemma {:induction false} SendBatchesSuccessLength<V>(bs: seq<seq<string>>, send: seq<string> -> Result<seq<V>, string>)
    requires forall b :: send(b).Success? ==> |send(b).value| == |b|
    ensures var r := SendBatches(bs, send);
      r.Success? ==> |r.value| == |Flatten(bs)|
  {
    if bs != [] && send(bs[0]).Success? {
      SendBatchesSuccessLength(bs[1..], send);
    }
  }

  /** With a client that, whenever it answers, embeds each text on its own,
      an attempt that returns yields the vectors of the texts it sent, in
      order. */
  lemma {:induction false} SendBatchesSuccessPointwise<V>(bs: seq<seq<string>>, send: seq<string> -> Result<seq<V>, string>,
                                                         f: string -> V)
    requires forall b :: send(b).Success? ==> send(b).value == MapSeq(f, b)
    ensures var r := SendBatches(bs, send);
      r.Success? ==> r.value == MapSeq(f, Flatten(bs))
  {
    if bs != [] && send(bs[0]).Success? {
      SendBatchesSuccessPointwise(bs[1..], send, f);
      assert MapSeq(f, bs[0] + Flatten(bs[1..])) == MapSeq(f, bs[0]) + MapSeq(f, Flatten(bs[1..]));
    }
  }

  /** A successful `embed_texts`, after failed attempts or not, returns the
      vectors of the stripped non-blank texts, in order, when the client
      embeds each text on its own whenever it answers. */
  lemma EmbedTextsSuccessPointwise<V>(texts: seq<string>, p: Provider, call: (nat, seq<string>) -> Result<seq<V>, string>,
                                      f: string -> V)
    requires forall a, b :: call(a, b).Success? ==> call(a, b).value == MapSeq(f, b)
    ensures var r := EmbedTexts(texts, p, call);
      r.Success? ==> r.value == MapSeq(f, ValidTexts(texts))
  {
    var r := EmbedTexts(texts, p, call);
    if r.Success? {
      var op := (a: nat) => EmbedTextsOnAttempt(texts, p, call, a);
      assert r == RetryFrom(op, 0, Attempts);
      SuccessComesFromAnAttempt(op, 0, Attempts);
      var a :| 0 <= a < Attempts && op(a) == Success(r.value);
      var send := (b: seq<string>) => call(a, b);
      assert op(a) == EmbedTextsResult(texts, p, send);
      var valid := ValidTexts(texts);
      if texts != [] && valid != [] {
        SendBatchesSuccessPointwise(Batches(valid, BatchSize(p)), send, f);
        FlattenBatches(valid, BatchSize(p));
      }
    }
  }

  /** A successful `embed_texts`, after failed attempts or not, returns one
      vector per non-blank input when the client answers each batch with one
      vector per text. */
  lemma EmbedTextsSuccessLength<V>(texts: seq<string>, p: Provider, call: (nat, seq<string>) -> Result<seq<V>, string>)
    requires forall a, b :: call(a, b).Success? ==> |call(a, b).value| == |b|
    ensures var r := EmbedTexts(texts, p, call);
      r.Success? ==> |r.value| == |ValidTexts(texts)| == |NonBlankPositions(texts)|
  {
    var r := EmbedTexts(texts, p, call);
    ValidTextsCount(texts);
    if r.Success? {
      var op := (a: nat) => EmbedTextsOnAttempt(texts, p, call, a);
      assert r == RetryFrom(op, 0, Attempts);
      SuccessComesFromAnAttempt(op, 0, Attempts);
      var a :| 0 <= a < Attempts && op(a) == Success(r.value);
      var send := (b: seq<string>) => call(a, b);
      assert op(a) == EmbedTextsResult(texts, p, send);
      var valid := ValidTexts(texts);
      if texts != [] && valid != [] {
        SendBatchesSuccessLength(Batches(valid, BatchSize(p)), send);
        FlattenBatches(valid, BatchSize(p));
      }
    }
  }

  /** Input made only of blank texts is refused on all three attempts. */
  lemma AllBlankIsRefused<V>(texts: seq<string>, p: Provider, call: (nat, seq<string>) -> Result<seq<V>, string>)
    requires texts != []
    requires forall i :: 0 <= i < |texts| ==> AllWhitespace(texts[i])
    ensures EmbedTexts(texts, p, call) == Failure(RetryError(NoValidTexts))
  {
    ValidTextsEmpty(texts);
    var op := (a: nat) => EmbedTextsOnAttempt(texts, p, call, a);
    assert forall a :: op(a) == Failure(NoValidTexts);
    assert RetryFrom(op, 2, 3) == Failure(RetryError(NoValidTexts));
  }

  /** A failed `embed_texts` call means each of the three attempts raised,
      and the error it surfaces is the last attempt's. */
  lemma EmbedTextsFailure<V>(texts: seq<string>, p: Provider, call: (nat, seq<string>) -> Result<seq<V>, string>)
    requires EmbedTexts(texts, p, call).Failure?
    ensures forall a :: 0 <= a < Attempts ==> EmbedTextsOnAttempt(texts, p, call, a).Failure?
    ensures EmbedTexts(texts, p, call).error.last == EmbedTextsOnAttempt(texts, p, call, 2).error
  {
    var op := (a: nat) => EmbedTextsOnAttempt(texts, p, call, a);
    assert EmbedTexts(texts, p, call) == RetryFrom(op, 0, Attempts);
    FailureMeansAllAttemptsFailed(op, 0, Attempts);
    forall a | 0 <= a < Attempts ensures EmbedTextsOnAttempt(texts, p, call, a).Failure? {
      assert op(a) == EmbedTextsOnAttempt(texts, p, call, a);
    }
    assert op(2) == EmbedTextsOnAttempt(texts, p, call, 2);
  }

  /** An attempt whose second batch fails is discarded whole: if the next
      attempt succeeds, its vectors are the result, the first batch's
      vectors from the failed attempt included nowhere twice. */
  lemma RetryRestartsFromFirstBatch<V>(texts: seq<string>, p: Provider, call: (nat, seq<string>) -> Result<seq<V>, string>)
    requires EmbedTextsOnAttempt(texts, p, call, 0).Failure?
    requires EmbedTextsOnAttempt(texts, p, call, 1).Success?
    ensures EmbedTexts(texts, p, call) == Success(EmbedTextsOnAttempt(texts, p, call, 1).value)
  {
    var op := (a: nat) => EmbedTextsOnAttempt(texts, p, call, a);
    assert op(0).Failure? && op(1).Success?;
    FirstSuccessWins(op, 0, Attempts, 1);
  }
}

=== FILE: errors.dfy ===
/** The error responses of the chat API (backend/app/middleware/error_handler.py):
    the `APIError` family with the status, code and message each subclass
    fixes, the response body every handler returns, the field paths of the
    two validation handlers and the payload of the catch-all handler. The
    response timestamp comes from the clock and is a parameter. */
module ErrorHandler {
  import opened Wrappers
  import opened Text
  import opened Batching

  /** One entry of a validation error's `details["errors"]`. */
  datatype FieldError = FieldError(field: string, message: string, errorType: string)

  /** The `details` of an error: the validation handlers' list of field
      errors, or the dictionary a caller passed (its values rendered as
      strings). */
  datatype Details =
    | ValidationDetails(errors: seq<FieldError>)
    | GivenDetails(entries: map<string, string>)

  /** An `APIError` as its handler reads it. */
  datatype ApiError = ApiError(message: string, statusCode: int, errorCode: string, details: Option<Details>)

  /** How an `APIError` was raised: the base class with its optional
      arguments, or one of the subclasses with theirs. */
  datatype Raised =
    | Base(message: string, status: Option<int>, code: Option<string>, baseDetails: Option<Details>)
    | NotFound(resource: string, identifier: Option<string>)
    | Unauthorized(customMessage: Option<string>)
    | Forbidden(customMessage: Option<string>)
    | BadRequest(message: string, badRequestDetails: Option<Details>)
    | Conflict(message: string)
    | ServiceUnavailable(service: string)

  /** `NotFoundError`'s message: the identifier is named only when it is
      truthy (neither `None` nor empty). */
  function NotFoundMessage(resource: string, identifier: Option<string>): string {
    if identifier.Some? && identifier.value != "" then resource + " with id '" + identifier.value + "' not found"
    else resource + " not found"
  }

  /** The error each constructor builds. */
  function Construct(r: Raised): (e: ApiError)
    ensures r.Base? ==> e.statusCode == r.status.GetOr(500) && e.errorCode == r.code.GetOr("INTERNAL_ERROR")
    ensures r.NotFound? ==> e.statusCode == 404 && e.errorCode == "NOT_FOUND"
    ensures r.Unauthorized? ==> e.statusCode == 401 && e.errorCode == "UNAUTHORIZED"
    ensures r.Forbidden? ==> e.statusCode == 403 && e.errorCode == "FORBIDDEN"
    ensures r.BadRequest? ==> e.statusCode == 400 && e.errorCode == "BAD_REQUEST"
    ensures r.Conflict? ==> e.statusCode == 409 && e.errorCode == "CONFLICT"
    ensures r.ServiceUnavailable? ==> e.statusCode == 503 && e.errorCode == "SERVICE_UNAVAILABLE"
    ensures r.Unauthorized? ==> e.message == r.customMessage.GetOr("Authentication required")
    ensures r.Forbidden? ==> e.message == r.customMessage.GetOr("Permission denied")
    ensures r.ServiceUnavailable? ==> e.message == r.service + " is currently unavailable"
    ensures r.NotFound? ==> e.message == NotFoundMessage(r.resource, r.identifier)
    ensures r.Base? || r.BadRequest? || r.Conflict? ==> e.message == r.message
  {
    match r
    case Base(message, status, code, details) => ApiError(message, status.GetOr(500), code.GetOr("INTERNAL_ERROR"), details)
    case NotFound(resource, identifier) => ApiError(NotFoundMessage(resource, identifier), 404, "NOT_FOUND", None)
    case Unauthorized(message) => ApiError(message.GetOr("Authentication required"), 401, "UNAUTHORIZED", None)
    case Forbidden(message) => ApiError(message.GetOr("Permission denied"), 403, "FORBIDDEN", None)
    case BadRequest(message, details) => ApiError(message, 400, "BAD_REQUEST", details)
    case Conflict(message) => ApiError(message, 409, "CONFLICT", None)
    case ServiceUnavailable(service) => ApiError(service + " is currently unavailable", 503, "SERVICE_UNAVAILABLE", None)
  }

  /** A base error with neither status nor code is an internal error. */
  lemma BaseDefaultsToInternalError(message: string, details: Option<Details>)
    ensures Construct(Base(message, None, None, details)) == ApiError(message, 500, "INTERNAL_ERROR", details)
  {
  }

  /** Among the subclasses the status determines the code: two subclass
      errors with the same status have the same code, and a subclass status
      is a client error (4xx) except for the unavailable service (503). */
  lemma SubclassStatusDeterminesCode(a: Raised, b: Raised)
    requires !a.Base? && !b.Base?
    ensures Construct(a).statusCode == Construct(b).statusCode ==> Construct(a).errorCode == Construct(b).errorCode
    ensures 400 <= Construct(a).statusCode < 500 <==> !a.ServiceUnavailable?
  {
  }

  /** Only a bad request or a base error can carry details; every other
      subclass sets none, and those two pass theirs through. */
  lemma OnlyBadRequestCarriesDetails(r: Raised)
    ensures Construct(r).details.Some? ==> r.Base? || r.BadRequest?
    ensures r.Base? ==> Construct(r).details == r.baseDetails
    ensures r.BadRequest? ==> Construct(r).details == r.badRequestDetails
  {
  }

  /** The not-found message always names the resource and ends in
      " not found"; it quotes the identifier exactly when one is given, and
      an empty identifier reads like none. */
  lemma NotFoundMessageShape(resource: string, identifier: Option<string>)
    ensures StartsWith(NotFoundMessage(resource, identifier), resource)
    ensures var m := NotFoundMessage(resource, identifier);
      |m| >= 10 && m[|m| - 10..] == " not found"
    ensures identifier.Some? && identifier.value != "" ==>
      NotFoundMessage(resource, identifier) != NotFoundMessage(resource, None)
    ensures NotFoundMessage(resource, Some("")) == NotFoundMessage(resource, None)
  {
    var m := NotFoundMessage(resource, identifier);
    if identifier.Some? && identifier.value != "" {
      var mid := " with id '" + identifier.value + "'";
      ConcatAssoc(resource, " with id '", identifier.value);
      ConcatAssoc(resource, " with id '" + identifier.value, "'");
      ConcatAssoc(resource, mid, " not found");
      assert m == resource + (mid + " not found");
      assert |m| > |resource + " not found"|;
    }
  }

  // ---------------------------------------------------------- the response

  /** The body `create_error_response` builds. */
  datatype ErrorResponse = ErrorResponse(success: bool, error: string, message: string, details: Option<Details>, timestamp: string)

  /** A `JSONResponse`: its status and body. */
  datatype JsonResponse = JsonResponse(status: int, content: ErrorResponse)

  /** `create_error_response(error_code, message, details)`, stamped with
      the given time. */
  function CreateErrorResponse(errorCode: string, message: string, details: Option<Details>, timestamp: string): (r: ErrorResponse)
    ensures !r.success
    ensures r.error == errorCode && r.message == message && r.details == details && r.timestamp == timestamp
  {
    ErrorResponse(false, errorCode, message, details, timestamp)
  }

  /** `api_error_handler`: the error's status, and a body with its code,
      message and details. */
  function ApiErrorHandler(e: ApiError, timestamp: string): JsonResponse {
    JsonResponse(e.statusCode, CreateErrorResponse(e.errorCode, e.message, e.details, timestamp))
  }

  /** The response loses nothing of the error: it can be rebuilt from the
      status and the body. */
  lemma ApiErrorResponseRoundTrip(e: ApiError, timestamp: string)
    ensures var resp := ApiErrorHandler(e, timestamp);
      !resp.content.success && ApiError(resp.content.message, resp.status, resp.content.error, resp.content.details) == e
  {
  }

  // ------------------------------------------------------ validation errors

  /** One component of an error location: a field name or a list index. */
  datatype LocPart = Key(name: string) | Position(index: nat)

  /** `str(loc)`. */
  function LocString(p: LocPart): string {
    match p
    case Key(name) => name
    case Position(index) => NatToDecimal(index)
  }

  /** `".".join(str(loc) for loc in err["loc"])`. */
  function FieldPath(loc: seq<LocPart>): string {
    Join(".", MapSeq(LocString, loc))
  }

  /** An error as pydantic reports it. */
  datatype ValidationIssue = ValidationIssue(loc: seq<LocPart>, msg: string, errorType: string)

  function FieldErrorOf(issue: ValidationIssue): FieldError {
    FieldError(FieldPath(issue.loc), issue.msg, issue.errorType)
  }

  /** Which handler caught the validation error: FastAPI's request
      validation or a pydantic model validation. */
  datatype ValidationSource = RequestValidation | DataValidation

  /** `validation_error_handler` and `pydantic_error_handler`. */
  function ValidationErrorHandler(source: ValidationSource, issues: seq<ValidationIssue>, timestamp: string): (resp: JsonResponse)
    ensures resp.status == 422 && resp.content.error == "VALIDATION_ERROR" && !resp.content.success
    ensures resp.content.message == (if source == RequestValidation then "Request validation failed" else "Data validation failed")
    ensures resp.content.details.Some? && resp.content.details.value.ValidationDetails?
    ensures var errors := resp.content.details.value.errors;
      |errors| == |issues| &&
      forall i :: 0 <= i < |issues| ==>
        && errors[i].field == FieldPath(issues[i].loc)
        && errors[i].message == issues[i].msg && errors[i].errorType == issues[i].errorType
  {
    var message := if source == RequestValidation then "Request validation failed" else "Data validation failed";
    JsonResponse(422, CreateErrorResponse("VALIDATION_ERROR", message, Some(ValidationDetails(MapSeq(FieldErrorOf, issues))), timestamp))
  }

  /** A field path splits back into its location: field names without a
      dot come back as they were, list indices as their decimal digits. */
  lemma FieldPathRoundTrip(loc: seq<LocPart>)
    requires loc != []
    requires forall i :: 0 <= i < |loc| && loc[i].Key? ==> '.' !in loc[i].name
    ensures Split(FieldPath(loc), '.') == MapSeq(LocString, loc)
  {
    var parts := MapSeq(LocString, loc);
    forall i | 0 <= i < |parts|
      ensures '.' !in parts[i]
    {
      if loc[i].Position? {
        var d := NatToDecimal(loc[i].index);
        assert forall k :: 0 <= k < |d| ==> d[k] != '.';
      }
    }
    SplitOfJoin(parts, '.');
  }

  /** Both validation handlers report the same field errors for the same
      issues; only their message differs. */
  lemma ValidationHandlersAgree(issues: seq<ValidationIssue>, timestamp: string)
    ensures ValidationErrorHandler(RequestValidation, issues, timestamp).content.details
         == ValidationErrorHandler(DataValidation, issues, timestamp).content.details
    ensures ValidationErrorHandler(RequestValidation, issues, timestamp).content.message
         != ValidationErrorHandler(DataValidation, issues, timestamp).content.message
  {
  }

  // ---------------------------------------------------- uncaught exceptions

  const GenericMessage: string := "An unexpected error occurred. Please try again later."

  /** `generic_error_handler(request, exc)`; `exceptionText` is `str(exc)`,
      which only the log sees. */
  function GenericErrorHandler(exceptionText: string, timestamp: string): (resp: JsonResponse)
    ensures resp.status == 500 && resp.content.error == "INTERNAL_ERROR" && resp.content.details.None?
    ensures resp.content.message == GenericMessage
  {
    JsonResponse(500, CreateErrorResponse("INTERNAL_ERROR", GenericMessage, None, timestamp))
  }

  /** Nothing of the exception reaches the client: any two exceptions
      produce the same response. */
  lemma GenericErrorHidesException(a: string, b: string, timestamp: string)
    ensures GenericErrorHandler(a, timestamp) == GenericErrorHandler(b, timestamp)
  {
  }
}

=== FILE: indexing.dfy ===
/** The indexing script (backend/main.py) around `chunk_text`: the check of
    the required environment variables in `load_config`, the batching and
    rate-limit retry loop of `embed`, the points `save_chunk_to_qdrant`
    stores, and the title and whitespace clean-up of the text extractors.

    The Cohere and Qdrant clients are parameters: the embedding provider is a
    function from a batch to its vectors, and whether attempt `a` on batch `b`
    raises (and with what message) is a function `raised(b, a)`. */
module Indexing {
  import opened Wrappers
  import opened Text
  import opened Batching
  import opened Chunker

  // ------------------------------------------------------------ load_config

  /** The variables `load_config` refuses to run without, in the order it
      checks them. */
  const RequiredVariables: seq<string> := ["COHERE_API_KEY", "QDRANT_URL", "QDRANT_API_KEY"]

  const DefaultCollectionName: string := "rag_embedding"
  const DefaultCohereModel: string := "embed-english-v3.0"

  /** `os.getenv(name)` is truthy: the variable is set and not empty. */
  predicate IsSet(env: map<string, string>, name: string) {
    name in env && env[name] != ""
  }

  /** The names among `names` that are not set, in order. */
  function MissingAmong(names: seq<string>, env: map<string, string>): seq<string>
  {
    if names == [] then []
    else (if IsSet(env, names[0]) then [] else [names[0]]) + MissingAmong(names[1..], env)
  }

  /** A name is reported missing exactly when it is required and not set. */
  lemma {:induction false} MissingAmongMembers(names: seq<string>, env: map<string, string>)
    ensures forall n :: n in MissingAmong(names, env) <==> n in names && !IsSet(env, n)
    ensures |MissingAmong(names, env)| <= |names|
  {
    if names != [] {
      MissingAmongMembers(names[1..], env);
      assert forall n :: n in names <==> n == names[0] || n in names[1..];
    }
  }

  /** The `missing` list `load_config` builds, appending one name per
      unset variable. */
  method MissingVariables(env: map<string, string>) returns (missing: seq<string>)
    ensures missing == MissingAmong(RequiredVariables, env)
    ensures forall n :: n in missing <==> n in RequiredVariables && !IsSet(env, n)
    ensures missing == [] <==> forall n :: n in RequiredVariables ==> IsSet(env, n)
  {
    missing := [];
    if !IsSet(env, "COHERE_API_KEY") {
      missing := missing + ["COHERE_API_KEY"];
    }
    if !IsSet(env, "QDRANT_URL") {
      missing := missing + ["QDRANT_URL"];
    }
    if !IsSet(env, "QDRANT_API_KEY") {
      missing := missing + ["QDRANT_API_KEY"];
    }
    var rest := RequiredVariables[1..];
    assert rest == ["QDRANT_URL", "QDRANT_API_KEY"] && rest[1..] == ["QDRANT_API_KEY"] && rest[1..][1..] == [];
    assert MissingAmong(rest[1..], env) == (if IsSet(env, "QDRANT_API_KEY") then [] else ["QDRANT_API_KEY"]);
    assert MissingAmong(rest, env) == (if IsSet(env, "QDRANT_URL") then [] else ["QDRANT_URL"]) + MissingAmong(rest[1..], env);
    MissingAmongMembers(RequiredVariables, env);
  }

  /** The settings dictionary `load_config` returns. */
  datatype IndexConfig = IndexConfig(
    cohereApiKey: string,
    qdrantUrl: string,
    qdrantApiKey: string,
    chunkSize: int,
    chunkOverlap: int,
    collectionName: string,
    cohereModel: string,
    baseUrl: string)

  const DefaultBaseUrl: string := "https://website-gm6f41dhe-haseeb-ahmeds-projects-d5ee87b2.vercel.app"

  function MissingMessage(missing: seq<string>): string {
    "Missing required environment variables: " + Join(", ", missing)
  }

  /** `os.getenv(name, default)`. */
  function GetEnv(env: map<string, string>, name: string, default: string): (v: string)
    ensures name in env ==> v == env[name]
    ensures name !in env ==> v == default
  {
    if name in env then env[name] else default
  }

  /** `int(os.getenv(name, default))`: the default when unset, else the
      variable parsed by `parseInt` (Python's `int()`, a parameter). */
  function IntSetting(env: map<string, string>, name: string, default: int, parseInt: string -> Option<int>): Option<int>
  {
    if name in env then parseInt(env[name]) else Some(default)
  }

  /** `load_config()`: the two integer settings are converted first (a bad
      one raises `ValueError` before anything else is checked), then every
      unset required variable is reported in one `ValueError`. */
  method LoadConfig(env: map<string, string>, parseInt: string -> Option<int>) returns (r: Result<IndexConfig, string>)
    ensures r.Success? <==>
      && IntSetting(env, "CHUNK_SIZE", DefaultChunkSize, parseInt).Some?
      && IntSetting(env, "CHUNK_OVERLAP", DefaultChunkOverlap, parseInt).Some?
      && forall n :: n in RequiredVariables ==> IsSet(env, n)
    ensures (&& IntSetting(env, "CHUNK_SIZE", DefaultChunkSize, parseInt).Some?
             && IntSetting(env, "CHUNK_OVERLAP", DefaultChunkOverlap, parseInt).Some?
             && r.Failure?) ==>
      r.error == MissingMessage(MissingAmong(RequiredVariables, env))
    ensures r.Success? ==>
      && IsSet(env, "COHERE_API_KEY") && r.value.cohereApiKey == env["COHERE_API_KEY"]
      && IsSet(env, "QDRANT_URL") && r.value.qdrantUrl == env["QDRANT_URL"]
      && IsSet(env, "QDRANT_API_KEY") && r.value.qdrantApiKey == env["QDRANT_API_KEY"]
      && r.value.chunkSize == IntSetting(env, "CHUNK_SIZE", DefaultChunkSize, parseInt).value
      && r.value.chunkOverlap == IntSetting(env, "CHUNK_OVERLAP", DefaultChunkOverlap, parseInt).value
      && r.value.collectionName == GetEnv(env, "COLLECTION_NAME", DefaultCollectionName)
      && r.value.cohereModel == GetEnv(env, "COHERE_MODEL", DefaultCohereModel)
      && r.value.baseUrl == GetEnv(env, "BASE_URL", DefaultBaseUrl)
  {
    var chunkSize := IntSetting(env, "CHUNK_SIZE", DefaultChunkSize, parseInt);
    if chunkSize.None? {
      return Failure("invalid literal for int() with base 10: '" + env["CHUNK_SIZE"] + "'");
    }
    var chunkOverlap := IntSetting(env, "CHUNK_OVERLAP", DefaultChunkOverlap, parseInt);
    if chunkOverlap.None? {
      return Failure("invalid literal for int() with base 10: '" + env["CHUNK_OVERLAP"] + "'");
    }
    var missing := MissingVariables(env);
    if missing != [] {
      return Failure(MissingMessage(missing));
    }
    assert forall n :: n in RequiredVariables ==> IsSet(env, n);
    assert IsSet(env, RequiredVariables[0]) && IsSet(env, RequiredVariables[1]) && IsSet(env, RequiredVariables[2]);
    r := Success(IndexConfig(
      env["COHERE_API_KEY"], env["QDRANT_URL"], env["QDRANT_API_KEY"],
      chunkSize.value, chunkOverlap.value,
      GetEnv(env, "COLLECTION_NAME", DefaultCollectionName),
      GetEnv(env, "COHERE_MODEL", DefaultCohereModel),
      GetEnv(env, "BASE_URL", DefaultBaseUrl)));
  }

  // ------------------------------------------------------------------ embed

  /** `embed` sends at most this many texts per Cohere call. */
  const EmbedBatchSize: nat := 96

  /** `"rate" in str(e).lower()`: the error is taken for rate limiting. */
  predicate IsRateLimit(e: string) {
    Contains(Lower(e), "rate")
  }

  /** The inner `for attempt in range(max_retries)` loop for batch number
      `b`, from attempt `a` on: a call that returns is kept; a rate-limit
      error with attempts left moves on to the next attempt; any other error,
      or an error on the last attempt, is raised. With `max_retries = 0` the
      loop body never runs and the batch contributes nothing. */
  function BatchAttempts<V>(batch: seq<string>, b: nat, provider: seq<string> -> seq<V>,
                            raised: (nat, nat) -> Option<string>, a: nat, maxRetries: nat): Result<seq<V>, string>
    decreases maxRetries - a
  {
    if a >= maxRetries then Success([])
    else match raised(b, a)
      case None => Success(provider(batch))
      case Some(e) => if IsRateLimit(e) && a < maxRetries - 1 then BatchAttempts(batch, b, provider, raised, a + 1, maxRetries)
                      else Failure(e)
  }

  /** Batches `b`, `b + 1`, ... of `bs` in order; the first batch that raises
      ends the run with its error. */
  function EmbedBatches<V>(bs: seq<seq<string>>, b: nat, provider: seq<string> -> seq<V>,
                           raised: (nat, nat) -> Option<string>, maxRetries: nat): Result<seq<V>, string>
  {
    if bs == [] then Success([])
    else match BatchAttempts(bs[0], b, provider, raised, 0, maxRetries)
      case Failure(e) => Failure(e)
      case Success(v) => Prepend(v, EmbedBatches(bs[1..], b + 1, provider, raised, maxRetries))
  }

  /** What `embed(texts)` returns or raises. */
  function EmbedResult<V>(texts: seq<string>, provider: seq<string> -> seq<V>,
                          raised: (nat, nat) -> Option<string>, maxRetries: nat): Result<seq<V>, string>
  {
    EmbedBatches(Batches(texts, EmbedBatchSize), 0, provider, raised, maxRetries)
  }

  /** The batches from offset `i` on. */
  function BatchesFrom(texts: seq<string>, i: nat): seq<seq<string>>
  {
    if i < |texts| then Batches(texts[i..], EmbedBatchSize) else []
  }

  /** The batches from offset `i` are the slice `texts[i:i + 96]` followed by
      the batches from `i + 96`. */
  lemma BatchesFromStep(texts: seq<string>, i: nat)
    requires i < |texts|
    ensures BatchesFrom(texts, i) == [texts[i..Min(i + EmbedBatchSize, |texts|)]] + BatchesFrom(texts, i + EmbedBatchSize)
  {
    var xs := texts[i..];
    if |xs| > EmbedBatchSize {
      assert xs[..EmbedBatchSize] == texts[i..i + EmbedBatchSize];
      assert xs[EmbedBatchSize..] == texts[i + EmbedBatchSize..];
    } else {
      assert xs == texts[i..|texts|];
    }
  }

  /** The inner `for attempt in range(max_retries)` loop of `embed` for
      batch number `b`: the vectors of the first call that returns, or the
      error that ends the loop. */
  method EmbedBatch<V>(batch: seq<string>, b: nat, provider: seq<string> -> seq<V>,
                       raised: (nat, nat) -> Option<string>, maxRetries: nat) returns (r: Result<seq<V>, string>)
    ensures r == BatchAttempts(batch, b, provider, raised, 0, maxRetries)
  {
    var attempt: nat := 0;
    while attempt < maxRetries
      invariant BatchAttempts(batch, b, provider, raised, attempt, maxRetries)
             == BatchAttempts(batch, b, provider, raised, 0, maxRetries)
      decreases maxRetries - attempt
    {
      match raised(b, attempt)
      case None =>
        return Success(provider(batch));
      case Some(e) =>
        if IsRateLimit(e) && attempt < maxRetries - 1 {
          attempt := attempt + 1;
        } else {
          return Failure(e);
        }
    }
    return Success([]);
  }

  /** `embed(texts, config, max_retries)`: consecutive batches of 96, each
      tried by the retry loop, the vectors of the batches concatenated in
      order. The empty list is answered without calling the client. */
  method Embed<V>(texts: seq<string>, provider: seq<string> -> seq<V>,
                  raised: (nat, nat) -> Option<string>, maxRetries: nat) returns (r: Result<seq<V>, string>)
    ensures r == EmbedResult(texts, provider, raised, maxRetries)
    ensures texts == [] ==> r == Success([])
  {
    if texts == [] {
      return Success([]);
    }
    var all: seq<V> := [];
    var i: nat := 0;
    var b: nat := 0;  // the batch number `i // batch_size`
    assert texts[0..] == texts;
    PrependNothing(EmbedResult(texts, provider, raised, maxRetries));
    while i < |texts|
      invariant i == b * EmbedBatchSize
      invariant Prepend(all, EmbedBatches(BatchesFrom(texts, i), b, provider, raised, maxRetries))
             == EmbedResult(texts, provider, raised, maxRetries)
      decreases |texts| - i
    {
      var batch := texts[i..Min(i + EmbedBatchSize, |texts|)];
      BatchesFromStep(texts, i);
      ghost var rest := EmbedBatches(BatchesFrom(texts, i + EmbedBatchSize), b + 1, provider, raised, maxRetries);
      ghost var before := all;

      var outcome := EmbedBatch(batch, b, provider, raised, maxRetries);
      match outcome
      case Failure(e) =>
        return Failure(e);
      case Success(vectors) =>
        all := all + vectors;
      PrependAssoc(before, outcome.value, rest);
      i := i + EmbedBatchSize;
      b := b + 1;
    }
    assert all + [] == all;
    r := Success(all);
  }

  // ---------------------------------------------------- properties of embed

  /** When no call raises and at least one attempt is allowed, `embed`
      returns the concatenated vectors of its consecutive batches. */
  lemma {:induction false} EmbedBatchesWithoutErrors<V>(bs: seq<seq<string>>, b: nat, provider: seq<string> -> seq<V>,
                                                       raised: (nat, nat) -> Option<string>, maxRetries: nat)
    requires maxRetries >= 1
    requires forall k, a :: raised(k, a) == None
    ensures EmbedBatches(bs, b, provider, raised, maxRetries) == Success(Flatten(MapSeq(provider, bs)))
  {
    if bs != [] {
      EmbedBatchesWithoutErrors(bs[1..], b + 1, provider, raised, maxRetries);
      assert MapSeq(provider, bs)[1..] == MapSeq(provider, bs[1..]);
    }
  }

  /** With a provider that embeds every text on its own, `embed` embeds
      each text once, in order: batching changes nothing in the result, and
      there is one vector per text. */
  lemma EmbedIsPointwise<V>(texts: seq<string>, provider: seq<string> -> seq<V>, f: string -> V,
                            raised: (nat, nat) -> Option<string>, maxRetries: nat)
    requires maxRetries >= 1
    requires forall k, a :: raised(k, a) == None
    requires forall batch :: provider(batch) == MapSeq(f, batch)
    ensures EmbedResult(texts, provider, raised, maxRetries) == Success(MapSeq(f, texts))
  {
    var bs := Batches(texts, EmbedBatchSize);
    EmbedBatchesWithoutErrors(bs, 0, provider, raised, maxRetries);
    FlattenPointwise(bs, provider, f);
    FlattenBatches(texts, EmbedBatchSize);
  }

  /** With a length-preserving provider and no errors, `embed` returns one
      vector per text. */
  lemma EmbedLength<V>(texts: seq<string>, provider: seq<string> -> seq<V>,
                       raised: (nat, nat) -> Option<string>, maxRetries: nat)
    requires maxRetries >= 1
    requires forall k, a :: raised(k, a) == None
    requires forall batch :: |provider(batch)| == |batch|
    ensures EmbedResult(texts, provider, raised, maxRetries).Success?
    ensures |EmbedResult(texts, provider, raised, maxRetries).value| == |texts|
  {
    var bs := Batches(texts, EmbedBatchSize);
    EmbedBatchesWithoutErrors(bs, 0, provider, raised, maxRetries);
    FlattenLengthPreserving(bs, provider);
    FlattenBatches(texts, EmbedBatchSize);
  }

  /** A batch's retry loop that returns yields the provider's vectors for
      the batch, however many rate-limited attempts came first. */
  lemma {:induction false} BatchAttemptsSuccess<V>(batch: seq<string>, b: nat, provider: seq<string> -> seq<V>,
                                                  raised: (nat, nat) -> Option<string>, a: nat, maxRetries: nat)
    requires a < maxRetries
    ensures var r := BatchAttempts(batch, b, provider, raised, a, maxRetries);
      r.Success? ==> r.value == provider(batch)
    decreases maxRetries - a
  {
    if raised(b, a).Some? && IsRateLimit(raised(b, a).value) && a < maxRetries - 1 {
      BatchAttemptsSuccess(batch, b, provider, raised, a + 1, maxRetries);
    }
  }

  /** A run of batches that returns, whatever was raised and retried along
      the way, yields the concatenated vectors of its batches. */
  lemma {:induction false} EmbedBatchesSuccess<V>(bs: seq<seq<string>>, b: nat, provider: seq<string> -> seq<V>,
                                                 raised: (nat, nat) -> Option<string>, maxRetries: nat)
    requires maxRetries >= 1
    ensures var r := EmbedBatches(bs, b, provider, raised, maxRetries);
      r.Success? ==> r.value == Flatten(MapSeq(provider, bs))
  {
    if bs != [] && BatchAttempts(bs[0], b, provider, raised, 0, maxRetries).Success? {
      BatchAttemptsSuccess(bs[0], b, provider, raised, 0, maxRetries);
      EmbedBatchesSuccess(bs[1..], b + 1, provider, raised, maxRetries);
      assert MapSeq(provider, bs)[1..] == MapSeq(provider, bs[1..]);
    }
  }

  /** A successful `embed`, rate-limit retries included, returns each text's
      vector once, in order, when the provider embeds every text on its own. */
  lemma EmbedSuccessIsPointwise<V>(texts: seq<string>, provider: seq<string> -> seq<V>, f: string -> V,
                                   raised: (nat, nat) -> Option<string>, maxRetries: nat)
    requires maxRetries >= 1
    requires forall batch :: provider(batch) == MapSeq(f, batch)
    ensures var r := EmbedResult(texts, provider, raised, maxRetries);
      r.Success? ==> r.value == MapSeq(f, texts)
  {
    var bs := Batches(texts, EmbedBatchSize);
    EmbedBatchesSuccess(bs, 0, provider, raised, maxRetries);
    FlattenPointwise(bs, provider, f);
    FlattenBatches(texts, EmbedBatchSize);
  }

  /** A successful `embed`, rate-limit retries included, returns one vector
      per text when the provider keeps batch lengths. */
  lemma EmbedSuccessLength<V>(texts: seq<string>, provider: seq<string> -> seq<V>,
                              raised: (nat, nat) -> Option<string>, maxRetries: nat)
    requires maxRetries >= 1
    requires forall batch :: |provider(batch)| == |batch|
    ensures var r := EmbedResult(texts, provider, raised, maxRetries);
      r.Success? ==> |r.value| == |texts|
  {
    var bs := Batches(texts, EmbedBatchSize);
    EmbedBatchesSuccess(bs, 0, provider, raised, maxRetries);
    FlattenLengthPreserving(bs, provider);
    FlattenBatches(texts, EmbedBatchSize);
  }

  /** A batch's retry loop raises only an error that some attempt raised and
      that was either not a rate-limit error or came on the last attempt. */
  lemma {:induction false} BatchFailureCause<V>(batch: seq<string>, b: nat, provider: seq<string> -> seq<V>,
                                               raised: (nat, nat) -> Option<string>, a: nat, maxRetries: nat)
    requires BatchAttempts(batch, b, provider, raised, a, maxRetries).Failure?
    ensures var e := BatchAttempts(batch, b, provider, raised, a, maxRetries).error;
      exists k :: a <= k < maxRetries && raised(b, k) == Some(e) && (!IsRateLimit(e) || k == maxRetries - 1)
    decreases maxRetries - a
  {
    var e := BatchAttempts(batch, b, provider, raised, a, maxRetries).error;
    if raised(b, a) != Some(e) || (IsRateLimit(e) && a != maxRetries - 1) {
      BatchFailureCause(batch, b, provider, raised, a + 1, maxRetries);
    }
  }

  /** A batch whose attempts `0 .. a - 1` were all rate limited and whose
      attempt `a` returns, within the bound, yields that attempt's vectors. */
  lemma {:induction false} RateLimitedBatchRecovers<V>(batch: seq<string>, b: nat, provider: seq<string> -> seq<V>,
                                                      raised: (nat, nat) -> Option<string>, from: nat, a: nat, maxRetries: nat)
    requires from <= a < maxRetries
    requires forall k :: from <= k < a ==> raised(b, k).Some? && IsRateLimit(raised(b, k).value)
    requires raised(b, a) == None
    ensures BatchAttempts(batch, b, provider, raised, from, maxRetries) == Success(provider(batch))
    decreases a - from
  {
    if from < a {
      RateLimitedBatchRecovers(batch, b, provider, raised, from + 1, a, maxRetries);
    }
  }

  /** `embed` fails only with an error some call raised that was not a
      rate-limit error, or that came on the last allowed attempt. */
  lemma {:induction false} EmbedFailureCause<V>(bs: seq<seq<string>>, b: nat, provider: seq<string> -> seq<V>,
                                               raised: (nat, nat) -> Option<string>, maxRetries: nat)
    requires EmbedBatches(bs, b, provider, raised, maxRetries).Failure?
    ensures var e := EmbedBatches(bs, b, provider, raised, maxRetries).error;
      exists k: nat, a: nat :: b <= k < b + |bs| && a < maxRetries && raised(k, a) == Some(e) && (!IsRateLimit(e) || a == maxRetries - 1)
  {
    var e := EmbedBatches(bs, b, provider, raised, maxRetries).error;
    if BatchAttempts(bs[0], b, provider, raised, 0, maxRetries).Failure? {
      BatchFailureCause(bs[0], b, provider, raised, 0, maxRetries);
    } else {
      EmbedFailureCause(bs[1..], b + 1, provider, raised, maxRetries);
    }
  }

  /** With `max_retries = 0` no call is made and every batch is skipped:
      `embed` returns no vectors at all, whatever the input. */
  lemma {:induction false} NoAttemptsNoVectors<V>(bs: seq<seq<string>>, b: nat, provider: seq<string> -> seq<V>,
                                                 raised: (nat, nat) -> Option<string>)
    ensures EmbedBatches(bs, b, provider, raised, 0) == Success([])
  {
    if bs != [] {
      NoAttemptsNoVectors(bs[1..], b + 1, provider, raised);
      assert BatchAttempts(bs[0], b, provider, raised, 0, 0) == Success([]);
      PrependNothing<V, string>(Success([]));
    }
  }

  // ------------------------------------------------- save_chunk_to_qdrant

  /** The payload stored with each chunk's vector. */
  datatype ChunkPayload = ChunkPayload(sourceUrl: string, chunkIndex: nat, text: string,
                                       charStart: nat, charEnd: nat, indexedAt: string)

  /** A `PointStruct`: a fresh id, the chunk's vector and its payload. */
  datatype IndexPoint<V> = IndexPoint(id: string, vector: V, payload: ChunkPayload)

  function CountMismatchMessage(chunks: nat, embeddings: nat): string {
    "Chunk count (" + NatToDecimal(chunks) + ") doesn't match embedding count (" + NatToDecimal(embeddings) + ")"
  }

  /** The point list of `save_chunk_to_qdrant`, one per (chunk, embedding)
      pair; `newId(i)` stands for the `uuid4()` of the `i`-th point and
      `indexedAt` for the one timestamp taken per call. */
  function ChunkPoints<V>(chunks: seq<Chunk>, embeddings: seq<V>, sourceUrl: string, indexedAt: string,
                          newId: nat -> string): (r: Result<seq<IndexPoint<V>>, string>)
    ensures r.Failure? <==> |chunks| != |embeddings|
    ensures r.Failure? ==> r.error == CountMismatchMessage(|chunks|, |embeddings|)
    ensures r.Success? ==> |r.value| == |chunks|
    ensures r.Success? ==> forall i :: 0 <= i < |chunks| ==>
      && r.value[i].id == newId(i)
      && r.value[i].vector == embeddings[i]
      && r.value[i].payload.sourceUrl == sourceUrl
      && r.value[i].payload.indexedAt == indexedAt
      && ChunkOfPayload(r.value[i].payload) == chunks[i]
  {
    if |chunks| != |embeddings| then Failure(CountMismatchMessage(|chunks|, |embeddings|))
    else Success(seq(|chunks|, i requires 0 <= i < |chunks| =>
      IndexPoint(newId(i), embeddings[i],
                 ChunkPayload(sourceUrl, chunks[i].chunkIndex, chunks[i].text, chunks[i].charStart, chunks[i].charEnd, indexedAt))))
  }

  /** The chunk a stored payload describes. */
  function ChunkOfPayload(p: ChunkPayload): Chunk {
    Chunk(p.chunkIndex, p.text, p.charStart, p.charEnd)
  }

  /** `save_chunk_to_qdrant(...)`: the number of points stored, or the
      `ValueError` for mismatched counts, or the error of the upsert call
      (`upsert` stands for the Qdrant client). */
  function SaveChunkToQdrant<V>(chunks: seq<Chunk>, embeddings: seq<V>, sourceUrl: string, indexedAt: string,
                                newId: nat -> string, upsert: seq<IndexPoint<V>> -> Option<string>): (r: Result<nat, string>)
    ensures |chunks| != |embeddings| ==> r == Failure(CountMismatchMessage(|chunks|, |embeddings|))
    ensures r.Success? ==> r.value == |chunks| == |embeddings|
    ensures |chunks| == |embeddings| ==>
      (r.Success? <==> upsert(ChunkPoints(chunks, embeddings, sourceUrl, indexedAt, newId).value).None?)
  {
    match ChunkPoints(chunks, embeddings, sourceUrl, indexedAt, newId)
    case Failure(e) => Failure(e)
    case Success(points) =>
      match upsert(points)
      case Some(e) => Failure(e)
      case None => Success(|points|)
  }

  /** The chunks of a document can be read back, in order, from the payloads
      of its stored points. */
  lemma PayloadsRecoverChunks<V>(chunks: seq<Chunk>, embeddings: seq<V>, sourceUrl: string, indexedAt: string,
                                 newId: nat -> string)
    requires |chunks| == |embeddings|
    ensures var points := ChunkPoints(chunks, embeddings, sourceUrl, indexedAt, newId).value;
      MapSeq((p: IndexPoint<V>) => ChunkOfPayload(p.payload), points) == chunks
  {
  }

  // ------------------------------------------------- the text extractors

  /** The title `extract_text_from_mdx` reports: the front-matter `title:`
      when there is one and it is not empty, else the first `# ` heading of
      the body, else "". The two regular-expression searches are the
      parameters. */
  function MdxTitle(frontmatterTitle: Option<string>, firstHeading: Option<string>): (title: string)
    ensures frontmatterTitle.Some? && frontmatterTitle.value != "" ==> title == frontmatterTitle.value
    ensures frontmatterTitle.None? || frontmatterTitle.value == "" ==> title == firstHeading.GetOr("")
    ensures title == "" <==> (frontmatterTitle.None? || frontmatterTitle.value == "")
                             && (firstHeading.None? || firstHeading.value == "")
  {
    var title := frontmatterTitle.GetOr("");
    if title != "" then title else firstHeading.GetOr("")
  }

  /** The end of `extract_text_from_mdx`: `' '.join(content.split())` of the
      body left by the markup rewrites, and a `ValueError` when nothing is
      left. */
  function ExtractMdxText(path: string, rewritten: string): (r: Result<string, string>)
    ensures r.Failure? <==> AllWhitespace(rewritten)
    ensures r.Failure? ==> r.error == "No content could be extracted from " + path
    ensures r.Success? ==> r.value != [] && Normalized(r.value) && Words(r.value) == Words(rewritten)
  {
    var content := NormalizeWhitespace(rewritten);
    if content == [] then Failure("No content could be extracted from " + path)
    else Success(content)
  }

  /** The end of `extract_text_from_url`: the emptiness check comes BEFORE
      the whitespace clean-up, so text made only of whitespace passes it and
      yields the empty string. */
  function ExtractHtmlText(url: string, content: string): (r: Result<string, string>)
    ensures r.Failure? <==> content == []
    ensures r.Failure? ==> r.error == "No content could be extracted from " + url
    ensures r.Success? ==> Normalized(r.value) && (r.value == [] <==> AllWhitespace(content))
  {
    if content == [] then Failure("No content could be extracted from " + url)
    else Success(NormalizeWhitespace(content))
  }

  /** The text an extractor returns meets `ChunkText`'s precondition, and
      for a document with content and windows of at least two characters the
      chunks start at 0, reach the end of the text and leave no gap. */
  lemma ExtractedTextChunks(text: string, size: int, overlap: int)
    requires Normalized(text) && size >= 2 && overlap >= 0
    ensures var r := Chunks(text, size, overlap);
      && (r == [] <==> text == [])
      && (r != [] ==> r[0].charStart == 0 && r[|r| - 1].charEnd >= |text|)
  {
    if text != [] {
      ChunksCoverNormalizedText(text, size, overlap, 0, 0);
    }
  }
}

=== FILE: rag.dfy ===
/** `RAGService` (backend/app/services/rag_service.py): the user prompt built
    from the retrieved chunks, the source list returned with an answer, the
    token count and the suggested questions. `answer_question` is modelled
    per attempt over the services it calls (the embedding client, the vector
    store's query and the chat client, all parameters) and wrapped in the
    same three-attempt retry as the service method. */
module Rag {
  import opened Wrappers
  import opened Text
  import opened Batching
  import opened Retrying
  import opened VectorStore
  import Embedding
  import Indexing
  import ChatSchemas

  /** A stored point's payload. Only its text-valued fields are modelled. */
  type Payload = map<string, string>

  /** `payload.get(key, default)`. */
  function Get(p: Payload, key: string, default: string): string {
    if key in p then p[key] else default
  }

  /** The four fields read from a payload, each falling back from the
      current field name to the one the indexing script writes. */
  datatype PayloadFields = PayloadFields(chapter: string, section: string, url: string, content: string)

  function NormalizePayload(p: Payload): PayloadFields {
    PayloadFields(
      Get(p, "chapter_title", Get(p, "source_url", "Unknown")),
      Get(p, "section_title", ""),
      Get(p, "url", Get(p, "source_url", "")),
      Get(p, "content", Get(p, "text", "")))
  }

  /** A payload with the current field names is read from those fields,
      whatever legacy fields it also carries. */
  lemma CurrentPayloadFields(p: Payload)
    requires "chapter_title" in p && "section_title" in p && "url" in p && "content" in p
    ensures NormalizePayload(p) == PayloadFields(p["chapter_title"], p["section_title"], p["url"], p["content"])
  {
  }

  /** The text fields of the payload `save_chunk_to_qdrant` writes. */
  function IndexedPayload(c: Indexing.ChunkPayload): Payload {
    map["source_url" := c.sourceUrl, "text" := c.text, "indexed_at" := c.indexedAt]
  }

  /** A chunk stored by the indexing script is read back with its page URL as
      both chapter and URL, no section, and its text as content. */
  lemma IndexedPayloadFields(c: Indexing.ChunkPayload)
    ensures NormalizePayload(IndexedPayload(c)) == PayloadFields(c.sourceUrl, "", c.sourceUrl, c.text)
  {
  }

  /** A payload with neither naming scheme reads as an unknown chapter with
      empty fields. */
  lemma EmptyPayloadFields()
    ensures NormalizePayload(map[]) == PayloadFields("Unknown", "", "", "")
  {
  }

  // ------------------------------------------------------------ the sources

  /** The `Source` record of the service (not the API schema's). */
  datatype Source = Source(chapter: string, section: string, url: string, relevanceScore: real, snippet: string)

  const SnippetLength: nat := 200

  /** `content[:200] + "..." if len(content) > 200 else content`. */
  function Snippet(content: string): (s: string)
    ensures |content| <= SnippetLength ==> s == content
    ensures |content| > SnippetLength ==> |s| == SnippetLength + 3 && s[SnippetLength..] == "..."
    ensures |s| <= SnippetLength + 3
    ensures |content| <= |s| || |s| == SnippetLength + 3
    ensures var k := if |content| < SnippetLength then |content| else SnippetLength;
      k <= |s| && s[..k] == content[..k]
  {
    if |content| > SnippetLength then content[..SnippetLength] + "..." else content
  }

  /** The source listed for one search result. */
  function SourceOf(hit: SearchHit<Payload>): Source {
    var f := NormalizePayload(hit.payload);
    Source(f.chapter, f.section, f.url, hit.score, Snippet(f.content))
  }

  /** The `sources` loop of `answer_question`: one source per search result,
      in order. */
  method BuildSources(results: seq<SearchHit<Payload>>) returns (sources: seq<Source>)
    ensures sources == MapSeq(SourceOf, results)
  {
    sources := [];
    var i := 0;
    while i < |results|
      invariant 0 <= i <= |results|
      invariant sources == MapSeq(SourceOf, results[..i])
    {
      var f := NormalizePayload(results[i].payload);
      sources := sources + [Source(f.chapter, f.section, f.url, results[i].score, Snippet(f.content))];
      assert results[..i + 1] == results[..i] + [results[i]];
      i := i + 1;
    }
    assert results[..i] == results;
  }

  /** Each listed source describes its search result: the same score, the
      payload's chapter, section and URL, and the start of its content. */
  lemma SourcesDescribeResults(results: seq<SearchHit<Payload>>)
    ensures var sources := MapSeq(SourceOf, results);
      && |sources| == |results|
      && forall i :: 0 <= i < |results| ==>
        var f := NormalizePayload(results[i].payload);
        && sources[i].relevanceScore == results[i].score
        && sources[i].chapter == f.chapter && sources[i].section == f.section && sources[i].url == f.url
        && |sources[i].snippet| <= SnippetLength + 3
        && (|f.content| <= SnippetLength ==> sources[i].snippet == f.content)
        && (|f.content| > SnippetLength ==> sources[i].snippet == f.content[..SnippetLength] + "...")
  {
  }

  // ------------------------------------------------------------- the prompt

  /** The block for the `i`-th retrieved chunk (numbered from 1). */
  function SourceBlock(i: nat, p: Payload): string {
    "[Source " + NatToDecimal(i) + BlockRest(NormalizePayload(p))
  }

  /** The block after its number. */
  function BlockRest(f: PayloadFields): (rest: string)
    ensures |rest| > 0 && rest[0] == ']'
  {
    "]\n"
      + "Chapter: " + f.chapter + "\n"
      + "Section: " + f.section + "\n"
      + "URL: " + f.url + "\n"
      + "Content:\n" + f.content + "\n"
  }

  /** The `context_parts` list: one block per result, numbered from 1 in
      retrieval order. */
  function ContextParts(results: seq<SearchHit<Payload>>): (parts: seq<string>)
    ensures |parts| == |results|
  {
    seq(|results|, i requires 0 <= i < |results| => SourceBlock(i + 1, results[i].payload))
  }

  const NoContext: string := "No relevant context found."
  const BlockSeparator: string := "\n---\n"
  const ContextIntro: string := "Context from the textbook:\n"
  const ReadingIntro: string := "The student is currently reading: "
  const QuestionIntro: string := "Student's question: "
  const AnswerInstruction: string := "\n\nPlease provide a helpful answer based on the context above."

  function ContextText(results: seq<SearchHit<Payload>>): string {
    if results == [] then NoContext else Join(BlockSeparator, ContextParts(results))
  }

  function ContextHeader(results: seq<SearchHit<Payload>>): string {
    ContextIntro + ContextText(results) + "\n\n"
  }

  /** The "currently reading" line, present only for a non-empty chapter. */
  function ReadingLine(chapterContext: Option<string>): string {
    if chapterContext.Some? && chapterContext.value != "" then ReadingIntro + chapterContext.value + "\n\n" else ""
  }

  function QuestionLine(question: string): string {
    QuestionIntro + question + AnswerInstruction
  }

  /** What `_build_user_prompt` returns. */
  function UserPrompt(question: string, results: seq<SearchHit<Payload>>, chapterContext: Option<string>): string {
    ContextHeader(results) + ReadingLine(chapterContext) + QuestionLine(question)
  }

  /** `_build_user_prompt(question, context_chunks, chapter_context)`: the
      blocks are collected in a loop, joined, and the prompt is grown line by
      line. */
  method BuildUserPrompt(question: string, results: seq<SearchHit<Payload>>, chapterContext: Option<string>)
    returns (prompt: string)
    ensures prompt == UserPrompt(question, results, chapterContext)
  {
    var contextParts: seq<string> := [];
    var i := 0;
    while i < |results|
      invariant 0 <= i <= |results|
      invariant contextParts == ContextParts(results[..i])
    {
      contextParts := contextParts + [SourceBlock(i + 1, results[i].payload)];
      i := i + 1;
      assert contextParts == ContextParts(results[..i]);
    }
    assert results[..i] == results;
    var contextText := if contextParts != [] then Join(BlockSeparator, contextParts) else NoContext;
    prompt := ContextIntro + contextText + "\n\n";
    ghost var header := prompt;
    if chapterContext.Some? && chapterContext.value != "" {
      prompt := prompt + ReadingIntro + chapterContext.value + "\n\n";
      ConcatAssoc(header, ReadingIntro, chapterContext.value);
      ConcatAssoc(header, ReadingIntro + chapterContext.value, "\n\n");
    } else {
      assert prompt == header + ReadingLine(chapterContext);
    }
    ghost var lead := prompt;
    prompt := prompt + QuestionIntro + question + AnswerInstruction;
    ConcatAssoc(lead, QuestionIntro, question);
    ConcatAssoc(lead, QuestionIntro + question, AnswerInstruction);
  }

  /** The block header `[Source i]` names its number: the digits after
      "[Source " read back as `i`, and a `]` closes them. */
  lemma SourceHeaderNumber(i: nat, p: Payload)
    ensures var b := SourceBlock(i, p);
      var d := NatToDecimal(i);
      && |b| > 8 + |d|
      && b[..8] == "[Source "
      && b[8..8 + |d|] == d
      && b[8 + |d|] == ']'
      && DecimalValue(b[8..8 + |d|]) == i
  {
    var d := NatToDecimal(i);
    var rest := BlockRest(NormalizePayload(p));
    var b := SourceBlock(i, p);
    assert b == "[Source " + d + rest;
    assert b[8 + |d|] == rest[0];
    DecimalRoundTrip(i);
  }

  /** Blocks with different numbers differ, whatever their payloads: the
      numbering tells the sources apart. */
  lemma SourceBlocksDistinct(i: nat, j: nat, p: Payload, q: Payload)
    requires i != j
    ensures SourceBlock(i, p) != SourceBlock(j, q)
  {
    SourceHeaderNumber(i, p);
    SourceHeaderNumber(j, q);
    var di, dj := NatToDecimal(i), NatToDecimal(j);
    assert IsDigits(di) && IsDigits(dj);
  }

  /** With no results, the context is the fixed fallback sentence. */
  lemma NoResultsNoContext(question: string, chapterContext: Option<string>)
    ensures UserPrompt(question, [], chapterContext)
         == ContextIntro + NoContext + "\n\n" + ReadingLine(chapterContext) + QuestionLine(question)
  {
  }

  /** A chapter context only inserts the "currently reading" line between
      the context and the question; an empty one is ignored like `None`. */
  lemma ChapterContextInsertsReadingLine(question: string, results: seq<SearchHit<Payload>>, chapter: string)
    ensures chapter != "" ==>
      UserPrompt(question, results, Some(chapter))
      == ContextHeader(results) + ReadingIntro + chapter + "\n\n" + QuestionLine(question)
    ensures UserPrompt(question, results, None) == ContextHeader(results) + QuestionLine(question)
    ensures UserPrompt(question, results, Some("")) == UserPrompt(question, results, None)
  {
    var h := ContextHeader(results);
    assert h + "" == h;
    ConcatAssoc(h, ReadingIntro, chapter);
    ConcatAssoc(h, ReadingIntro + chapter, "\n\n");
  }

  /** The prompt opens with the context and ends with the question and the
      instruction. */
  lemma PromptShape(question: string, results: seq<SearchHit<Payload>>, chapterContext: Option<string>)
    ensures StartsWith(UserPrompt(question, results, chapterContext), ContextIntro)
    ensures var prompt := UserPrompt(question, results, chapterContext);
      var tail := QuestionLine(question);
      |tail| <= |prompt| && prompt[|prompt| - |tail|..] == tail
  {
    var head := ContextIntro;
    var mid := ContextText(results) + "\n\n" + ReadingLine(chapterContext);
    var tail := QuestionLine(question);
    var prompt := UserPrompt(question, results, chapterContext);
    ConcatAssoc(head, ContextText(results), "\n\n");
    ConcatAssoc(head, ContextText(results) + "\n\n", ReadingLine(chapterContext));
    ConcatAssoc(head, mid, tail);
    assert prompt == head + (mid + tail);
    assert prompt[..|head|] == head;
  }

  // ------------------------------------------------------------ the answer

  /** The generation settings of both chat calls. */
  const Temperature: real := 0.7
  const MaxTokens: nat := 1500

  /** `answer_question` searches with this threshold, whatever the
      configuration says. */
  const AnswerScoreThreshold: real := 0.5

  /** `_build_system_prompt()`. */
  const SystemPrompt: string :=
    "You are an expert AI tutor for Physical AI and Humanoid Robotics.\n"
    + "You help students learn about ROS 2, robot simulation, digital twins, and AI integration.\n"
    + "\n"
    + "Guidelines:\n"
    + "- Answer questions based on the provided context from the textbook\n"
    + "- Be helpful, clear, and educational\n"
    + "- If the context doesn't contain relevant information, say so honestly\n"
    + "- Use examples and analogies to explain complex concepts\n"
    + "- Format code examples with proper syntax highlighting\n"
    + "- Always cite which chapter/section the information comes from\n"
    + "- Keep explanations appropriate for the student's apparent level\n"
    + "\n"
    + "Remember: You're teaching robotics concepts, so be precise with technical terminology\n"
    + "while remaining accessible to beginners."

  /** One chat call: Cohere gets the user prompt as `message` and the
      system prompt as `preamble`, OpenAI gets them as a system and a user
      message; both with the same temperature and token limit. */
  datatype ChatRequest = ChatRequest(provider: Embedding.Provider, system: string, user: string, temperature: real, maxTokens: nat)

  /** The answer text and, for OpenAI, `usage.total_tokens` when the reply
      carries usage. */
  datatype ChatReply = ChatReply(text: string, totalTokens: Option<nat>)

  /** What an attempt of `answer_question` can raise. */
  datatype RagError =
    | EmbedFailed(cause: RetryError<Embedding.EmbedError>)
    | SearchFailed(message: string)
    | ChatFailed(message: string)

  /** `RAGResponse` without the wall-clock `processing_time_ms`. */
  datatype RagResponse = RagResponse(answer: string, sources: seq<Source>, tokensUsed: nat)

  /** The clients an attempt talks to: the embedding client (per attempt of
      the nested `embed_text` retry), the store's query, and the chat
      client. */
  datatype Services<!V> = Services(
    embedCall: (nat, string) -> Result<V, string>,
    query: (V, int, real, Option<Filter>) -> Result<seq<ScoredPoint<Payload>>, string>,
    chat: ChatRequest -> Result<ChatReply, string>)

  /** `tokens_used`: a word count of prompt and answer for Cohere, the
      reported total (or 0) for OpenAI. */
  function TokensUsed(p: Embedding.Provider, userPrompt: string, reply: ChatReply): (n: nat)
    ensures p == Embedding.Cohere ==> n == |Words(userPrompt)| + |Words(reply.text)|
    ensures p == Embedding.OpenAI ==> n == reply.totalTokens.GetOr(0)
  {
    if p == Embedding.Cohere then |Words(userPrompt)| + |Words(reply.text)| else reply.totalTokens.GetOr(0)
  }

  /** A Cohere count is never 0: the prompt always holds words. */
  lemma CohereTokensPositive(question: string, results: seq<SearchHit<Payload>>, chapterContext: Option<string>, reply: ChatReply)
    ensures TokensUsed(Embedding.Cohere, UserPrompt(question, results, chapterContext), reply) >= 1
  {
    var prompt := UserPrompt(question, results, chapterContext);
    PromptShape(question, results, chapterContext);
    assert prompt[0] == 'C';
    assert !AllWhitespace(prompt);
  }

  /** The search results of an attempt whose question embedding succeeded. */
  function Retrieved<V>(v: V, maxSources: int, s: Services<V>): Result<seq<SearchHit<Payload>>, string> {
    SearchSimilar(v, maxSources, AnswerScoreThreshold, None, s.query)
  }

  /** One attempt of `answer_question(question, chapter_context, max_sources)`:
      embed the question, search with `limit = max_sources` and threshold
      0.5 and no filter, ask the chat model, list the sources. Nothing is
      caught: an error of any of the three calls ends the attempt. */
  function AnswerAttempt<V>(p: Embedding.Provider, question: string, chapterContext: Option<string>, maxSources: int,
                            s: Services<V>): (r: Result<RagResponse, RagError>)
    ensures r.Success? ==>
      && Embedding.EmbedText(question, s.embedCall).Success?
      && Retrieved(Embedding.EmbedText(question, s.embedCall).value, maxSources, s).Success?
    ensures r.Success? ==>
      var hits := Retrieved(Embedding.EmbedText(question, s.embedCall).value, maxSources, s).value;
      var user := UserPrompt(question, hits, chapterContext);
      var reply := s.chat(ChatRequest(p, SystemPrompt, user, Temperature, MaxTokens));
      && reply.Success?
      && r.value == RagResponse(reply.value.text, MapSeq(SourceOf, hits), TokensUsed(p, user, reply.value))
    ensures Embedding.EmbedText(question, s.embedCall).Success?
      && Retrieved(Embedding.EmbedText(question, s.embedCall).value, maxSources, s).Success?
      && s.chat(ChatRequest(p, SystemPrompt,
                            UserPrompt(question, Retrieved(Embedding.EmbedText(question, s.embedCall).value, maxSources, s).value, chapterContext),
                            Temperature, MaxTokens)).Failure?
      ==> r.Failure? && r.error.ChatFailed?
    ensures Embedding.EmbedText(question, s.embedCall).Failure? ==>
      r == Failure(EmbedFailed(Embedding.EmbedText(question, s.embedCall).error))
    ensures Embedding.EmbedText(question, s.embedCall).Success? ==>
      var found := Retrieved(Embedding.EmbedText(question, s.embedCall).value, maxSources, s);
      found.Failure? ==> r == Failure(SearchFailed(found.error))
    ensures Embedding.EmbedText(question, s.embedCall).Success? ==>
      var found := Retrieved(Embedding.EmbedText(question, s.embedCall).value, maxSources, s);
      found.Success? ==>
        var user := UserPrompt(question, found.value, chapterContext);
        var reply := s.chat(ChatRequest(p, SystemPrompt, user, Temperature, MaxTokens));
        && (reply.Failure? ==> r == Failure(ChatFailed(reply.error)))
        && (reply.Success? ==> r == Success(RagResponse(reply.value.text, MapSeq(SourceOf, found.value), TokensUsed(p, user, reply.value))))
  {
    match Embedding.EmbedText(question, s.embedCall)
    case Failure(e) => Failure(EmbedFailed(e))
    case Success(v) =>
      match Retrieved(v, maxSources, s)
      case Failure(e) => Failure(SearchFailed(e))
      case Success(hits) =>
        var user := UserPrompt(question, hits, chapterContext);
        match s.chat(ChatRequest(p, SystemPrompt, user, Temperature, MaxTokens))
        case Failure(e) => Failure(ChatFailed(e))
        case Success(reply) => Success(RagResponse(reply.text, MapSeq(SourceOf, hits), TokensUsed(p, user, reply)))
  }

  /** `answer_question` under its retry decorator; `services(a)` are the
      clients as attempt `a` finds them. */
  function AnswerQuestion<V>(p: Embedding.Provider, question: string, chapterContext: Option<string>, maxSources: int,
                             services: nat -> Services<V>): Result<RagResponse, RetryError<RagError>>
  {
    Retried((a: nat) => AnswerAttempt(p, question, chapterContext, maxSources, services(a)), Attempts)
  }

  /** A chat model that keeps failing is not papered over with a fallback
      answer: after three attempts the caller receives the last chat error. */
  lemma ChatFailureIsRaised<V>(p: Embedding.Provider, question: string, chapterContext: Option<string>, maxSources: int,
                               services: nat -> Services<V>)
    requires forall a :: AnswerAttempt(p, question, chapterContext, maxSources, services(a)).Failure?
    requires AnswerAttempt(p, question, chapterContext, maxSources, services(2)).error.ChatFailed?
    ensures AnswerQuestion(p, question, chapterContext, maxSources, services).Failure?
    ensures AnswerQuestion(p, question, chapterContext, maxSources, services).error.last.ChatFailed?
  {
    var op := (a: nat) => AnswerAttempt(p, question, chapterContext, maxSources, services(a));
    assert op(0).Failure? && op(1).Failure? && op(2).Failure?;
    assert RetryFrom(op, 2, 3) == Failure(RetryError(op(2).error));
  }

  /** The converse: the first of the three attempts whose embedding, search
      and chat all succeed gives the caller its answer, whatever the later
      attempts would have done. */
  lemma FirstSuccessfulAttemptAnswers<V>(p: Embedding.Provider, question: string, chapterContext: Option<string>, maxSources: int,
                                         services: nat -> Services<V>, a: nat)
    requires a < Attempts
    requires AnswerAttempt(p, question, chapterContext, maxSources, services(a)).Success?
    requires forall b :: 0 <= b < a ==> AnswerAttempt(p, question, chapterContext, maxSources, services(b)).Failure?
    ensures AnswerQuestion(p, question, chapterContext, maxSources, services)
      == Success(AnswerAttempt(p, question, chapterContext, maxSources, services(a)).value)
  {
    var op := (n: nat) => AnswerAttempt(p, question, chapterContext, maxSources, services(n));
    FirstSuccessWins(op, 0, Attempts, a);
  }

  /** An answer lists one source per search result of the attempt that
      produced it, in order, and every snippet stays within 203 characters. */
  lemma AnswerSourcesFromOneAttempt<V>(p: Embedding.Provider, question: string, chapterContext: Option<string>, maxSources: int,
                                       services: nat -> Services<V>)
    requires AnswerQuestion(p, question, chapterContext, maxSources, services).Success?
    ensures var r := AnswerQuestion(p, question, chapterContext, maxSources, services).value;
      && (forall i :: 0 <= i < |r.sources| ==> |r.sources[i].snippet| <= SnippetLength + 3)
      && exists a :: 0 <= a < Attempts && AnswerAttempt(p, question, chapterContext, maxSources, services(a)) == Success(r)
  {
    var op := (a: nat) => AnswerAttempt(p, question, chapterContext, maxSources, services(a));
    SuccessComesFromAnAttempt(op, 0, Attempts);
    var a :| 0 <= a < Attempts && op(a) == Success(RetryFrom(op, 0, Attempts).value)
                                 && forall b :: 0 <= b < a ==> op(b).Failure?;
    var s := services(a);
    var hits := Retrieved(Embedding.EmbedText(question, s.embedCall).value, maxSources, s).value;
    SourcesDescribeResults(hits);
  }

  // --------------------------------------------------- the API's constraints

  /** The API's `Source` for a service source: the same fields. */
  function ToSchema(s: Source): ChatSchemas.Source {
    ChatSchemas.Source(s.chapter, s.section, s.url, s.relevanceScore, s.snippet)
  }

  /** Every snippet fits the API's 500-character limit, so a listed source
      is valid exactly when its score lies in `[0, 1]`. */
  lemma SourcesMeetSchema(results: seq<SearchHit<Payload>>)
    ensures forall i :: 0 <= i < |results| ==>
      (ChatSchemas.ValidSource(ToSchema(SourceOf(results[i]))) <==> 0.0 <= results[i].score <= 1.0)
  {
    forall i | 0 <= i < |results|
      ensures |SourceOf(results[i]).snippet| <= ChatSchemas.MaxSnippetLength
    {
      assert |Snippet(NormalizePayload(results[i].payload).content)| <= SnippetLength + 3;
    }
  }

  /** A question the API accepts is embedded whole: its 2000 characters are
      far below the truncation length. */
  lemma ValidQuestionNotTruncated(question: string)
    requires ChatSchemas.ValidMessageText(question)
    ensures Embedding.Truncate(question) == question
  {
  }

  /** The API accepts a question of blanks, but the embedding refuses it on
      every attempt, so answering it fails without consulting any service. */
  lemma BlankQuestionFails<V>(p: Embedding.Provider, chapterContext: Option<string>, maxSources: int,
                              services: nat -> Services<V>)
    ensures ChatSchemas.ValidMessageText(" ")
    ensures AnswerQuestion(p, " ", chapterContext, maxSources, services).Failure?
    ensures AnswerQuestion(p, " ", chapterContext, maxSources, services).error.last
         == EmbedFailed(RetryError(Embedding.EmptyText))
  {
    var op := (a: nat) => AnswerAttempt(p, " ", chapterContext, maxSources, services(a));
    forall a: nat
      ensures op(a) == Failure(EmbedFailed(RetryError(Embedding.EmptyText)))
    {
      assert AllWhitespace(" ");
      Embedding.BlankTextIsRefused(" ", services(a).embedCall);
    }
    assert RetryFrom(op, 2, 3) == Failure(RetryError(EmbedFailed(RetryError(Embedding.EmptyText))));
  }

  // ------------------------------------------------- get_suggested_questions

  const Suggestions: seq<string> := [
    "What are the key concepts in this chapter?",
    "Can you explain the main example in more detail?",
    "What are common mistakes to avoid here?"
  ]

  /** Python's `xs[:k]`, a negative `k` counting from the end. */
  function PrefixSlice<T>(xs: seq<T>, k: int): (r: seq<T>)
    ensures 0 <= k ==> |r| == if k < |xs| then k else |xs|
    ensures k < 0 ==> |r| == if -k < |xs| then |xs| + k else 0
    ensures r == xs[..|r|]
  {
    if k >= 0 then (if k < |xs| then xs[..k] else xs)
    else if -k < |xs| then xs[..|xs| + k] else []
  }

  /** `get_suggested_questions(chapter_path, limit)`: the chapter is not
      consulted. */
  function SuggestedQuestions(chapterPath: string, limit: int): (r: seq<string>)
    ensures 0 <= limit ==> r == Suggestions[..if limit < 3 then limit else 3]
    ensures limit < 0 ==> r == Suggestions[..if -limit < 3 then 3 + limit else 0]
  {
    PrefixSlice(Suggestions, limit)
  }

  /** The default `limit = 3` gives the whole list, for any chapter. */
  lemma DefaultSuggestions(chapterPath: string)
    ensures SuggestedQuestions(chapterPath, 3) == Suggestions
  {
  }
}

=== FILE: retrying.dfy ===
/** tenacity's `@retry(stop=stop_after_attempt(n))` as the backend uses it,
    with the library's default `reraise=False`: the wrapped call is repeated
    until it returns, at most `n` times in all, and after `n` failures the
    caller receives a `RetryError` that holds the last attempt's exception.
    The exponential wait between attempts is wall-clock behaviour and is not
    modelled. An operation is given as a function from the attempt number
    (0, 1, ...) to what that attempt returns or raises. */
module Retrying {
  import opened Wrappers

  /** tenacity's `RetryError`, carrying the last attempt's exception. */
  datatype RetryError<+E> = RetryError(last: E)

  /** `stop_after_attempt(3)`, the stop condition of every decorated method. */
  const Attempts: nat := 3

  /** Attempts `from`, `from + 1`, ..., `stop - 1` of `op`. */
  function RetryFrom<T, E>(op: nat -> Result<T, E>, from: nat, stop: nat): Result<T, RetryError<E>>
    requires from < stop
    decreases stop - from
  {
    match op(from)
    case Success(v) => Success(v)
    case Failure(e) => if from + 1 == stop then Failure(RetryError(e)) else RetryFrom(op, from + 1, stop)
  }

  /** The decorated call: at most `stop` attempts, starting with attempt 0. */
  function Retried<T, E>(op: nat -> Result<T, E>, stop: nat): Result<T, RetryError<E>>
    requires stop >= 1
  {
    RetryFrom(op, 0, stop)
  }

  /** The first attempt that returns decides the result. */
  lemma {:induction false} FirstSuccessWins<T, E>(op: nat -> Result<T, E>, from: nat, stop: nat, a: nat)
    requires from <= a < stop
    requires op(a).Success?
    requires forall b :: from <= b < a ==> op(b).Failure?
    ensures RetryFrom(op, from, stop) == Success(op(a).value)
    decreases a - from
  {
    if from < a {
      FirstSuccessWins(op, from + 1, stop, a);
    }
  }

  /** A failure means that every one of the `stop - from` attempts raised,
      and the error surfaced wraps the last one's exception. */
  lemma {:induction false} FailureMeansAllAttemptsFailed<T, E>(op: nat -> Result<T, E>, from: nat, stop: nat)
    requires from < stop
    requires RetryFrom(op, from, stop).Failure?
    ensures forall a :: from <= a < stop ==> op(a).Failure?
    ensures RetryFrom(op, from, stop) == Failure(RetryError(op(stop - 1).error))
    decreases stop - from
  {
    if from + 1 < stop && op(from).Failure? {
      FailureMeansAllAttemptsFailed(op, from + 1, stop);
    }
  }

  /** A success is the value of some attempt within the bound, and every
      attempt before it raised. */
  lemma {:induction false} SuccessComesFromAnAttempt<T, E>(op: nat -> Result<T, E>, from: nat, stop: nat)
    requires from < stop
    requires RetryFrom(op, from, stop).Success?
    ensures exists a :: from <= a < stop && op(a) == Success(RetryFrom(op, from, stop).value)
                        && forall b :: from <= b < a ==> op(b).Failure?
    decreases stop - from
  {
    if op(from).Failure? {
      SuccessComesFromAnAttempt(op, from + 1, stop);
    }
  }
}

=== FILE: schemas.dfy ===
/** The field constraints of the chat API's request and response models
    (backend/app/schemas/chat.py), as validity predicates. Models with no
    constraint beyond their field types (the session and message records)
    are not modelled. */
module ChatSchemas {
  import opened Wrappers

  /** `MessageRole`, a string enumeration. */
  datatype MessageRole = User | Assistant | System

  function RoleValue(r: MessageRole): string {
    match r
    case User => "user"
    case Assistant => "assistant"
    case System => "system"
  }

  /** `MessageRole(value)`: the role with that value, or none (pydantic
      rejects the value). */
  function ParseRole(value: string): (r: Option<MessageRole>)
    ensures r.Some? <==> value == "user" || value == "assistant" || value == "system"
  {
    if value == "user" then Some(User)
    else if value == "assistant" then Some(Assistant)
    else if value == "system" then Some(System)
    else None
  }

  /** Every role is read back from its value, and no two roles share one. */
  lemma RoleRoundTrip(r: MessageRole, s: MessageRole)
    ensures ParseRole(RoleValue(r)) == Some(r)
    ensures r != s ==> RoleValue(r) != RoleValue(s)
  {
  }

  /** The `Source` of a chat response. */
  datatype Source = Source(chapter: string, section: string, url: string, relevanceScore: real, snippet: string)

  const MaxSnippetLength: nat := 500

  /** `relevance_score` in `[0, 1]` and at most 500 characters of snippet. */
  predicate ValidSource(s: Source) {
    0.0 <= s.relevanceScore <= 1.0 && |s.snippet| <= MaxSnippetLength
  }

  const MinMessageLength: nat := 1
  const MaxMessageLength: nat := 2000

  /** The length bounds shared by a message and a quick question. */
  predicate ValidMessageText(text: string) {
    MinMessageLength <= |text| <= MaxMessageLength
  }

  datatype CreateSessionRequest = CreateSessionRequest(contextChapter: Option<string>)
  datatype SendMessageRequest = SendMessageRequest(content: string)
  datatype QuickQuestionRequest = QuickQuestionRequest(question: string, contextChapter: Option<string>)

  predicate ValidSendMessage(r: SendMessageRequest) {
    ValidMessageText(r.content)
  }

  predicate ValidQuickQuestion(r: QuickQuestionRequest) {
    ValidMessageText(r.question)
  }

  /** The chapter context never decides validity: a quick question is valid
      with or without one, exactly when its text is, and that is the same
      rule as for a message. */
  lemma ContextChapterOptional(question: string, chapter: string)
    ensures ValidQuickQuestion(QuickQuestionRequest(question, None))
        <==> ValidQuickQuestion(QuickQuestionRequest(question, Some(chapter)))
    ensures ValidQuickQuestion(QuickQuestionRequest(question, None)) <==> ValidSendMessage(SendMessageRequest(question))
    ensures ValidQuickQuestion(QuickQuestionRequest(question, None)) <==> question != [] && |question| <= 2000
  {
  }
}

=== FILE: text.dfy ===
/** The Python string operations the backend relies on, written out over
    `seq<char>`: `isspace`, `strip()`, `split()`, `split(sep)`, `join`,
    `lower()`, `startswith`, `in` and `str()` of a non-negative integer. */
module Text {

  /** Python's `str.isspace()` set, which `split()` and `strip()` use. */
  predicate IsWhitespace(c: char) {
    || c == ' '
    || ('\t' <= c <= '\r')
    || ('\U{1C}' <= c <= '\U{1F}')
    || c == '\U{85}' || c == '\U{A0}' || c == '\U{1680}'
    || ('\U{2000}' <= c <= '\U{200A}')
    || c == '\U{2028}' || c == '\U{2029}' || c == '\U{202F}' || c == '\U{205F}' || c == '\U{3000}'
  }

  predicate AllWhitespace(s: string) {
    forall i :: 0 <= i < |s| ==> IsWhitespace(s[i])
  }

  /** Concatenation regrouped, for strings built piece by piece. */
  lemma ConcatAssoc<T>(a: seq<T>, b: seq<T>, c: seq<T>)
    ensures a + b + c == a + (b + c)
  {
  }

  // ---------------------------------------------------------------- strip()

  /** Number of whitespace characters `strip()` removes at the front. */
  function LeadingWhitespace(s: string): (k: nat)
    ensures k <= |s|
    ensures forall i :: 0 <= i < k ==> IsWhitespace(s[i])
    ensures k < |s| ==> !IsWhitespace(s[k])
  {
    if |s| > 0 && IsWhitespace(s[0]) then 1 + LeadingWhitespace(s[1..]) else 0
  }

  /** Number of whitespace characters `strip()` removes at the back. */
  function TrailingWhitespace(s: string): (k: nat)
    ensures k <= |s|
    ensures forall i :: |s| - k <= i < |s| ==> IsWhitespace(s[i])
    ensures k < |s| ==> !IsWhitespace(s[|s| - 1 - k])
  {
    if |s| > 0 && IsWhitespace(s[|s| - 1]) then 1 + TrailingWhitespace(s[..|s| - 1]) else 0
  }

  /** Python's `s.strip()`: the longest infix of `s` that neither starts nor
      ends with whitespace. */
  function Strip(s: string): (r: string)
    ensures |r| <= |s|
    ensures LeadingWhitespace(s) + |r| <= |s|
    ensures r == s[LeadingWhitespace(s)..LeadingWhitespace(s) + |r|]
    ensures r == [] <==> AllWhitespace(s)
    ensures r != [] ==> !IsWhitespace(r[0]) && !IsWhitespace(r[|r| - 1])
    ensures forall i :: LeadingWhitespace(s) + |r| <= i < |s| ==> IsWhitespace(s[i])
  {
    var a := LeadingWhitespace(s);
    if a == |s| then [] else s[a..|s| - TrailingWhitespace(s)]
  }

  /** `strip()` adds no character: one absent from `s` is absent from the
      result. */
  lemma StripKeepsOut(s: string, c: char)
    requires c !in s
    ensures c !in Strip(s)
  {
    var r := Strip(s);
    assert forall k :: 0 <= k < |r| ==> r[k] == s[LeadingWhitespace(s) + k];
  }

  /** A string with no whitespace at either end is its own `strip()`. */
  lemma StripOfTrimmed(s: string)
    requires s != [] ==> !IsWhitespace(s[0]) && !IsWhitespace(s[|s| - 1])
    ensures Strip(s) == s
  {
    if s != [] {
      assert LeadingWhitespace(s) == 0;
      assert TrailingWhitespace(s) == 0;
    }
  }

  // ---------------------------------------------------------------- split()

  predicate IsWord(w: string) {
    w != [] && forall i :: 0 <= i < |w| ==> !IsWhitespace(w[i])
  }

  /** Length of the run of non-whitespace characters at the front of `s`. */
  function WordLength(s: string): (k: nat)
    ensures k <= |s|
    ensures forall i :: 0 <= i < k ==> !IsWhitespace(s[i])
    ensures k < |s| ==> IsWhitespace(s[k])
  {
    if |s| > 0 && !IsWhitespace(s[0]) then 1 + WordLength(s[1..]) else 0
  }

  /** Python's `s.split()` with no argument: the maximal runs of
      non-whitespace characters, in order. */
  function Words(s: string): (ws: seq<string>)
    ensures ws == [] <==> AllWhitespace(s)
    decreases |s|
  {
    if s == [] then []
    else if IsWhitespace(s[0]) then
      SkipWhitespace(s);
      Words(s[1..])
    else
      assert !AllWhitespace(s);
      var w := WordLength(s);
      [s[..w]] + Words(s[w..])
  }

  /** Leading whitespace does not decide whether a string is blank. */
  lemma SkipWhitespace(s: string)
    requires s != [] && IsWhitespace(s[0])
    ensures AllWhitespace(s) <==> AllWhitespace(s[1..])
  {
    assert forall i :: 1 <= i < |s| ==> s[i] == s[1..][i - 1];
  }

  /** A non-empty run of non-whitespace characters is a word. */
  lemma PrefixIsWord(r: string, w: nat)
    requires 1 <= w <= |r|
    requires forall i :: 0 <= i < w ==> !IsWhitespace(r[i])
    ensures IsWord(r[..w])
  {
    forall j | 0 <= j < w
      ensures !IsWhitespace(r[..w][j])
    {
      assert r[..w][j] == r[j];
    }
  }

  /** Every piece `split()` yields is a word. */
  lemma {:induction false} WordsAreWords(s: string)
    ensures forall i :: 0 <= i < |Words(s)| ==> IsWord(Words(s)[i])
    decreases |s|
  {
    if s == [] {
    } else if IsWhitespace(s[0]) {
      WordsAreWords(s[1..]);
    } else {
      var w := WordLength(s);
      WordsAreWords(s[w..]);
      var tail := Words(s[w..]);
      assert Words(s) == [s[..w]] + tail;
      PrefixIsWord(s, w);
      forall i | 1 <= i < |Words(s)|
        ensures IsWord(Words(s)[i])
      {
        assert Words(s)[i] == tail[i - 1];
      }
    }
  }

  /** Python's `sep.join(parts)`. */
  function Join(sep: string, parts: seq<string>): string
  {
    if |parts| == 0 then ""
    else if |parts| == 1 then parts[0]
    else parts[0] + sep + Join(sep, parts[1..])
  }

  /** What `' '.join(s.split())` yields: whitespace occurs only as single
      spaces strictly inside the text, each followed by a non-whitespace
      character. */
  predicate Normalized(s: string) {
    forall i :: 0 <= i < |s| && IsWhitespace(s[i]) ==>
      s[i] == ' ' && 0 < i < |s| - 1 && !IsWhitespace(s[i + 1])
  }

  /** The whitespace clean-up `' '.join(content.split())` of both text
      extractors. */
  function NormalizeWhitespace(s: string): (r: string)
    ensures Normalized(r)
    ensures r == [] <==> AllWhitespace(s)
    ensures Words(r) == Words(s)
  {
    WordsAreWords(s);
    JoinWordsNormalized(Words(s));
    WordsOfJoin(Words(s));
    Join(" ", Words(s))
  }

  lemma {:induction false} JoinWordsNormalized(ws: seq<string>)
    requires forall i :: 0 <= i < |ws| ==> IsWord(ws[i])
    ensures Normalized(Join(" ", ws))
    ensures ws == [] <==> Join(" ", ws) == []
    ensures ws != [] ==> !IsWhitespace(Join(" ", ws)[0])
  {
    if |ws| > 1 {
      JoinWordsNormalized(ws[1..]);
      var w, j := ws[0], Join(" ", ws[1..]);
      var s := w + " " + j;
      assert s == Join(" ", ws);
      forall i | 0 <= i < |s| && IsWhitespace(s[i])
        ensures s[i] == ' ' && 0 < i < |s| - 1 && !IsWhitespace(s[i + 1])
      {
        assert forall k :: 0 <= k < |w| ==> s[k] == w[k] && !IsWhitespace(s[k]);
        assert i >= |w|;
        if i > |w| {
          assert s[i] == j[i - |w| - 1];
          assert s[i + 1] == j[i - |w|];
        }
      }
    }
  }

  /** `split()` undoes `' '.join(...)` of words. */
  lemma {:induction false} WordsOfJoin(ws: seq<string>)
    requires forall i :: 0 <= i < |ws| ==> IsWord(ws[i])
    ensures Words(Join(" ", ws)) == ws
  {
    if |ws| == 0 {
      assert Words("") == [];
    } else if |ws| == 1 {
      WordsOfWordPrefix(ws[0], "");
      assert ws[0] + "" == ws[0];
      assert Words("") == [];
    } else {
      WordsOfJoin(ws[1..]);
      WordsOfJoinCons(ws[0], ws[1..]);
      assert [ws[0]] + ws[1..] == ws;
    }
  }

  lemma WordsOfJoinCons(w: string, ws: seq<string>)
    requires IsWord(w) && ws != []
    requires Words(Join(" ", ws)) == ws
    ensures Words(Join(" ", [w] + ws)) == [w] + ws
  {
    var j := Join(" ", ws);
    assert Join(" ", [w] + ws) == w + (" " + j) by {
      assert ([w] + ws)[1..] == ws;
    }
    assert Words(w + (" " + j)) == [w] + Words(" " + j) by {
      WordsOfWordPrefix(w, " " + j);
    }
    assert Words(" " + j) == Words(j) by {
      WordsSkipsWhitespace(" ", j);
    }
  }

  lemma WordsOfWordPrefix(w: string, rest: string)
    requires IsWord(w)
    requires rest == [] || IsWhitespace(rest[0])
    ensures Words(w + rest) == [w] + Words(rest)
  {
    var s := w + rest;
    WordLengthOfWordPrefix(w, rest);
    assert s[..|w|] == w && s[|w|..] == rest;
  }

  lemma {:induction false} WordLengthOfWordPrefix(w: string, rest: string)
    requires forall i :: 0 <= i < |w| ==> !IsWhitespace(w[i])
    requires rest == [] || IsWhitespace(rest[0])
    ensures WordLength(w + rest) == |w|
  {
    if w != [] {
      assert (w + rest)[1..] == w[1..] + rest;
      WordLengthOfWordPrefix(w[1..], rest);
    }
  }

  lemma WordsDropsWhitespace(s: string)
    requires s != [] && IsWhitespace(s[0])
    ensures Words(s) == Words(s[1..])
  {
  }

  lemma {:induction false} WordsSkipsWhitespace(ws: string, rest: string)
    requires AllWhitespace(ws)
    ensures Words(ws + rest) == Words(rest)
    decreases |ws|
  {
    if ws != [] {
      var s := ws + rest;
      assert s[1..] == ws[1..] + rest;
      WordsDropsWhitespace(s);
      WordsSkipsWhitespace(ws[1..], rest);
    } else {
      assert ws + rest == rest;
    }
  }

  // ---------------------------------------------------------- split(sep)

  /** Index of the first `c` in `s`, or `|s|` when there is none. */
  function Find(s: string, c: char): (k: nat)
    ensures k <= |s|
    ensures forall i :: 0 <= i < k ==> s[i] != c
    ensures k < |s| ==> s[k] == c
  {
    if s == [] then 0 else if s[0] == c then 0 else 1 + Find(s[1..], c)
  }

  function Count(s: string, c: char): nat
  {
    if s == [] then 0 else (if s[0] == c then 1 else 0) + Count(s[1..], c)
  }

  /** Python's `s.split(sep)` for a one-character separator: the pieces
      between separators, empty pieces included. */
  function Split(s: string, sep: char): (parts: seq<string>)
    ensures parts != []
    ensures forall i :: 0 <= i < |parts| ==> sep !in parts[i]
    decreases |s|
  {
    var k := Find(s, sep);
    if k == |s| then [s] else [s[..k]] + Split(s[k + 1..], sep)
  }

  lemma {:induction false} CountSplitAt(s: string, c: char, k: nat)
    requires k <= |s| && forall i :: 0 <= i < k ==> s[i] != c
    ensures Count(s, c) == Count(s[k..], c)
  {
    if k > 0 {
      CountSplitAt(s[1..], c, k - 1);
      assert s[1..][k - 1..] == s[k..];
    }
  }

  /** `split(sep)` yields one piece more than there are separators. */
  lemma {:induction false} SplitLength(s: string, sep: char)
    ensures |Split(s, sep)| == Count(s, sep) + 1
    decreases |s|
  {
    var k := Find(s, sep);
    CountSplitAt(s, sep, k);
    if k < |s| {
      SplitLength(s[k + 1..], sep);
      assert s[k..][1..] == s[k + 1..];
    }
  }

  /** `split(sep)` undoes `sep.join(parts)` when no part holds `sep`. */
  lemma {:induction false} SplitOfJoin(parts: seq<string>, sep: char)
    requires parts != []
    requires forall i :: 0 <= i < |parts| ==> sep !in parts[i]
    ensures Split(Join([sep], parts), sep) == parts
  {
    var p := parts[0];
    if |parts| > 1 {
      var rest := Join([sep], parts[1..]);
      var s := p + [sep] + rest;
      assert s == Join([sep], parts);
      assert s[|p|] == sep && forall i :: 0 <= i < |p| ==> s[i] != sep;
      assert Find(s, sep) == |p|;
      SplitOfJoin(parts[1..], sep);
      assert s[..|p|] == p && s[|p| + 1..] == rest;
    }
  }

  // ------------------------------------------------- lower(), startswith, in

  /** `lower()` on one character; only the ASCII letters are mapped. */
  function LowerChar(c: char): char {
    if 'A' <= c <= 'Z' then (c as int + 32) as char else c
  }

  function Lower(s: string): (r: string)
    ensures |r| == |s|
    ensures forall i :: 0 <= i < |s| ==> r[i] == LowerChar(s[i])
  {
    seq(|s|, i requires 0 <= i < |s| => LowerChar(s[i]))
  }

  /** A string already in lower case is its own `lower()`. */
  lemma LowerOfLower(s: string)
    requires forall i :: 0 <= i < |s| ==> !('A' <= s[i] <= 'Z')
    ensures Lower(s) == s
  {
  }

  predicate StartsWith(s: string, prefix: string) {
    |prefix| <= |s| && s[..|prefix|] == prefix
  }

  /** Python's `sub in s`. */
  predicate Contains(s: string, sub: string) {
    exists i | 0 <= i <= |s| - |sub| :: OccursAt(s, sub, i)
  }

  predicate OccursAt(s: string, sub: string, i: nat)
    requires i + |sub| <= |s|
  {
    s[i..i + |sub|] == sub
  }

  // ------------------------------------------------------------- str(n)

  function DigitChar(d: nat): char
    requires d < 10
  {
    (d + '0' as int) as char
  }

  predicate IsDigits(s: string) {
    forall i :: 0 <= i < |s| ==> '0' <= s[i] <= '9'
  }

  /** Python's `str(n)` for `n >= 0`. */
  function NatToDecimal(n: nat): (r: string)
    ensures r != [] && IsDigits(r)
    ensures |r| > 1 ==> r[0] != '0'
  {
    if n < 10 then [DigitChar(n)] else NatToDecimal(n / 10) + [DigitChar(n % 10)]
  }

  /** Python's `int(s)` for a string of decimal digits. */
  function DecimalValue(s: string): nat
    requires IsDigits(s)
  {
    if s == [] then 0 else 10 * DecimalValue(s[..|s| - 1]) + (s[|s| - 1] as int - '0' as int)
  }

  /** `int(str(n)) == n`. */
  lemma {:induction false} DecimalRoundTrip(n: nat)
    ensures DecimalValue(NatToDecimal(n)) == n
  {
    if n >= 10 {
      DecimalRoundTrip(n / 10);
      var r := NatToDecimal(n);
      assert r[..|r| - 1] == NatToDecimal(n / 10);
    }
  }
}

=== FILE: vector_store.dfy ===
/** The Qdrant wrapper of the chat backend (backend/app/services/qdrant_client.py):
    collection management, the search filter and result mapping, and the
    point mapping of `upsert_chunks`. The server is modelled by the
    collections it holds, each name mapped to its vector size; searching and
    upserting are calls into the client, given as parameters. */
module VectorStore {
  import opened Wrappers
  import opened Text
  import opened Batching
  import Embedding

  /** The defaults of `search_similar`'s `limit` and `score_threshold`. */
  const DefaultSearchLimit: int := 5
  const DefaultScoreThreshold: real := 0.7

  /** `1024 if settings.ai_provider.lower() == "cohere" else 1536`. */
  function VectorSize(aiProvider: string): (size: nat)
    ensures size == 1024 <==> Lower(aiProvider) == "cohere"
    ensures size == 1024 || size == 1536
  {
    if Lower(aiProvider) == "cohere" then 1024 else 1536
  }

  /** A new collection is sized for the vectors the embedding service of the
      same setting produces. */
  lemma VectorSizeMatchesEmbeddingDimension(aiProvider: string)
    ensures VectorSize(aiProvider) == Embedding.Dimension(Embedding.ProviderOf(aiProvider))
  {
  }

  // ------------------------------------------------- ensure_collection_exists

  /** The collections after a successful `ensure_collection_exists(name)`:
      unchanged when `name` is already there, else with `name` added at
      `size`. */
  function Ensured(collections: map<string, nat>, name: string, size: nat): map<string, nat>
  {
    if name in collections then collections else collections[name := size]
  }

  /** Afterwards the collection exists, and no other collection was added,
      removed or resized. */
  lemma EnsuredHasCollection(collections: map<string, nat>, name: string, size: nat)
    ensures name in Ensured(collections, name, size)
    ensures name !in collections ==> Ensured(collections, name, size)[name] == size
    ensures forall n :: n != name ==>
      (n in Ensured(collections, name, size) <==> n in collections)
    ensures forall n :: n != name && n in collections ==> Ensured(collections, name, size)[n] == collections[n]
  {
  }

  /** Checking twice is checking once. */
  lemma EnsuredIdempotent(collections: map<string, nat>, name: string, size: nat)
    ensures Ensured(Ensured(collections, name, size), name, size) == Ensured(collections, name, size)
  {
  }

  /** An existing collection is kept as it is even when its vector size is
      not the configured one: the size is never compared. */
  lemma ExistingSizeNotChecked(collections: map<string, nat>, name: string, size: nat)
    requires name in collections && collections[name] != size
    ensures Ensured(collections, name, size) == collections
    ensures Ensured(collections, name, size)[name] != size
  {
  }

  /** The Qdrant server as the chat backend sees it. */
  class QdrantStore {
    /** Every collection's name and vector size. */
    var collections: map<string, nat>

    constructor(initial: map<string, nat>)
      ensures collections == initial
    {
      collections := initial;
    }

    /** `ensure_collection_exists(client)` for the configured collection
        `name`: list the collections, create `name` with the provider's
        vector size when it is absent. An error of the listing call
        (`listError`) or of the creation call (`createError`) is logged and
        re-raised, and then nothing has changed. */
    method EnsureCollectionExists(name: string, aiProvider: string, listError: Option<string>, createError: Option<string>)
      returns (r: Outcome<string>)
      modifies this
      ensures listError.Some? ==> r == Fail(listError.value) && collections == old(collections)
      ensures listError.None? && name in old(collections) ==> r == Pass && collections == old(collections)
      ensures listError.None? && name !in old(collections) && createError.Some? ==>
        r == Fail(createError.value) && collections == old(collections)
      ensures listError.None? && (name in old(collections) || createError.None?) ==> r == Pass
      ensures collections == if r.Pass? then Ensured(old(collections), name, VectorSize(aiProvider)) else old(collections)
    {
      var vectorSize := VectorSize(aiProvider);
      if listError.Some? {
        return Fail(listError.value);
      }
      var names := collections.Keys;
      if name !in names {
        if createError.Some? {
          return Fail(createError.value);
        }
        collections := collections[name := vectorSize];
      }
      r := Pass;
    }
  }

  // ------------------------------------------------------------ search_similar

  /** `MatchValue(value=...)` (exact) and `MatchText(text=...)` (full text). */
  datatype Match = MatchValue(value: string) | MatchText(text: string)

  datatype FieldCondition = FieldCondition(key: string, matches: Match)

  /** A Qdrant `Filter` whose conditions must all hold. */
  datatype Filter = Filter(must: seq<FieldCondition>)

  /** The filter `search_similar` passes: none for `None` or an empty
      dictionary (given by its items in order), else one exact-match
      condition per item. */
  function SearchFilter(conditions: Option<seq<(string, string)>>): (f: Option<Filter>)
    ensures f.None? <==> conditions.None? || conditions.value == []
    ensures f.Some? ==> |f.value.must| == |conditions.value|
    ensures f.Some? ==> forall i :: 0 <= i < |conditions.value| ==>
      f.value.must[i] == FieldCondition(conditions.value[i].0, MatchValue(conditions.value[i].1))
  {
    match conditions
    case None => None
    case Some(items) =>
      if items == [] then None
      else Some(Filter(seq(|items|, i requires 0 <= i < |items| => FieldCondition(items[i].0, MatchValue(items[i].1)))))
  }

  /** The key and value an exact-match condition tests. */
  function ConditionItem(c: FieldCondition): (string, string)
    requires c.matches.MatchValue?
  {
    (c.key, c.matches.value)
  }

  /** The filter states exactly the given conditions: reading them back
      yields the items it was built from. */
  lemma SearchFilterRoundTrip(items: seq<(string, string)>)
    requires items != []
    ensures var must := SearchFilter(Some(items)).value.must;
      forall c :: c in must ==> c.matches.MatchValue?
    ensures var must := SearchFilter(Some(items)).value.must;
      seq(|must|, i requires 0 <= i < |must| && must[i].matches.MatchValue? => ConditionItem(must[i])) == items
  {
  }

  /** A point id as the store returns it: an unsigned integer or a UUID
      string. */
  datatype PointId = NumericId(n: nat) | StringId(s: string)

  /** `str(result.id)`. */
  function IdString(id: PointId): (s: string)
    ensures id.NumericId? ==> IsDigits(s) && s != []
  {
    match id
    case NumericId(n) => NatToDecimal(n)
    case StringId(s) => s
  }

  /** Distinct numeric ids stay distinct once rendered as strings. */
  lemma NumericIdStringsDistinct(a: nat, b: nat)
    requires a != b
    ensures IdString(NumericId(a)) != IdString(NumericId(b))
  {
    DecimalRoundTrip(a);
    DecimalRoundTrip(b);
  }

  /** One point the store's query answered, and the dictionary
      `search_similar` makes of it. */
  datatype ScoredPoint<P> = ScoredPoint(id: PointId, score: real, payload: P)
  datatype SearchHit<P> = SearchHit(id: string, score: real, payload: P)

  /** `[{"id": str(r.id), "score": r.score, "payload": r.payload} for r in results]`. */
  function SearchHits<P>(results: seq<ScoredPoint<P>>): (hits: seq<SearchHit<P>>)
    ensures |hits| == |results|
    ensures forall i :: 0 <= i < |results| ==>
      hits[i].id == IdString(results[i].id) && hits[i].score == results[i].score && hits[i].payload == results[i].payload
  {
    seq(|results|, i requires 0 <= i < |results| => SearchHit(IdString(results[i].id), results[i].score, results[i].payload))
  }

  /** The hits keep the store's order: the payloads and scores read from
      them are those of the query results, in the same order. */
  lemma SearchHitsKeepOrder<P>(results: seq<ScoredPoint<P>>)
    ensures MapSeq((h: SearchHit<P>) => h.payload, SearchHits(results)) == MapSeq((r: ScoredPoint<P>) => r.payload, results)
    ensures MapSeq((h: SearchHit<P>) => h.score, SearchHits(results)) == MapSeq((r: ScoredPoint<P>) => r.score, results)
  {
  }

  /** `search_similar(query_vector, limit, score_threshold, filter_conditions)`;
      `query` stands for the client's `query_points`, which answers or
      raises. */
  function SearchSimilar<V, P>(queryVector: V, limit: int, threshold: real, conditions: Option<seq<(string, string)>>,
                               query: (V, int, real, Option<Filter>) -> Result<seq<ScoredPoint<P>>, string>)
    : (r: Result<seq<SearchHit<P>>, string>)
    ensures r.Failure? <==> query(queryVector, limit, threshold, SearchFilter(conditions)).Failure?
    ensures r.Success? ==> r.value == SearchHits(query(queryVector, limit, threshold, SearchFilter(conditions)).value)
  {
    match query(queryVector, limit, threshold, SearchFilter(conditions))
    case Failure(e) => Failure(e)
    case Success(results) => Success(SearchHits(results))
  }

  // ------------------------------------------------------------ upsert_chunks

  /** An input chunk of `upsert_chunks` (a dictionary with "id", "vector"
      and "payload") and the `PointStruct` made of it. */
  datatype ChunkRecord<V, P> = ChunkRecord(id: PointId, vector: V, payload: P)
  datatype PointStruct<V, P> = PointStruct(id: PointId, vector: V, payload: P)

  /** The points `upsert_chunks` sends, one per chunk. */
  function UpsertPoints<V, P>(chunks: seq<ChunkRecord<V, P>>): (points: seq<PointStruct<V, P>>)
    ensures |points| == |chunks|
    ensures forall i :: 0 <= i < |chunks| ==>
      points[i].id == chunks[i].id && points[i].vector == chunks[i].vector && points[i].payload == chunks[i].payload
  {
    seq(|chunks|, i requires 0 <= i < |chunks| => PointStruct(chunks[i].id, chunks[i].vector, chunks[i].payload))
  }

  function RecordOf<V, P>(p: PointStruct<V, P>): ChunkRecord<V, P> {
    ChunkRecord(p.id, p.vector, p.payload)
  }

  /** Nothing is lost or changed on the way to the store: the chunks can be
      read back from the points. */
  lemma UpsertPointsRoundTrip<V, P>(chunks: seq<ChunkRecord<V, P>>)
    ensures MapSeq(RecordOf, UpsertPoints(chunks)) == chunks
  {
  }

  // --------------------------------------------------------- delete_by_chapter

  /** The filter of `delete_by_chapter(chapter_path)`: a full-text match of
      the path against the "url" field. */
  function DeleteFilter(chapterPath: string): (f: Filter)
    ensures |f.must| == 1 && f.must[0].key == "url" && f.must[0].matches == MatchText(chapterPath)
  {
    Filter([FieldCondition("url", MatchText(chapterPath))])
  }

  /** Deletion matches the path as text, not exactly as a search filter on
      the same item would. */
  lemma DeleteFilterIsNotExactMatch(chapterPath: string)
    ensures SearchFilter(Some([("url", chapterPath)])) != Some(DeleteFilter(chapterPath))
  {
    assert SearchFilter(Some([("url", chapterPath)])).value.must[0].matches.MatchValue?;
  }
}

=== FILE: wrappers.dfy ===
/** Failure-carrying values shared by every module of the model: a missing
    value, a computation that raises, a check that passes or fails. */
module Wrappers {

  datatype Option<+T> = None | Some(value: T) {
    function GetOr(default: T): T {
      match this
      case Some(v) => v
      case None => default
    }
  }

  /** A Python call that either returns a value or raises an exception. */
  datatype Result<+T, +E> = Success(value: T) | Failure(error: E)

  /** A Python call that returns nothing useful, or raises. */
  datatype Outcome<+E> = Pass | Fail(error: E)
}
